=== FILE: README.md ===
# Miofive dashcam video converter — a Dafny model

The Miofive converter is a small Node/Express server with a browser front end.
It scans a folder of dashcam recordings, lets the user pick a time range on a
timeline, and joins the chosen recordings into one MP4 with ffmpeg. This
project models the core of that program and proves properties of it. The core
covers:

- the recording name format `MMDDYY_HHMMSS_MMDDYY_HHMMSS_NNNNNNC.MP4`, where
  the first stamp is UTC, the second local time, and C is the camera channel
  A or B;
- the server's directory scan, its channel filter, its per-client rate limit,
  and the validation of a combine request, including how that request picks a
  free output name and writes the ffmpeg concat list;
- the page logic in the browser:
  - the select-all box and the time-range filter of the file list;
  - the range slider: its snap points, handle drags and the ±3 minute range
    around a file marker;
  - the checks the scan form makes, and the `YYYY-MM-DDTHH:MM:SS` text of its
    date inputs;
  - the folder browser's "up" path;
- the player page: previous and next, `MM:SS` times, the timeline, the
  playhead, and the recording a click on the timeline loads;
- the GitHub Pages demo: it replaces `fetch` with a mock that serves a fixed
  list of ten recordings and refuses to combine;
- the test-video generator's naming of the recordings it makes.

Modules follow the program's files:

- `Filename`, `Catalog`, `RateLimit` and `Combine` model `index.js`;
- `FolderBrowser` models `public/folder-browser.js`;
- `Player` models `public/player.js`;
- `Selection`, `RangeTimeline` and `ScanForm` model `public/app.js`;
- `DemoMock` models `public/demo-api-mock.js`;
- `TestVideos` models `generate-test-videos.js`;
- `Text`, `Sorting`, `Numeric` and `Wrappers` are shared helpers.

Sources of nondeterminism and the outside world are modelled as parameters:

- the file system is a tree of `Entry` values, and the set of existing output
  files is a set of paths;
- the clock is a `now` argument;
- whether ffmpeg is installed is a flag;
- the time zone is folded into times that arrive already converted;
- the order in which the scan reads a name's local date is a parameter:
  `YearMonthDay` is `index.js` as written, `MonthDayYear` the corrected
  reading (see Findings).

JavaScript semantics are modelled where they matter:

- a time bound counts only when it is truthy, so a bound of 0 imposes nothing
  on the server;
- `%` keeps the sign of the dividend;
- `URLSearchParams.get` returns the first match, and a `#` fragment is not
  part of the query;
- the mock parses `options.body || '{}'`.

## Model

| member | source | states |
|---|---|---|
| Filename.ParseFilename | index.js:59-92 | A name parses exactly when it ends in the 39-character pattern (two `dddddd_dddddd` stamps, six digits, channel A or B, `.MP4`, letters in any case); the local stamp is read month-day-year, like the UTC one (see Findings) |
| Filename.ParseFilenameAsWritten | index.js:76-84 | The parse as written matches the same names and reads the same UTC stamp; only the local date is read year-month-day |
| Filename.ReadName | index.js:61-84 | Parsing succeeds exactly for matching names; both years fall in 2000..2099; the sequence is the seven characters before `.MP4` |
| Filename.Tail | index.js:61 | The expression is anchored only at the end: the matched text is the name's last 39 characters |
| Filename.UtcMillisFixedPoints | index.js:74 | Example: `Date.UTC` of the epoch is 0, and 2025-01-01 10:00:00 is 1735725600000 |
| Filename.UtcMillisMonotoneInDay | index.js:74 | Within one day, a later time of day gives a strictly larger timestamp |
| Catalog.ExtensionKeepsRank | index.js:95-106 | Adding text to the end of a path never lowers its type in the order EMR, NORMAL, PARK, other: a folder already found is still found |
| Catalog.NoFolderIsOther | index.js:95-106 | A bare file name, with no separator in it, has type other, whatever words it contains |
| Catalog.FileTypeIgnoresCase | index.js:96 | Upper-casing the path does not change its type |
| Catalog.EmrWins | index.js:98-99 | A path with an `emr` folder is EMR, whatever else it contains |
| Catalog.ScanDirectory | index.js:108-147 | Every scan result is sorted by timestamp, for either reading of the local date |
| Catalog.ScanIsStableSortOfTraversal | index.js:108-147 | The recursive scan, which sorts at every level, equals one stable sort by timestamp of the depth-first traversal |
| Catalog.ScanResultsQualify | index.js:113-128 | Every scanned item passes the hidden-file, suffix and time-window filters |
| Catalog.FilterChannels | index.js:309-320 | The filtered list holds exactly the items whose name ends in A.MP4 (when A is asked for) or in B.MP4 (when B is asked for); sortedness is kept |
| Catalog.FilterChannelsAppend | index.js:316-319 | Filtering a concatenation filters each part and concatenates the results, so kept items stay in input order with their multiplicity |
| Catalog.FilterChannelsOfItem | index.js:316-319 | A single item is kept exactly when its name carries an asked channel |
| Catalog.FilterSortCommute | index.js:146-319 | Filtering by channel after the stable timestamp sort gives the same list as sorting the filtered list |
| Catalog.ScanEndpoint | index.js:306-326 | No folder path is a 400 error, and so is a folder that `fs.access` rejects (root None); otherwise the count matches the length and the files are exactly the stable timestamp sort of the depth-first traversal's items on the asked channels, so equal timestamps keep traversal order; the local-date reading is a parameter, `YearMonthDay` being the program as written |
| Catalog.UnlistableFolderEmpty | index.js:108-147 | A folder that passes `fs.access` but cannot be listed gets a successful reply with no files, not an error |
| RateLimit.CheckRateLimit | index.js:15-32 | Only the caller's entry changes; it restarts at 1 with a one-minute window when the caller is new or the window has passed, and otherwise counts up; the call is allowed exactly when the count is at most 100 |
| RateLimit.WithinWindow | index.js:19-32 | Calls inside one window add one each, and the i-th is allowed exactly when the running count stays within 100 |
| RateLimit.FreshClientBurst | index.js:160-165 | A new client's burst within one minute has its first 100 calls allowed and every later one refused |
| RateLimit.AdmittedAfterWindow | index.js:23-26 | Once the window has passed, the next call is allowed, whatever the count was |
| Combine.ParsePath | index.js:346 | POSIX `path.parse`: the name and extension together are the last segment of the path without its trailing separators; the extension starts with the segment's last `.` and holds no other, it is empty when that dot opens the segment or the segment is `..`, and neither part holds a separator |
| Combine.ParsePathDir | index.js:346 | The directory is everything before the separator that precedes the last segment, `/` when that separator opens the path, empty for a relative single segment, and `/` for a path of separators only |
| Combine.ParsePathJoin | index.js:346-355 | Joining the directory and the base name gives back the path without its trailing separators, when no separator is doubled |
| Combine.FirstFree | index.js:348-363 | The search returns the smallest counter in 1..9999 whose name is free, or nothing exactly when all 9999 are taken |
| Combine.ResolveOutputPath | index.js:345-373 | A free output path is kept, unless its access error mentions "Too many files", in which case that error is returned; a taken path becomes the first free `name_n.ext` with n at most 9999; the result never exists; a taken path fails with the "Too many files" message exactly when all candidates exist |
| Combine.GiveUpErrorMarked | index.js:365-370 | The give-up error carries the text the handler rethrows on, so it reaches the 500 reply |
| Combine.MarkedPathRefused | index.js:351-372 | A free output path whose text contains "Too many files" has an access error that contains it too, so the handler refuses it instead of writing to it |
| Combine.UnescapeEscape | index.js:377 | Escaping each `'` as `'\''` loses nothing: unescaping gives the path back |
| Combine.ParseListLine | index.js:377 | Every `file '…'` line reads back as its path |
| Combine.FileListRoundTrip | index.js:377 | For paths without newlines, the concat list has one line per file and reads back as the files in order |
| Combine.CombineEndpoint | index.js:329-401 | No files, then no output path, then no ffmpeg each refuse with 400 and the source's messages; a valid request with ffmpeg is refused (with 500) exactly when the path is taken and all 9999 candidates are too, or the path is free and its access error mentions "Too many files"; the 500 text is that error; a planned combine writes to the given path when free, otherwise to the first free candidate, never to an existing file, with the list of the given files |
| FolderBrowser.GetParentPath | public/folder-browser.js:148-185 | There is no parent exactly for an empty path, a drive root, `/`, or a path without a separator once trailing separators are stripped; a parent is non-empty and shorter than the path |
| FolderBrowser.GetParentPathIsReference | public/folder-browser.js:148-185 | The parent equals the independent reference: the part before the last separator, with separators normalised, a bare drive given its root, and the empty string read as `/` |
| FolderBrowser.UnixParentIsPrefix | public/folder-browser.js:162-184 | For a Unix path, the parent is `/` or a proper prefix of the path that ends just before a `/` |
| FolderBrowser.TrailingSeparatorIgnored | public/folder-browser.js:162 | A trailing separator does not change the parent |
| FolderBrowser.Ancestors | public/folder-browser.js:96-104 | Going up again and again ends, and every ancestor is shorter than the path |
| FolderBrowser.ParentOfTopLevelDirectory | public/folder-browser.js:162-182 | Example: the parent of `/home` is `/` |
| FolderBrowser.ParentOfDriveFolder | public/folder-browser.js:162-177 | Example: the parent of `D:\a` is the drive root `D:\` |
| Player.Start | public/player.js:35-42 | No files means no playlist (the page redirects); otherwise the playlist is a sorted permutation of the files, starting at the first with "previous" disabled |
| Player.LoadVideo | public/player.js:100-126 | An index outside the list changes nothing; an index inside the list becomes current, and the buttons are disabled exactly at the ends |
| Player.Next | public/player.js:128-133 | The next file is one further on, unless the current file is the last |
| Player.Prev | public/player.js:135-140 | The previous file is one further back, unless the current file is the first |
| Player.PrevUndoesNext | public/player.js:128-140 | Previous after next returns to the same state |
| Player.NextUndoesPrev | public/player.js:128-140 | Next after previous returns to the same state |
| Player.PlaysThrough | public/player.js:72-74 | Each `ended` event advances by one, stopping at the last file |
| Player.FormatTime | public/player.js:168-173 | NaN shows as `00:00` |
| Player.FormatTimeRoundTrip | public/player.js:168-173 | For a non-negative time, the `MM:SS` text reads back as the whole seconds, and its last two digits are below 60 |
| Player.MakeTimeline | public/player.js:176-190 | No timeline without files; otherwise it spans the earliest and latest start, both of which are real starts, and its range is positive, using the default range when the two coincide |
| Player.MarkerPlacement | public/player.js:191-198 | Markers are ordered by start time, from 0% for the earliest to 100% for the latest |
| Player.PositionMonotone | public/player.js:299-318 | A later instant is never placed left of an earlier one, and positions stay within 0..100% |
| Player.Playhead | public/player.js:299-318 | The playhead exists exactly when a file is current; while the playing instant (the file's start plus the playback time) is inside the timeline, a click at the playhead stands for that very instant; before the timeline it sits at 0%, after it at 100% |
| Player.PositionExact | public/player.js:299-318 | Inside the span, the instant a click at a position stands for is the instant placed there; outside, the position is pinned to the nearer end |
| Player.PlayheadAdvances | public/player.js:76-79 | As playback time grows, the playhead never moves back |
| Player.NearestIndex | public/player.js:224-243 | The chosen file starts closest to the clicked instant, and on a tie the earliest in the list wins |
| Player.ClickTrack | public/player.js:219-243 | A click loads the file whose start is closest to the clicked instant, the earliest of equally close files, and keeps the playlist valid |
| RangeTimeline.CreateSpan | public/app.js:329-341 | No span without files; otherwise every start lies within the span; one instant is widened half an hour each way, and otherwise the ends are real starts |
| RangeTimeline.PercentTimeRoundTrip | public/app.js:504-533 | Percent-to-time and time-to-percent are inverse to each other |
| RangeTimeline.PercentMonotone | public/app.js:523-533 | A later time gets a percentage no smaller |
| RangeTimeline.SimultaneousCentered | public/app.js:337-340 | Recordings that all start at once sit in the middle of the widened span |
| RangeTimeline.FullRangeCoversSpan | public/app.js:659-665 | The reset range 0–100% covers the whole span |
| RangeTimeline.SetRangeFromTimes | public/app.js:523-533 | Both handles land within 0..100%, at the ends when the time is outside the span |
| RangeTimeline.SetRangeFromTimesExact | public/app.js:523-533 | A time inside the span is hit exactly, and handle order follows time order |
| RangeTimeline.FileMarkerRangeKeepsFile | public/app.js:615-626 | Clicking a file marker selects a range of at most six minutes that contains the file |
| RangeTimeline.FindNearestSnapPoint | public/app.js:489-502 | It finds a marker nearer than the 1.5% threshold exactly when one exists, and then the nearest one, the earliest of equally near markers |
| RangeTimeline.NearestSnapUnique | public/app.js:489-502 | At most one marker is the nearest one in reach, so the snap target is determined |
| RangeTimeline.MoveHandle | public/app.js:577-583 | Only the dragged handle moves; it lands on the target, or, when that would leave less than 1% between the handles, as close to the target as the 1% gap allows; the handles never come closer than 1% |
| RangeTimeline.MoveHandleIdempotent | public/app.js:577-583 | Moving a handle twice to the same target is the same as moving it once |
| RangeTimeline.MoveHandleInPlace | public/app.js:577-583 | Moving a handle to where it already is leaves a range with the 1% gap unchanged |
| RangeTimeline.MoveHandleMonotone | public/app.js:577-583 | A target further right never leaves either handle further left |
| RangeTimeline.Drag | public/app.js:559-586 | A drag clamps the pointer to 0..100%; when a marker is within 1.5% the handle moves to the nearest such marker (the earliest on ties), otherwise to the clamped pointer; the other handle and the 1% gap are kept |
| RangeTimeline.ManualInput | public/app.js:535-549 | Missing inputs are ignored; a start not before the end is rejected with the page's message; otherwise the input is applied, as the range `setRangeFromTimes` gives for the two instants, and that range is ordered |
| RangeTimeline.ManualInputExact | public/app.js:535-549 | Typed instants inside the span put the handles exactly on them; a start before the span pins the start handle to 0% and an end after it pins the end handle to 100% |
| Selection.CountCheckedExtremes | public/app.js:218-233 | The checked count is 0 exactly when no box is checked, and the full length exactly when all are |
| Selection.SelectAllState | public/app.js:218-233 | The select-all box is checked exactly when all rows are, indeterminate exactly when some are and some are not, and never both |
| Selection.ToggleSelectAll | public/app.js:208-216 | Every row takes the select-all value and nothing else about it changes |
| Selection.ToggleThenState | public/app.js:208-233 | After toggling, the select-all box shows the chosen value and is not indeterminate |
| Selection.FilterByTimeRange | public/app.js:671-706 | A row is shown exactly when it starts inside the range, and stays checked exactly when it was checked and is shown |
| Selection.FilterIdempotent | public/app.js:671-706 | Filtering twice by the same range is the same as filtering once |
| Selection.VisibleAfterFilter | public/app.js:671-694 | The number the filter counts as it walks the list is the number of rows it leaves shown |
| Selection.RangeCountText | public/app.js:671-703 | The count line gives the number of scanned files and the number of rows shown after the range filter |
| Selection.SelectedPaths | public/app.js:841-845 | Every sent path belongs to a checked, visible row, and every checked, visible row's path is sent |
| Selection.SelectedPathsAppend | public/app.js:841-845 | The selection of a list is the selection of its first part followed by that of the rest, so paths are sent in list order |
| Selection.SelectedPathsOfRow | public/app.js:841-845 | One row contributes its path exactly when it is checked and visible |
| Selection.CombineSelection | public/app.js:831-860 | A blank output path is refused first, then an empty selection; otherwise the request carries the selected paths and the trimmed output path |
| Selection.NoBreakSpaceOutputRefused | public/app.js:831-835 | Example: an output field holding only a no-break space is blank to `trim` and is refused |
| Selection.SentFilesInRange | public/app.js:671-860 | After a range filter, every file sent to combine was checked and starts inside the range |
| Text.TrimEmpty | public/app.js:713 | `trim` leaves nothing exactly when every character is ECMAScript white space or a line terminator, Unicode space separators included |
| ScanForm.DateTimeLocalRoundTrip | public/app.js:116-124 | The `YYYY-MM-DDTHH:MM:SS` text reads back as the date-time it was made from |
| ScanForm.DateTimeLocalLength | public/app.js:116-124 | With a four-digit year the text is 19 characters long |
| ScanForm.AcceptedFilterAdmitsSomeInstant | public/app.js:182-199 | A date filter the form accepts never gives the server an empty window, and a disabled filter lets every instant through |
| ScanForm.SelectedChannels | public/app.js:201-206 | A channel is sent exactly when its box is checked |
| ScanForm.ScanFolder | public/app.js:712-760 | A blank folder, no channel, or a refused date filter stops the scan with the page's message; a sent request carries the trimmed folder, the checked channels, and ordered bounds |
| ScanForm.NoBreakSpaceFolderRefused | public/app.js:712-717 | Example: a folder field holding only a no-break space is blank to `trim` and is refused |
| ScanForm.FormRequestsAccepted | public/app.js:712-760 | A request the form sends passes the server's folder check and, for a readable folder, gets back only recordings of the checked channels |
| ScanForm.EpochStartIgnored | public/app.js:182-199 | A start bound at the epoch is sent but does not limit the server's scan |
| DemoMock.LookAlikeHostsRejected | public/demo-api-mock.js:7-10 | Example: `user.github.io` counts as GitHub Pages, while `github.io`, `user.github.io.example.com` and `evilgithub.io` do not |
| DemoMock.FixtureLayout | public/demo-api-mock.js:17-98 | The fixture holds ten channel-A recordings a minute apart |
| DemoMock.Scan | public/demo-api-mock.js:179-202 | The mock returns exactly the fixture files of the asked channels (A and B by default) within the inclusive bounds, in order, with a matching count |
| DemoMock.DefaultScanListsEverything | public/demo-api-mock.js:179-202 | With no filters, the mock lists the whole fixture in order |
| DemoMock.ChannelBFindsNothing | public/demo-api-mock.js:179-202 | Asking for channel B alone finds nothing |
| DemoMock.InclusiveBounds | public/demo-api-mock.js:189-194 | Example: bounds at the 4th and 7th recordings return those recordings and the two between them |
| DemoMock.WindowAgreesWithServer | public/demo-api-mock.js:189-194 | For bounds other than 0, the mock's window is the server's |
| DemoMock.EpochEndBoundDiffers | public/demo-api-mock.js:189-194 | Example: an end bound at the epoch hides a recording in the mock but not on the server |
| DemoMock.ListDirectories | public/demo-api-mock.js:126-174 | The tree is fixed: the root (an absent or empty path) alone has no parent and shows `test-data`; `test-data` shows `Normal` with the root as parent; `test-data/Normal` is empty with `test-data` as parent; any other path is empty with the root as parent; a listed folder's path is the current path followed by its name |
| DemoMock.TreeConsistent | public/demo-api-mock.js:126-174 | Opening a listed folder shows it with the listing as its parent, and going up lands on a listing that shows the folder |
| DemoMock.QueryParam | public/demo-api-mock.js:291-292 | There is no value exactly when no `&`-separated part of the query is the key or starts with `key=`; otherwise the value comes from the first such part |
| DemoMock.NamesUnique | public/demo-api-mock.js:291-292 | A query part gives its key one value only |
| DemoMock.Route | public/demo-api-mock.js:225-315 | Off GitHub Pages, or for a non-string or relative URL, the request goes to the network; a malformed body gives status 500 on the POST routes except combine; static files only for `/video?` |
| DemoMock.CombineAlwaysRefused | public/demo-api-mock.js:207-210 | Every POST to `/combine` on the demo gets status 400 |
| DemoMock.ScanNeedsPost | public/demo-api-mock.js:264-271 | A `/scan` request that is not a POST is not intercepted |
| DemoMock.ScanRouted | public/demo-api-mock.js:264-271 | A POST to `/scan` is answered from the mock with the body's filters, or with none for an absent body |
| DemoMock.VideoPathForwarded | public/demo-api-mock.js:290-303 | `/video?path=p` serves the static file p, with or without a `#` fragment after it |
| DemoMock.VideoRoute | public/demo-api-mock.js:290-303 | A `/video?` request is served from the first `path` value of its query when that value is non-empty, and refused with 400 otherwise; a fragment does not count |
| DemoMock.FirstPathServed | public/demo-api-mock.js:290-303 | Of two `path` parameters, the first one is served |
| DemoMock.VideoWithoutPathRefused | public/demo-api-mock.js:290-303 | `/video` with an empty path gets status 400 |
| TestVideos.YearSuffix | generate-test-videos.js:36-44 | The year is written as its last two digits |
| TestVideos.BaseFieldsRoundTrip | generate-test-videos.js:29-30 | Reading the UTC calendar fields of a generated instant and converting back gives the instant |
| TestVideos.StampsOneMinuteApart | generate-test-videos.js:63-70 | Generated recordings are a minute apart, in number order, in both clocks |
| TestVideos.NameRoundTrip | generate-test-videos.js:36-70 | A generated name parses back to its two date-times (in the 2000s) and its sequence, and is valid |
| TestVideos.GeneratedNamesParse | generate-test-videos.js:22-70 | Every one of the generated names parses, is valid, and has the instant it was generated for |
| TestVideos.AsWrittenMisreadsLocalDate | index.js:76-90 | The parse as written reads the local stamp of a generated name year-month-day; any day above 12, and any year ending in 00, makes the name invalid |
| TestVideos.MidMonthRecordingDropped | index.js:76-90 | Example: a recording made on 15 January 2025 is read with local month 15 and is invalid as written, while the corrected parse accepts it |
| TestVideos.GeneratedNameScanned | index.js:113-139 | With the local date read month first, the scan lists a generated recording exactly when its UTC instant passes the window, and lists it at that instant |
| TestVideos.LateDayDroppedAsWritten | index.js:76-139 | As written, the scan drops every generated recording whose local day is after the 12th, whatever the window |
| TestVideos.MidMonthScan | index.js:108-139 | Example: the recording of 15 January 2025 is missing from an unbounded scan as written and present with the corrected reading |
| TestVideos.VideoFilenameFields | generate-test-videos.js:63-70 | The n-th generated name is stamped 2025-01-01 10:(n-1) UTC and 05:(n-1) local |

## Left out

- The HTTP server itself (Express routing, JSON parsing, static files, the `/video`, `/demo-mode`, `/check-ffmpeg` and `/list-directories` server endpoints) is left out. These are plumbing around the modelled handlers.
- Running ffmpeg and writing the list file (`runStream`, the progress stream) are I/O. The model stops at the planned command input, and the list file's content is modelled.
- `install-ffmpeg.js` is left out because it is a platform download script.
- The DOM, rendering, `localStorage` (saved paths), `escapeHtml`, the time markers and half-day buttons, and `applyDatePreset` are presentation or storage. They are left out.
- Time zones are left out. Local date-times arrive already converted to instants, and the generator's local stamp is modelled as a fixed wall-clock offset.
- Floating point is modelled by exact reals. Rounding and `Infinity`/`NaN`, apart from `formatTime`'s NaN case, are left out.
- Upper-casing is ASCII only, because Unicode case mapping is not modelled.
- `path.join` normalisation of `..`, `.` and doubled separators is not modelled.
- Combine.ParsePath: POSIX `path` only; the Windows flavour (backslash separators, drive roots) is left out, as is the `root` field. Combine.JoinPath and Catalog.JoinPath are POSIX joins for the same reason.
- Combine.AccessError: the only `fs.access` failure modelled is Node's POSIX `ENOENT` message for a missing file; other failures (permissions, I/O errors) are left out, and a path in the set of existing files counts as accessible.
- DemoMock.QueryParam: percent-decoding and `+` as space, which `URLSearchParams` applies to names and values, are not modelled; the value is the raw text.
- A JSON body that is `null` or not an object, and an invalid date text, are left out. The mock's `demoMode`/`checkFFmpeg` replies are reduced to their constant fields.
- Player.FormatTime: states only the NaN case directly. For finite non-negative times the meaning is given by FormatTimeRoundTrip, and negative times are left out.
- Catalog.ScanDirectory: the listing error itself is not modelled. A folder that exists but cannot be listed, at any level, gives no items, because the source logs the error and skips the folder; the model writes such a folder as an empty entry list.

## Findings

| source | as written | input that shows it | evidently intended | confidence | as-written member | corrected member |
|---|---|---|---|---|---|---|
| index.js:77-79 | The local stamp is read as year, month, day (`YYMMDD`), while the UTC stamp is read as month, day, year | `011525_100000_011525_050000_000001A.MP4`, a recording of 15 January 2025: the local month reads as 15, `isValid` is false, and the scan drops the file | `MMDDYY` for both stamps, as the format comment at index.js:60 and the generator (generate-test-videos.js:36-57) write it | not executed | Filename.ParseFilenameAsWritten, shown by TestVideos.AsWrittenMisreadsLocalDate, TestVideos.MidMonthRecordingDropped and, for the scan with `YearMonthDay`, TestVideos.LateDayDroppedAsWritten | Filename.ParseFilename, proved by TestVideos.NameRoundTrip; with `MonthDayYear` the scan lists generated recordings by their instant (TestVideos.GeneratedNameScanned) |

The scan (`Catalog.ScanFile` up to `Catalog.ScanEndpoint`) takes the reading
as a parameter, so every property proved of it holds for the program as
written and for the corrected reading alike.

The demo's fixture names (`010125_…`) happen to parse under both readings
(as written, the local date becomes 2001-01-25), which is why the demo does not
show the defect.

=== FILE: catalog.dfy ===
/** The server's segment catalog (index.js): file-type classification,
    the recursive folder scan with its filters and sort, and the `/scan`
    endpoint's channel filter. The file system is an explicit tree. */
module Catalog {
  import opened Wrappers
  import opened Text
  import opened Sorting
  import opened Filename

  // ------------------------------------------------------------ file types

  datatype FileType = Emr | Normal | Park | Other

  /** The upper-cased path names a folder starting with `word`, after a `/` or a `\`. */
  predicate UnderFolder(upper: string, word: string) {
    Contains(upper, "/" + word) || Contains(upper, "\\" + word)
  }

  /** `getFileType`: the first of EMR, NORMAL, PARK found after a separator,
      compared case-insensitively; otherwise Other. */
  function GetFileType(path: string): (r: FileType)
    ensures r == Emr <==> UnderFolder(Upper(path), "EMR")
    ensures r == Normal <==> !UnderFolder(Upper(path), "EMR") && UnderFolder(Upper(path), "NORMAL")
    ensures r == Park <==> !UnderFolder(Upper(path), "EMR") && !UnderFolder(Upper(path), "NORMAL")
                           && UnderFolder(Upper(path), "PARK")
    ensures r == Other <==> !UnderFolder(Upper(path), "EMR") && !UnderFolder(Upper(path), "NORMAL")
                            && !UnderFolder(Upper(path), "PARK")
  {
    var u := Upper(path);
    if UnderFolder(u, "EMR") then Emr
    else if UnderFolder(u, "NORMAL") then Normal
    else if UnderFolder(u, "PARK") then Park
    else Other
  }

  /** The classification ignores letter case. */
  lemma FileTypeIgnoresCase(path: string)
    ensures GetFileType(Upper(path)) == GetFileType(path)
  {
    UpperIdempotent(path);
  }

  /** An emergency folder anywhere on the path wins over every other folder name. */
  lemma EmrWins(prefix: string, sep: char, rest: string)
    requires sep == '/' || sep == '\\'
    ensures GetFileType(prefix + [sep] + "emr" + rest) == Emr
  {
    var p := prefix + [sep] + "emr" + rest;
    var u := Upper(p);
    assert u[|prefix|..|prefix| + 4] == [sep] + "EMR";
    assert OccursAt(u, [sep] + "EMR", |prefix|);
  }

  /** How specific a type is: EMR before NORMAL before PARK before Other. */
  function Rank(t: FileType): nat {
    match t
    case Emr => 0
    case Normal => 1
    case Park => 2
    case Other => 3
  }

  lemma UpperAppend(p: string, q: string)
    ensures Upper(p + q) == Upper(p) + Upper(q)
  {
    assert forall i :: 0 <= i < |p + q| ==> Upper(p + q)[i] == (Upper(p) + Upper(q))[i];
  }

  lemma ContainsAppend(s: string, t: string, w: string)
    requires Contains(s, w)
    ensures Contains(s + t, w)
  {
    var i :| 0 <= i <= |s| - |w| && OccursAt(s, w, i);
    assert (s + t)[i..i + |w|] == s[i..i + |w|];
    assert OccursAt(s + t, w, i);
  }

  /** Going deeper into a folder never makes a path less specific: whatever
      follows, a path under an EMR folder stays EMR, one under NORMAL is NORMAL
      or EMR, and so on. */
  lemma ExtensionKeepsRank(p: string, q: string)
    ensures Rank(GetFileType(p + q)) <= Rank(GetFileType(p))
  {
    UpperAppend(p, q);
    var u, v := Upper(p), Upper(p + q);
    forall w | UnderFolder(u, w) ensures UnderFolder(v, w) {
      if Contains(u, "/" + w) {
        ContainsAppend(u, Upper(q), "/" + w);
      } else {
        ContainsAppend(u, Upper(q), "\\" + w);
      }
    }
  }

  /** Upper-casing creates no separator. */
  lemma UpperNoSeparator(p: string, c: char)
    requires c == '/' || c == '\\'
    requires c !in p
    ensures c !in Upper(p)
  {
    forall i | 0 <= i < |p| ensures Upper(p)[i] != c {
      assert p[i] in p;
    }
  }

  /** A text without the character c has no occurrence of c + w. */
  lemma AbsentLead(s: string, c: char, w: string)
    requires c !in s
    ensures !Contains(s, [c] + w)
  {
    forall i | 0 <= i <= |s| - |[c] + w| ensures !OccursAt(s, [c] + w, i) {
      assert s[i] in s;
      assert s[i..i + |[c] + w|][0] == s[i];
    }
  }

  /** A bare file name, with no folder in it, has type Other. */
  lemma NoFolderIsOther(p: string)
    requires '/' !in p && '\\' !in p
    ensures GetFileType(p) == Other
  {
    var u := Upper(p);
    UpperNoSeparator(p, '/');
    UpperNoSeparator(p, '\\');
    forall w ensures !UnderFolder(u, w) {
      AbsentLead(u, '/', w);
      AbsentLead(u, '\\', w);
    }
  }

  // ----------------------------------------------------------- file system

  /** A directory entry: a regular file, a directory with its entries, or
      anything else (a link, a socket), which the scan ignores. A directory
      that exists but cannot be listed has no entries: the scan logs the
      listing error and skips it. */
  datatype Entry = File(name: string) | Dir(name: string, entries: seq<Entry>) | Special(name: string)

  /** One result of the scan. */
  datatype ScanItem = ScanItem(path: string, filename: string, timestamp: int, fileType: FileType)

  function Key(item: ScanItem): int { item.timestamp }

  /** `path.join(dir, name)` for a plain name (no normalisation of `..`). */
  function JoinPath(dir: string, name: string): string {
    if dir == "" then name
    else if EndsWith(dir, "/") then dir + name
    else dir + "/" + name
  }

  /** A time bound: `None` for null. JavaScript tests the bound for
      truthiness, so a bound of 0 also imposes nothing. */
  type Bound = Option<int>

  predicate Limits(b: Bound) { b.Some? && b.value != 0 }

  /** A limiting start excludes earlier instants and a limiting end excludes later ones. */
  predicate InWindow(t: int, start: Bound, end: Bound) {
    !(Limits(start) && t < start.value) && !(Limits(end) && t > end.value)
  }

  predicate Hidden(name: string) { StartsWith(name, ".") }

  /** The name ends in A.MP4 or B.MP4, ignoring case. */
  predicate ChannelSuffix(name: string) {
    EndsWith(Upper(name), "A.MP4") || EndsWith(Upper(name), "B.MP4")
  }

  /** The item a regular file contributes to the scan, if it passes every
      filter. `order` is the order in which the name's local date is read:
      `YearMonthDay` as index.js:77-79 reads it, `MonthDayYear` as the
      naming convention writes it. */
  function ScanFile(dir: string, name: string, start: Bound, end: Bound, order: DateOrder): (r: Option<ScanItem>)
    ensures r.Some? ==> !Hidden(name) && ChannelSuffix(name) && InWindow(r.value.timestamp, start, end)
    ensures r.Some? ==> r.value.filename == name && r.value.path == JoinPath(dir, name)
    ensures r.Some? ==> r.value.fileType == GetFileType(JoinPath(dir, name))
    ensures r.Some? <==> (!Hidden(name) && ChannelSuffix(name) && ReadName(name, order).Some?
                          && IsValid(ReadName(name, order).value)
                          && InWindow(Timestamp(ReadName(name, order).value), start, end))
  {
    if Hidden(name) || !ChannelSuffix(name) then None
    else
      match ReadName(name, order)
      case None => None
      case Some(p) =>
        if !IsValid(p) then None
        else
          var t := Timestamp(p);
          if !InWindow(t, start, end) then None
          else
            var full := JoinPath(dir, name);
            Some(ScanItem(full, name, t, GetFileType(full)))
  }

  function OptionToSeq(o: Option<ScanItem>): seq<ScanItem> {
    if o.Some? then [o.value] else []
  }

  // ------------------------------------------------------------------ scan

  /** For a name that passes the name filters and reads as a valid date,
      the scan's verdict is the window's verdict on its instant. */
  lemma ScanFileOf(dir: string, name: string, start: Bound, end: Bound, order: DateOrder, p: ParsedName)
    requires !Hidden(name) && ChannelSuffix(name) && ReadName(name, order) == Some(p) && IsValid(p)
    ensures ScanFile(dir, name, start, end, order).Some? <==> InWindow(Timestamp(p), start, end)
    ensures ScanFile(dir, name, start, end, order).Some? ==> ScanFile(dir, name, start, end, order).value.timestamp == Timestamp(p)
  {
  }

  /** `scanDirectory`: every directory level concatenates its entries'
      results in directory order (a sub-directory contributing its own sorted
      scan) and then sorts the whole by timestamp. */
  function ScanDirectory(dir: string, entries: seq<Entry>, start: Bound, end: Bound, order: DateOrder): (r: seq<ScanItem>)
    ensures SortedBy(r, Key)
    decreases entries, 2
  {
    SortByKey(Collect(dir, entries, start, end, order), Key)
  }

  function Collect(dir: string, entries: seq<Entry>, start: Bound, end: Bound, order: DateOrder): seq<ScanItem>
    decreases entries, 1
  {
    if |entries| == 0 then []
    else EntryItems(dir, entries[0], start, end, order) + Collect(dir, entries[1..], start, end, order)
  }

  function EntryItems(dir: string, e: Entry, start: Bound, end: Bound, order: DateOrder): seq<ScanItem>
    decreases e, 0
  {
    if Hidden(e.name) then []
    else
      match e
      case File(n) => OptionToSeq(ScanFile(dir, n, start, end, order))
      case Dir(n, es) => ScanDirectory(JoinPath(dir, n), es, start, end, order)
      case Special(_) => []
  }

  /** Reference definition: every qualifying file of the tree in depth-first
      directory order, before any sorting. */
  function Traversal(dir: string, entries: seq<Entry>, start: Bound, end: Bound, order: DateOrder): seq<ScanItem>
    decreases entries
  {
    if |entries| == 0 then []
    else TraversalOf(dir, entries[0], start, end, order) + Traversal(dir, entries[1..], start, end, order)
  }

  function TraversalOf(dir: string, e: Entry, start: Bound, end: Bound, order: DateOrder): seq<ScanItem>
    decreases e
  {
    if Hidden(e.name) then []
    else
      match e
      case File(n) => OptionToSeq(ScanFile(dir, n, start, end, order))
      case Dir(n, es) => Traversal(JoinPath(dir, n), es, start, end, order)
      case Special(_) => []
  }

  /** Every file the traversal yields passed all of the scan's filters. */
  predicate Qualifies(item: ScanItem, start: Bound, end: Bound) {
    !Hidden(item.filename) && ChannelSuffix(item.filename) && InWindow(item.timestamp, start, end)
  }

  lemma {:induction false} TraversalQualifies(dir: string, entries: seq<Entry>, start: Bound, end: Bound, order: DateOrder)
    ensures forall x :: x in Traversal(dir, entries, start, end, order) ==> Qualifies(x, start, end)
    decreases entries
  {
    if |entries| > 0 {
      var e := entries[0];
      TraversalQualifies(dir, entries[1..], start, end, order);
      if !Hidden(e.name) && e.Dir? {
        TraversalQualifies(JoinPath(dir, e.name), e.entries, start, end, order);
      }
      var here := TraversalOf(dir, e, start, end, order);
      assert forall x :: x in here ==> Qualifies(x, start, end);
    }
  }

  /** The elements with timestamp k, from a concatenation. */
  lemma {:induction false} WithKeyAppend(a: seq<ScanItem>, b: seq<ScanItem>, k: int)
    ensures WithKey(a + b, Key, k) == WithKey(a, Key, k) + WithKey(b, Key, k)
    decreases |a|
  {
    if |a| == 0 {
      assert a + b == b;
    } else {
      assert (a + b)[0] == a[0];
      assert (a + b)[1..] == a[1..] + b;
      WithKeyAppend(a[1..], b, k);
      var h := if Key(a[0]) == k then [a[0]] else [];
      assert WithKey(a + b, Key, k) == h + (WithKey(a[1..], Key, k) + WithKey(b, Key, k));
    }
  }

  /** Per timestamp, the collected results list files in traversal order. */
  lemma {:induction false} CollectWithKey(dir: string, entries: seq<Entry>, start: Bound, end: Bound, order: DateOrder, k: int)
    ensures WithKey(Collect(dir, entries, start, end, order), Key, k) == WithKey(Traversal(dir, entries, start, end, order), Key, k)
    decreases entries, 1
  {
    if |entries| > 0 {
      var e := entries[0];
      var rest := Collect(dir, entries[1..], start, end, order);
      var restT := Traversal(dir, entries[1..], start, end, order);
      WithKeyAppend(EntryItems(dir, e, start, end, order), rest, k);
      WithKeyAppend(TraversalOf(dir, e, start, end, order), restT, k);
      CollectWithKey(dir, entries[1..], start, end, order, k);
      if !Hidden(e.name) && e.Dir? {
        var sub := JoinPath(dir, e.name);
        SortStable(Collect(sub, e.entries, start, end, order), Key, k);
        CollectWithKey(sub, e.entries, start, end, order, k);
        assert EntryItems(dir, e, start, end, order) == ScanDirectory(sub, e.entries, start, end, order);
        assert TraversalOf(dir, e, start, end, order) == Traversal(sub, e.entries, start, end, order);
      } else {
        assert EntryItems(dir, e, start, end, order) == TraversalOf(dir, e, start, end, order);
      }
    }
  }

  /** A key that occurs in a sorted sequence is at least its first key. */
  lemma {:induction false} HeadBound<T>(s: seq<T>, key: T -> int, k: int)
    requires SortedBy(s, key) && WithKey(s, key, k) != []
    ensures |s| > 0 && key(s[0]) <= k
    decreases |s|
  {
    if key(s[0]) != k {
      assert WithKey(s[1..], key, k) != [];
      HeadBound(s[1..], key, k);
    }
  }

  /** With the same elements per key, b is non-empty only if a is. */
  lemma NonEmptyMatches<T>(a: seq<T>, b: seq<T>, key: T -> int)
    requires SortedBy(a, key)
    requires forall k :: WithKey(a, key, k) == WithKey(b, key, k)
    ensures |b| > 0 ==> |a| > 0
  {
    if |b| > 0 {
      assert WithKey(b, key, key(b[0])) != [];
      HeadBound(a, key, key(b[0]));
    }
  }

  /** Two sorted sequences with the same elements per key, in the same order
      per key, are equal: a stable sort has exactly one possible result. */
  lemma {:induction false} SortedUnique<T>(a: seq<T>, b: seq<T>, key: T -> int)
    requires SortedBy(a, key) && SortedBy(b, key)
    requires forall k :: WithKey(a, key, k) == WithKey(b, key, k)
    ensures a == b
    decreases |a|
  {
    if |a| == 0 {
      NonEmptyMatches(a, b, key);
    } else {
      var ka := key(a[0]);
      assert WithKey(a, key, ka) != [];
      HeadBound(b, key, ka);
      var kb := key(b[0]);
      assert WithKey(b, key, kb) != [];
      HeadBound(a, key, kb);
      assert WithKey(a, key, ka)[0] == a[0];
      assert WithKey(b, key, kb)[0] == b[0];
      forall k ensures WithKey(a[1..], key, k) == WithKey(b[1..], key, k) {
        if k == ka {
          var wa, wb := WithKey(a[1..], key, k), WithKey(b[1..], key, k);
          assert WithKey(a, key, k) == [a[0]] + wa;
          assert WithKey(b, key, k) == [b[0]] + wb;
          assert ([a[0]] + wa)[1..] == wa;
          assert ([b[0]] + wb)[1..] == wb;
        } else {
          assert WithKey(a, key, k) == WithKey(a[1..], key, k);
          assert WithKey(b, key, k) == WithKey(b[1..], key, k);
        }
      }
      SortedUnique(a[1..], b[1..], key);
      assert a == [a[0]] + a[1..] && b == [b[0]] + b[1..];
    }
  }

  /** The scan's result is exactly the stable timestamp sort of the
      depth-first traversal: sorted ascending, nothing lost or added, and
      files with equal timestamps in traversal order. */
  lemma ScanIsStableSortOfTraversal(dir: string, entries: seq<Entry>, start: Bound, end: Bound, order: DateOrder)
    ensures ScanDirectory(dir, entries, start, end, order) == SortByKey(Traversal(dir, entries, start, end, order), Key)
  {
    var a := ScanDirectory(dir, entries, start, end, order);
    var b := SortByKey(Traversal(dir, entries, start, end, order), Key);
    forall k ensures WithKey(a, Key, k) == WithKey(b, Key, k) {
      SortStable(Collect(dir, entries, start, end, order), Key, k);
      CollectWithKey(dir, entries, start, end, order, k);
      SortStable(Traversal(dir, entries, start, end, order), Key, k);
    }
    SortedUnique(a, b, Key);
  }

  /** Every scanned file is visible, has an A/B channel suffix and lies in the
      inclusive time window. */
  lemma ScanResultsQualify(dir: string, entries: seq<Entry>, start: Bound, end: Bound, order: DateOrder)
    ensures forall x :: x in ScanDirectory(dir, entries, start, end, order) ==> Qualifies(x, start, end)
  {
    ScanIsStableSortOfTraversal(dir, entries, start, end, order);
    var t := Traversal(dir, entries, start, end, order);
    TraversalQualifies(dir, entries, start, end, order);
    assert forall x :: x in SortByKey(t, Key) ==> x in multiset(t);
  }

  // --------------------------------------------------------- /scan endpoint

  /** The body of a `/scan` request; the time bounds are already converted
      to milliseconds (null, or an unparsable date, is None). */
  datatype ScanRequest = ScanRequest(folderPath: Option<string>, start: Bound, end: Bound, channels: Option<seq<string>>)

  datatype ScanResponse = ScanResponse(files: seq<ScanItem>, count: nat)

  /** The channel filter of the `/scan` handler; a missing channel list
      selects nothing. */
  predicate KeepChannel(item: ScanItem, channels: Option<seq<string>>) {
    var includeA := channels.Some? && "A" in channels.value;
    var includeB := channels.Some? && "B" in channels.value;
    (includeA && EndsWith(Upper(item.filename), "A.MP4")) || (includeB && EndsWith(Upper(item.filename), "B.MP4"))
  }

  function FilterChannels(items: seq<ScanItem>, channels: Option<seq<string>>): (r: seq<ScanItem>)
    ensures forall x :: x in r <==> x in items && KeepChannel(x, channels)
    ensures SortedBy(items, Key) ==> SortedBy(r, Key)
    ensures |r| <= |items|
  {
    if |items| == 0 then []
    else
      var rest := FilterChannels(items[1..], channels);
      assert forall x :: x in items <==> x == items[0] || x in items[1..];
      if KeepChannel(items[0], channels) then
        assert SortedBy(items, Key) ==> SortedBy([items[0]] + rest, Key) by {
          if SortedBy(items, Key) { KeptHeadSorted(items, rest); }
        }
        [items[0]] + rest
      else rest
  }

  /** A sorted list's head still sorts before any sub-collection of its tail. */
  lemma KeptHeadSorted(items: seq<ScanItem>, rest: seq<ScanItem>)
    requires |items| > 0 && SortedBy(items, Key) && SortedBy(rest, Key)
    requires forall x :: x in rest ==> x in items[1..]
    ensures SortedBy([items[0]] + rest, Key)
  {
    forall j | 0 <= j < |rest| ensures Key(items[0]) <= Key(rest[j]) {
      assert rest[j] in rest;
      var i :| 0 <= i < |items[1..]| && items[1..][i] == rest[j];
      assert items[i + 1] == rest[j];
    }
    PrependSorted(items[0], rest, Key);
  }

  /** Keeping by channel distributes over concatenation: kept items stay in
      their input order, each as often as it occurs. */
  lemma {:induction false} FilterChannelsAppend(a: seq<ScanItem>, b: seq<ScanItem>, channels: Option<seq<string>>)
    ensures FilterChannels(a + b, channels) == FilterChannels(a, channels) + FilterChannels(b, channels)
    decreases |a|
  {
    if |a| == 0 {
      assert a + b == b;
    } else {
      assert (a + b)[0] == a[0];
      assert (a + b)[1..] == a[1..] + b;
      FilterChannelsAppend(a[1..], b, channels);
    }
  }

  /** One item is kept exactly when it is on an asked channel. */
  lemma FilterChannelsOfItem(x: ScanItem, channels: Option<seq<string>>)
    ensures FilterChannels([x], channels) == (if KeepChannel(x, channels) then [x] else [])
  {
    assert [x][1..] == [];
  }

  /** The items of one timestamp that the channel filter keeps are the kept
      items of that timestamp, in the same order. */
  lemma {:induction false} FilterWithKey(s: seq<ScanItem>, channels: Option<seq<string>>, k: int)
    ensures WithKey(FilterChannels(s, channels), Key, k) == FilterChannels(WithKey(s, Key, k), channels)
    decreases |s|
  {
    if |s| > 0 {
      FilterWithKey(s[1..], channels, k);
      var h := if Key(s[0]) == k then [s[0]] else [];
      FilterChannelsAppend(h, WithKey(s[1..], Key, k), channels);
      var f := if KeepChannel(s[0], channels) then [s[0]] else [];
      WithKeyAppend(f, FilterChannels(s[1..], channels), k);
      assert FilterChannels(s, channels) == f + FilterChannels(s[1..], channels);
      assert WithKey(f, Key, k) == FilterChannels(h, channels) by {
        FilterChannelsOfItem(s[0], channels);
        if f != [] { assert f[1..] == []; }
        if h != [] { assert h == [s[0]]; }
      }
    }
  }

  /** Filtering by channel after the stable sort gives the stable sort of
      the filtered list. */
  lemma FilterSortCommute(s: seq<ScanItem>, channels: Option<seq<string>>)
    ensures FilterChannels(SortByKey(s, Key), channels) == SortByKey(FilterChannels(s, channels), Key)
  {
    var a := FilterChannels(SortByKey(s, Key), channels);
    var b := SortByKey(FilterChannels(s, channels), Key);
    forall k ensures WithKey(a, Key, k) == WithKey(b, Key, k) {
      FilterWithKey(SortByKey(s, Key), channels, k);
      SortStable(s, Key, k);
      SortStable(FilterChannels(s, channels), Key, k);
      FilterWithKey(s, channels, k);
    }
    SortedUnique(a, b, Key);
  }

  /** The `/scan` handler. `root` is the folder's entries, or None when
      `fs.access` rejects the folder (it does not exist or cannot be looked
      up); a folder that exists but cannot be listed is `Some([])`; `order` is the local-date order of the
      name parse (`YearMonthDay` in index.js as written). */
  function ScanEndpoint(req: ScanRequest, root: Option<seq<Entry>>, order: DateOrder): (r: Result<ScanResponse>)
    ensures (req.folderPath.None? || req.folderPath.value == "") ==> r == Err("Folder path is required")
    ensures req.folderPath.Some? && req.folderPath.value != "" && root.None? ==>
              r == Err("Invalid folder path or access denied")
    ensures r.Ok? ==> r.value.count == |r.value.files| && SortedBy(r.value.files, Key)
    ensures r.Ok? ==> forall x :: x in r.value.files <==>
              x in ScanDirectory(req.folderPath.value, root.value, req.start, req.end, order) && KeepChannel(x, req.channels)
    ensures r.Ok? ==>
              r.value.files == SortByKey(FilterChannels(Traversal(req.folderPath.value, root.value, req.start, req.end, order),
                                                        req.channels), Key)
  {
    if req.folderPath.None? || req.folderPath.value == "" then Err("Folder path is required")
    else if root.None? then Err("Invalid folder path or access denied")
    else
      ScanIsStableSortOfTraversal(req.folderPath.value, root.value, req.start, req.end, order);
      FilterSortCommute(Traversal(req.folderPath.value, root.value, req.start, req.end, order), req.channels);
      var files := FilterChannels(ScanDirectory(req.folderPath.value, root.value, req.start, req.end, order), req.channels);
      Ok(ScanResponse(files, |files|))
  }

  /** A folder that exists but cannot be listed is not an error: the reply
      is an empty list. */
  lemma UnlistableFolderEmpty(req: ScanRequest, order: DateOrder)
    requires req.folderPath.Some? && req.folderPath.value != ""
    ensures ScanEndpoint(req, Some([]), order) == Ok(ScanResponse([], 0))
  {
  }
}

=== FILE: combine.dfy ===
/** The `/combine` endpoint of the server (index.js): request validation,
    choosing an output name that does not overwrite an existing file, and the
    input list handed to the concatenation tool. The file system is the set of
    paths that exist; running the tool is left out. */
module Combine {
  import opened Wrappers
  import opened Text

  // ------------------------------------------------------ output file name

  /** `path.parse(p)` reduced to the three parts the renaming uses. */
  datatype ParsedPath = ParsedPath(dir: string, name: string, ext: string)

  /** `p` without its trailing separators. */
  function TrimTrailingSlashes(p: string): (t: string)
    ensures t <= p
    ensures t == [] || t[|t| - 1] != '/'
    ensures forall i :: |t| <= i < |p| ==> p[i] == '/'
    decreases |p|
  {
    if |p| == 0 || p[|p| - 1] != '/' then p else TrimTrailingSlashes(p[..|p| - 1])
  }

  /** The last segment of a path: the text after its last separator. */
  function BaseName(t: string): (b: string)
    ensures EndsWith(t, b) && '/' !in b
    decreases |t|
  {
    if |t| == 0 || t[|t| - 1] == '/' then ""
    else
      var b := BaseName(t[..|t| - 1]);
      assert t[|t| - |b| - 1..] == t[..|t| - 1][|t| - 1 - |b|..] + [t[|t| - 1]];
      b + [t[|t| - 1]]
  }

  /** The last segment is the whole text after its last separator: it is
      preceded by a separator unless it is the whole path, and it is empty
      only when the path ends in a separator or is empty. */
  lemma {:induction false} BaseNameBoundary(t: string)
    ensures var b := BaseName(t);
            && (|b| < |t| ==> t[|t| - |b| - 1] == '/')
            && (t != "" && t[|t| - 1] != '/' ==> b != "")
    decreases |t|
  {
    if |t| > 0 && t[|t| - 1] != '/' {
      var u := t[..|t| - 1];
      BaseNameBoundary(u);
      var b := BaseName(u);
      if |b| < |u| {
        assert t[|t| - (|b| + 1) - 1] == u[|u| - |b| - 1];
      }
    }
  }

  /** A base name split at its extension: from the last `.`, unless that dot
      opens the name or the name is `..`. */
  function SplitExt(base: string): (r: (string, string))
    ensures r.0 + r.1 == base
    ensures r.1 != "" ==> r.1[0] == '.' && '.' !in r.1[1..] && r.0 != "" && base != ".."
    ensures r.1 == "" ==> |base| <= 1 || base == ".." || '.' !in base[1..]
  {
    var dot := LastIndexIn(base, {'.'});
    if dot <= 0 || base == ".." then (base, "")
    else
      assert base[..dot] + base[dot..] == base;
      assert forall j :: 0 <= j < |base[dot..]| - 1 ==> base[dot..][1..][j] == base[dot + 1 + j];
      (base[..dot], base[dot..])
  }

  /** POSIX `path.parse`: trailing separators are ignored; the base name is
      the last segment and the directory everything before the separator
      that precedes it ("/" for a segment at the root); the extension runs
      from the base name's last `.`, unless that dot opens the base name or
      the base name is `..`. */
  function ParsePath(p: string): (r: ParsedPath)
    ensures '/' !in r.name + r.ext
    ensures EndsWith(TrimTrailingSlashes(p), r.name + r.ext)
    ensures r.ext != "" ==> r.ext[0] == '.' && '.' !in r.ext[1..] && r.name != "" && r.name + r.ext != ".."
    ensures r.ext == "" ==> |r.name| <= 1 || r.name == ".." || '.' !in r.name[1..]
  {
    var t := TrimTrailingSlashes(p);
    var b := BaseName(t);
    var k := |t| - |b| - 1;
    var dir := if k < 0 then (if t == "" && p != "" then "/" else "") else if k == 0 then "/" else t[..k];
    var parts := SplitExt(b);
    ParsedPath(dir, parts.0, parts.1)
  }

  /** The base name is the last segment of the path without its trailing
      separators, and the directory is everything before the separator that
      precedes it ("/" when that separator opens the path, and "/" too for a
      path of separators only). */
  lemma ParsePathDir(p: string)
    ensures var r, t := ParsePath(p), TrimTrailingSlashes(p);
            var b := r.name + r.ext;
            && (t != "" ==> b != "")
            && (|b| < |t| ==> t[|t| - |b| - 1] == '/'
                              && r.dir == (if |t| - |b| - 1 == 0 then "/" else t[..|t| - |b| - 1]))
            && (|b| == |t| ==> r.dir == (if t == "" && p != "" then "/" else ""))
  {
    var t, r := TrimTrailingSlashes(p), ParsePath(p);
    var b := BaseName(t);
    BaseNameBoundary(t);
    var k := |t| - |b| - 1;
    assert r.name + r.ext == b;
    assert r.dir == (if k < 0 then (if t == "" && p != "" then "/" else "") else if k == 0 then "/" else t[..k]);
    if k == 0 {
      assert r.dir == "/";
    } else if k > 0 {
      assert r.dir == t[..k];
    }
  }

  /** No separator directly follows another. */
  predicate NoDoubleSlash(p: string) {
    forall i :: 0 < i < |p| ==> p[i] != '/' || p[i - 1] != '/'
  }

  /** Joining the directory and base name back gives the path without its
      trailing separators, when no separator is doubled. */
  lemma ParsePathJoin(p: string)
    requires TrimTrailingSlashes(p) != "" && NoDoubleSlash(p)
    ensures var r := ParsePath(p); JoinPath(r.dir, r.name + r.ext) == TrimTrailingSlashes(p)
  {
    var t := TrimTrailingSlashes(p);
    var r := ParsePath(p);
    var b := r.name + r.ext;
    ParsePathDir(p);
    var k := |t| - |b| - 1;
    if k < 0 {
      assert t == b;
    } else if k == 0 {
      JoinAtRoot(t, b);
    } else {
      assert t[k - 1] == p[k - 1] && t[k] == p[k];
      JoinInner(t, k, b);
    }
  }

  lemma JoinAtRoot(t: string, b: string)
    requires |t| == |b| + 1 && t[0] == '/' && EndsWith(t, b)
    ensures JoinPath("/", b) == t
  {
    assert t == [t[0]] + t[1..];
  }

  lemma JoinInner(t: string, k: nat, b: string)
    requires 0 < k && k + 1 + |b| == |t| && t[k] == '/' && t[k - 1] != '/' && EndsWith(t, b)
    ensures JoinPath(t[..k], b) == t
  {
    assert t[..k][k - 1] == t[k - 1];
    assert t == t[..k] + [t[k]] + t[k + 1..];
  }

  /** `path.join(dir, base)` for a base name without separators. */
  function JoinPath(dir: string, base: string): string {
    if dir == "" then base
    else if EndsWith(dir, "/") then dir + base
    else dir + "/" + base
  }

  /** The n-th alternative name: `dir/name_n.ext`. */
  function Candidate(outputPath: string, n: nat): string {
    var pp := ParsePath(outputPath);
    JoinPath(pp.dir, pp.name + "_" + NatToString(n) + pp.ext)
  }

  /** The highest counter tried before giving up. */
  const MaxCounter: nat := 9999

  /** The text the handler looks for to tell its own give-up error from a
      missing file. */
  const GiveUpMarker: string := "Too many files"

  const TooManyFiles: string := GiveUpMarker + " with the same name. Please choose a different filename."

  /** The first counter in 1..9999 whose name is free, if any. The naming
      scheme is a parameter so that the search is stated apart from it. */
  method FirstFree(name: nat -> string, existing: set<string>) returns (r: Option<nat>)
    ensures r.Some? ==> 1 <= r.value <= MaxCounter && name(r.value) !in existing
    ensures r.Some? ==> forall m :: 1 <= m < r.value ==> name(m) in existing
    ensures r.None? <==> forall n :: 1 <= n <= MaxCounter ==> name(n) in existing
  {
    var counter := 1;
    while counter <= MaxCounter
      invariant 1 <= counter <= MaxCounter + 1
      invariant forall m :: 1 <= m < counter ==> name(m) in existing
    {
      if name(counter) !in existing {
        return Some(counter);
      }
      counter := counter + 1;
    }
    return None;
  }

  /** The message of Node's `fs.access` failure for a missing POSIX path. */
  function AccessError(p: string): string {
    "ENOENT: no such file or directory, access '" + p + "'"
  }

  /** The collision renaming of `/combine`: the requested path when it is
      free, otherwise the first free `name_N.ext` with 1 <= N <= 9999, and an
      error when all of those exist too. A missing requested path is told
      from the give-up error by the text of the access error, so a free path
      whose access error mentions the marker is refused with that error. */
  method ResolveOutputPath(outputPath: string, existing: set<string>) returns (r: Result<string>)
    ensures outputPath !in existing && !Contains(AccessError(outputPath), GiveUpMarker) ==> r == Ok(outputPath)
    ensures outputPath !in existing && Contains(AccessError(outputPath), GiveUpMarker) ==> r == Err(AccessError(outputPath))
    ensures r.Ok? ==> r.value !in existing
    ensures r.Ok? && outputPath in existing ==>
              exists n :: 1 <= n <= MaxCounter && r.value == Candidate(outputPath, n)
                          && forall m :: 1 <= m < n ==> Candidate(outputPath, m) in existing
    ensures outputPath in existing ==> (r.Err? <==> forall n :: 1 <= n <= MaxCounter ==> Candidate(outputPath, n) in existing)
    ensures r.Err? && outputPath in existing ==> r.message == TooManyFiles
  {
    if outputPath !in existing {
      if Contains(AccessError(outputPath), GiveUpMarker) {
        return Err(AccessError(outputPath));
      }
      return Ok(outputPath);
    }
    var name := (n: nat) => Candidate(outputPath, n);
    assert forall m: nat :: name(m) == Candidate(outputPath, m);
    var found := FirstFree(name, existing);
    if found.None? {
      return Err(TooManyFiles);
    }
    r := Ok(name(found.value));
    assert r.value == Candidate(outputPath, found.value);
  }

  /** The give-up error itself carries the marker, so it reaches the caller. */
  lemma GiveUpErrorMarked()
    ensures Contains(TooManyFiles, GiveUpMarker)
  {
    assert TooManyFiles[0..|GiveUpMarker|] == GiveUpMarker;
    assert OccursAt(TooManyFiles, GiveUpMarker, 0);
  }

  /** A requested path that mentions the marker is refused whenever it is
      free: its access error mentions the marker too. */
  lemma MarkedPathRefused(p: string)
    requires Contains(p, GiveUpMarker)
    ensures Contains(AccessError(p), GiveUpMarker)
  {
    ContainsWithin("ENOENT: no such file or directory, access '", p, "'", GiveUpMarker);
  }

  // ------------------------------------------------------ concat input list

  /** Shell-style quoting of a single quote inside a quoted string: `'` becomes `'\''`. */
  function Escape(p: string): (r: string)
    ensures |r| >= |p|
    ensures '\n' in r <==> '\n' in p
  {
    if |p| == 0 then ""
    else (if p[0] == '\'' then "'\\''" else [p[0]]) + Escape(p[1..])
  }

  /** The inverse of `Escape`: every `'\''` becomes `'` again. */
  function Unescape(s: string): string
    decreases |s|
  {
    if |s| == 0 then ""
    else if StartsWith(s, "'\\''") then "'" + Unescape(s[4..])
    else [s[0]] + Unescape(s[1..])
  }

  lemma {:induction false} UnescapeEscape(p: string)
    ensures Unescape(Escape(p)) == p
    decreases |p|
  {
    if |p| > 0 {
      var e := Escape(p);
      UnescapeEscape(p[1..]);
      if p[0] == '\'' {
        assert e == "'\\''" + Escape(p[1..]);
        assert e[4..] == Escape(p[1..]);
      } else {
        assert e == [p[0]] + Escape(p[1..]);
        assert e[1..] == Escape(p[1..]);
      }
      assert [p[0]] + p[1..] == p;
    }
  }

  const LinePrefix: string := "file '"

  /** One line of the list: `file '<escaped path>'`. */
  function ListLine(p: string): string {
    LinePrefix + Escape(p) + "'"
  }

  /** Reads a path back from a list line. */
  function ParseLine(line: string): Option<string> {
    if |line| >= |LinePrefix| + 1 && StartsWith(line, LinePrefix) && line[|line| - 1] == '\''
    then Some(Unescape(line[|LinePrefix|..|line| - 1]))
    else None
  }

  /** Every path survives the trip through its list line. */
  lemma ParseListLine(p: string)
    ensures ParseLine(ListLine(p)) == Some(p)
  {
    var line := ListLine(p);
    assert line[|LinePrefix|..|line| - 1] == Escape(p);
    assert line[..|LinePrefix|] == LinePrefix;
    UnescapeEscape(p);
  }

  function Lines(files: seq<string>): (r: seq<string>)
    ensures |r| == |files|
    ensures forall i :: 0 <= i < |files| ==> r[i] == ListLine(files[i])
  {
    if |files| == 0 then [] else [ListLine(files[0])] + Lines(files[1..])
  }

  /** The list file's contents: one line per input, joined by newlines. */
  function FileList(files: seq<string>): string {
    Join(Lines(files), "\n")
  }

  /** Reads every path back from a list file. */
  function ParseFileList(content: string): seq<Option<string>> {
    var lines := Split(content, {'\n'});
    seq(|lines|, i requires 0 <= i < |lines| => ParseLine(lines[i]))
  }

  /** For paths without newlines, the list has one line per file and reading
      it back gives the files in order. */
  lemma FileListRoundTrip(files: seq<string>)
    requires |files| > 0
    requires forall i :: 0 <= i < |files| ==> '\n' !in files[i]
    ensures |Split(FileList(files), {'\n'})| == |files|
    ensures ParseFileList(FileList(files)) == seq(|files|, i requires 0 <= i < |files| => Some(files[i]))
  {
    var ls := Lines(files);
    forall k | 0 <= k < |ls| ensures NoneIn(ls[k], {'\n'}) {
      assert '\n' !in Escape(files[k]);
      assert ls[k] == LinePrefix + Escape(files[k]) + "'";
    }
    SplitJoin(ls, '\n');
    forall i | 0 <= i < |files| ensures ParseLine(ls[i]) == Some(files[i]) {
      ParseListLine(files[i]);
    }
  }

  // ------------------------------------------------------------- endpoint

  /** A `/combine` request body; absent fields are None. */
  datatype CombineRequest = CombineRequest(files: Option<seq<string>>, outputPath: Option<string>)

  /** What the endpoint does: hand the tool a list and an output path, or refuse. */
  datatype CombineOutcome =
    | Planned(output: string, listContent: string)
    | Refused(status: int, error: string)

  /** The `/combine` handler up to the point where the tool runs. Whether the
      tool is installed and which paths exist are parameters. */
  method CombineEndpoint(req: CombineRequest, hasFFmpeg: bool, existing: set<string>) returns (out: CombineOutcome)
    ensures (req.files.None? || |req.files.value| == 0) ==> out == Refused(400, "No files to combine")
    ensures (req.files.Some? && |req.files.value| > 0 && (req.outputPath.None? || req.outputPath.value == ""))
              ==> out == Refused(400, "Output path is required")
    ensures (req.files.Some? && |req.files.value| > 0 && req.outputPath.Some? && req.outputPath.value != "" && !hasFFmpeg)
              ==> out == Refused(400, "FFmpeg is not installed. Run: npm run install-ffmpeg")
    ensures out.Refused? ==> out.status == 400 || out.status == 500
    ensures (req.files.Some? && |req.files.value| > 0 && req.outputPath.Some? && req.outputPath.value != "" && hasFFmpeg)
              ==> (out.Refused? <==>
                     (req.outputPath.value in existing
                        && forall n :: 1 <= n <= MaxCounter ==> Candidate(req.outputPath.value, n) in existing)
                     || (req.outputPath.value !in existing && Contains(AccessError(req.outputPath.value), GiveUpMarker)))
    ensures out.Refused? && out.status == 500 ==>
              out.error == "Failed to combine videos: " + (if req.outputPath.value in existing then TooManyFiles
                                                           else AccessError(req.outputPath.value))
    ensures out.Planned? ==> hasFFmpeg && req.files.Some? && |req.files.value| > 0 && req.outputPath.Some?
    ensures out.Planned? ==> out.output !in existing || out.output == req.outputPath.value
    ensures out.Planned? ==> req.outputPath.value !in existing ==> out.output == req.outputPath.value
    ensures out.Planned? ==> out.output !in existing
    ensures out.Planned? && req.outputPath.value in existing ==>
              exists n :: 1 <= n <= MaxCounter && out.output == Candidate(req.outputPath.value, n)
                          && forall m :: 1 <= m < n ==> Candidate(req.outputPath.value, m) in existing
    ensures out.Planned? ==> out.listContent == FileList(req.files.value)
  {
    if req.files.None? || |req.files.value| == 0 {
      return Refused(400, "No files to combine");
    }
    if req.outputPath.None? || req.outputPath.value == "" {
      return Refused(400, "Output path is required");
    }
    if !hasFFmpeg {
      return Refused(400, "FFmpeg is not installed. Run: npm run install-ffmpeg");
    }
    var resolved := ResolveOutputPath(req.outputPath.value, existing);
    if resolved.Err? {
      return Refused(500, "Failed to combine videos: " + resolved.message);
    }
    return Planned(resolved.value, FileList(req.files.value));
  }
}

=== FILE: demomock.dfy ===
/** The stand-in back end used when the page is served from GitHub Pages
    (demo-api-mock.js): a fixed recording list, a fixed folder tree, a combine
    endpoint that always refuses, and the `fetch` override that decides which
    requests the stand-in answers. */
module DemoMock {
  import opened Wrappers
  import opened Text
  import Catalog

  /** `isGitHubPages`: the host name must END with `.github.io`. */
  predicate IsGitHubPages(hostname: string) {
    EndsWith(hostname, ".github.io")
  }

  /** A look-alike host that merely contains the suffix is not GitHub Pages,
      and neither is the bare `github.io`. */
  lemma LookAlikeHostsRejected()
    ensures IsGitHubPages("user.github.io")
    ensures !IsGitHubPages("github.io")
    ensures !IsGitHubPages("user.github.io.example.com")
    ensures !IsGitHubPages("evilgithub.io")
  {
    assert "user.github.io"[4..] == ".github.io";
    assert "user.github.io.example.com"[16] == 'x';
    assert "evilgithub.io"[3] != '.';
  }

  // --------------------------------------------------------------- fixture

  const DemoBasePath := "test-data"
  const DemoNormalPath := DemoBasePath + "/Normal"

  /** One recording of the fixture as the mock reports it. */
  datatype MockFile = MockFile(filename: string, path: string, utc: int,
                               fileType: string, channel: string, duration: nat)

  /** 2025-01-01T10:00:00.000Z, the first recording, in milliseconds. */
  const FirstUtc := 1735725600000
  const Minute := 60000

  /** The k-th recording (from 0): under `test-data/Normal`, k minutes after
      the first, on channel A, two seconds long. */
  function Recording(k: nat, filename: string): MockFile {
    MockFile(filename, DemoNormalPath + "/" + filename, FirstUtc + k * Minute, "Normal", "A", 2)
  }

  /** The ten recordings of `test-data/Normal`, oldest first. */
  const Fixture: seq<MockFile> := [
    Recording(0, "010125_100000_010125_050000_000001A.MP4"),
    Recording(1, "010125_100100_010125_050100_000002A.MP4"),
    Recording(2, "010125_100200_010125_050200_000003A.MP4"),
    Recording(3, "010125_100300_010125_050300_000004A.MP4"),
    Recording(4, "010125_100400_010125_050400_000005A.MP4"),
    Recording(5, "010125_100500_010125_050500_000006A.MP4"),
    Recording(6, "010125_100600_010125_050600_000007A.MP4"),
    Recording(7, "010125_100700_010125_050700_000008A.MP4"),
    Recording(8, "010125_100800_010125_050800_000009A.MP4"),
    Recording(9, "010125_100900_010125_050900_000010A.MP4")
  ]

  /** Recording k starts k minutes after the first, all on channel A. */
  lemma FixtureLayout()
    ensures |Fixture| == 10
    ensures forall i :: 0 <= i < |Fixture| ==>
              Fixture[i].utc == FirstUtc + i * Minute && Fixture[i].channel == "A"
  {
  }

  predicate Increasing(fs: seq<MockFile>) {
    forall i, j :: 0 <= i < j < |fs| ==> fs[i].utc < fs[j].utc
  }

  lemma FixtureIncreasing()
    ensures Increasing(Fixture)
  {
    FixtureLayout();
  }

  // ------------------------------------------------------------------ scan

  /** The channels a scan asks for; `['A', 'B']` when the body has none. */
  function ChannelsOrDefault(channels: Option<seq<string>>): seq<string> {
    if channels.Some? then channels.value else ["A", "B"]
  }

  /** The date bounds of the mock. A bound arrives as an ISO date text, which
      is truthy whenever present, so unlike the server a bound at the epoch
      still limits. */
  predicate MockInWindow(t: int, start: Option<int>, end: Option<int>) {
    (start.None? || t >= start.value) && (end.None? || t <= end.value)
  }

  predicate Kept(f: MockFile, channels: seq<string>, start: Option<int>, end: Option<int>) {
    f.channel in channels && MockInWindow(f.utc, start, end)
  }

  /** The filters of `DemoAPI.scan`, applied one recording at a time. */
  function KeepFiles(fs: seq<MockFile>, channels: seq<string>, start: Option<int>, end: Option<int>): (r: seq<MockFile>)
    ensures |r| <= |fs|
    ensures forall f :: f in r <==> f in fs && Kept(f, channels, start, end)
    ensures Increasing(fs) ==> Increasing(r)
  {
    if |fs| == 0 then []
    else
      var rest := KeepFiles(fs[1..], channels, start, end);
      assert forall f :: f in fs <==> f == fs[0] || f in fs[1..];
      if Kept(fs[0], channels, start, end) then
        assert Increasing(fs) ==> forall j :: 0 <= j < |rest| ==> fs[0].utc < rest[j].utc by {
          if Increasing(fs) {
            forall j | 0 <= j < |rest| ensures fs[0].utc < rest[j].utc {
              assert rest[j] in fs[1..];
            }
          }
        }
        [fs[0]] + rest
      else rest
  }

  datatype MockScan = MockScan(count: nat, files: seq<MockFile>)

  /** `DemoAPI.scan`: the fixture recordings on the requested channels and
      inside the inclusive bounds, in fixture order, with their count. */
  function Scan(channels: Option<seq<string>>, start: Option<int>, end: Option<int>): (r: MockScan)
    ensures r.count == |r.files|
    ensures forall f :: f in r.files <==> f in Fixture && Kept(f, ChannelsOrDefault(channels), start, end)
    ensures Increasing(r.files)
  {
    FixtureIncreasing();
    var files := KeepFiles(Fixture, ChannelsOrDefault(channels), start, end);
    MockScan(|files|, files)
  }

  /** With no channels and no bounds the whole fixture comes back. */
  lemma DefaultScanListsEverything()
    ensures Scan(None, None, None).files == Fixture
  {
    var r := Scan(None, None, None).files;
    FixtureIncreasing();
    forall f | f in Fixture ensures f in r {
      FixtureLayout();
    }
    IncreasingSameElements(r, Fixture);
  }

  /** Two increasing lists with the same elements are the same list. */
  lemma {:induction false} IncreasingSameElements(a: seq<MockFile>, b: seq<MockFile>)
    requires Increasing(a) && Increasing(b)
    requires forall f :: f in a <==> f in b
    ensures a == b
    decreases |a| + |b|
  {
    assert |a| > 0 ==> a[0] in b;
    assert |b| > 0 ==> b[0] in a;
    if |a| > 0 && |b| > 0 {
      assert a[0] == b[0] by {
        var i :| 0 <= i < |b| && b[i] == a[0];
        var j :| 0 <= j < |a| && a[j] == b[0];
        assert a[0].utc <= a[j].utc;
        assert b[0].utc <= b[i].utc;
      }
      forall f ensures f in a[1..] <==> f in b[1..] {
        if f in a[1..] {
          var i :| 1 <= i < |a| && a[i] == f;
          assert f != a[0] by { assert a[0].utc < a[i].utc; }
          assert f in b;
          var k :| 0 <= k < |b| && b[k] == f;
          assert k != 0;
        }
        if f in b[1..] {
          var i :| 1 <= i < |b| && b[i] == f;
          assert f != b[0] by { assert b[0].utc < b[i].utc; }
          assert f in a;
          var k :| 0 <= k < |a| && a[k] == f;
          assert k != 0;
        }
      }
      IncreasingSameElements(a[1..], b[1..]);
      assert a == [a[0]] + a[1..] && b == [b[0]] + b[1..];
    }
  }

  /** Every recording is on channel A, so asking for B alone finds nothing. */
  lemma ChannelBFindsNothing(start: Option<int>, end: Option<int>)
    ensures Scan(Some(["B"]), start, end).count == 0
  {
    FixtureLayout();
    KeepNone(Fixture, ["B"], start, end);
  }

  /** Filtering keeps nothing when no recording passes the filter. */
  lemma {:induction false} KeepNone(fs: seq<MockFile>, channels: seq<string>, start: Option<int>, end: Option<int>)
    requires forall i :: 0 <= i < |fs| ==> !Kept(fs[i], channels, start, end)
    ensures KeepFiles(fs, channels, start, end) == []
  {
    if |fs| > 0 {
      assert forall i :: 0 <= i < |fs| - 1 ==> fs[1..][i] == fs[i + 1];
      KeepNone(fs[1..], channels, start, end);
    }
  }

  /** The bounds are inclusive: 10:03 to 10:06 finds the fourth to the
      seventh recording. */
  lemma InclusiveBounds()
    ensures Scan(Some(["A"]), Some(FirstUtc + 3 * Minute), Some(FirstUtc + 6 * Minute)).files == Fixture[3..7]
  {
    var r := Scan(Some(["A"]), Some(FirstUtc + 3 * Minute), Some(FirstUtc + 6 * Minute)).files;
    var want := Fixture[3..7];
    InclusiveMembers(r, want, Some(FirstUtc + 3 * Minute), Some(FirstUtc + 6 * Minute));
    assert Increasing(want) by {
      FixtureIncreasing();
    }
    IncreasingSameElements(r, want);
  }

  /** The recordings kept between 10:03 and 10:06 inclusive are the fourth to
      the seventh. */
  lemma InclusiveMembers(r: seq<MockFile>, want: seq<MockFile>, start: Option<int>, end: Option<int>)
    requires start == Some(FirstUtc + 3 * Minute) && end == Some(FirstUtc + 6 * Minute)
    requires forall f :: f in r <==> f in Fixture && Kept(f, ["A"], start, end)
    requires want == Fixture[3..7]
    ensures forall f :: f in r <==> f in want
  {
    forall f | f in want ensures f in r {
      InclusiveLower(f, want, start, end);
    }
    forall f | f in r ensures f in want {
      InclusiveUpper(f, want, start, end);
    }
  }

  lemma InclusiveLower(f: MockFile, want: seq<MockFile>, start: Option<int>, end: Option<int>)
    requires start == Some(FirstUtc + 3 * Minute) && end == Some(FirstUtc + 6 * Minute)
    requires want == Fixture[3..7] && f in want
    ensures f in Fixture && Kept(f, ["A"], start, end)
  {
    FixtureLayout();
    var i :| 0 <= i < |want| && want[i] == f;
    assert f == Fixture[i + 3];
  }

  lemma InclusiveUpper(f: MockFile, want: seq<MockFile>, start: Option<int>, end: Option<int>)
    requires start == Some(FirstUtc + 3 * Minute) && end == Some(FirstUtc + 6 * Minute)
    requires want == Fixture[3..7] && f in Fixture && Kept(f, ["A"], start, end)
    ensures f in want
  {
    FixtureLayout();
    var i :| 0 <= i < |Fixture| && Fixture[i] == f;
    assert 3 <= i < 7;
    assert want[i - 3] == f;
  }

  /** Away from the epoch the mock's bounds mean what the server's do. */
  lemma WindowAgreesWithServer(t: int, start: Option<int>, end: Option<int>)
    requires start != Some(0) && end != Some(0)
    ensures MockInWindow(t, start, end) <==> Catalog.InWindow(t, start, end)
  {
  }

  /** At the epoch they part: the server ignores an end bound of 0, the mock
      keeps only what is not after it. */
  lemma EpochEndBoundDiffers()
    ensures !MockInWindow(FirstUtc, None, Some(0))
    ensures Catalog.InWindow(FirstUtc, None, Some(0))
  {
  }

  // ----------------------------------------------------------- directories

  datatype DirEntry = DirEntry(name: string, path: string, fullPath: string)

  /** A directory listing; `parentPath` None stands for `null`. */
  datatype Listing = Listing(directories: seq<DirEntry>, currentPath: string, parentPath: Option<string>)

  /** `DemoAPI.listDirectories`: the root shows `test-data`, which shows
      `Normal`, which is empty; any other path is an empty folder whose parent
      is the root. An absent or empty path is the root. */
  function ListDirectories(currentPath: Option<string>): (r: Listing)
    ensures r.parentPath.None? <==> currentPath.None? || currentPath.value == ""
    ensures currentPath.Some? ==> r.currentPath == currentPath.value
    ensures |r.directories| <= 1
    ensures r.parentPath.None? ==> r == Listing([DirEntry(DemoBasePath, DemoBasePath, DemoBasePath)], "", None)
    ensures currentPath == Some(DemoBasePath) ==>
              r.directories == [DirEntry("Normal", DemoNormalPath, DemoNormalPath)] && r.parentPath == Some("")
    ensures currentPath == Some(DemoNormalPath) ==> r.directories == [] && r.parentPath == Some(DemoBasePath)
    ensures currentPath.Some? && currentPath.value !in {"", DemoBasePath, DemoNormalPath} ==>
              r.directories == [] && r.parentPath == Some("")
    ensures forall d :: d in r.directories ==>
              d.fullPath == d.path && d.path == (if r.currentPath == "" then d.name else r.currentPath + "/" + d.name)
  {
    var p := if currentPath.Some? then currentPath.value else "";
    if p == "" then Listing([DirEntry(DemoBasePath, DemoBasePath, DemoBasePath)], "", None)
    else if p == DemoBasePath then Listing([DirEntry("Normal", DemoNormalPath, DemoNormalPath)], DemoBasePath, Some(""))
    else if p == DemoNormalPath then Listing([], DemoNormalPath, Some(DemoBasePath))
    else Listing([], p, Some(""))
  }

  /** The tree is consistent: opening any listed folder shows that folder,
      and its parent is the listing it was opened from; and going up from
      any folder lands on a listing that shows it (or on the root). */
  lemma TreeConsistent(p: string)
    ensures var l := ListDirectories(Some(p));
            forall d :: d in l.directories ==>
              && ListDirectories(Some(d.path)).currentPath == d.path
              && ListDirectories(Some(d.path)).parentPath == Some(l.currentPath)
    ensures var l := ListDirectories(Some(p));
            l.parentPath.Some? && l.parentPath.value != "" ==>
              exists d :: d in ListDirectories(l.parentPath).directories && d.path == p
  {
    var l := ListDirectories(Some(p));
    if p == DemoNormalPath {
      assert ListDirectories(l.parentPath).directories[0].path == p;
    }
  }

  // ------------------------------------------------------------- routing

  const CombineDisabled := "Video combining is disabled in demo mode. Download the full application to use this feature."
  const MissingVideoPath := "Missing video path"

  /** The `url` argument of `fetch`: a string or anything else (a URL object
      or a Request). */
  datatype FetchTarget = Url(text: string) | NotAString

  /** A request body as `JSON.parse` sees it: absent or empty (read as
      `{}`), an object with the fields the mock reads, or text that does not
      parse. */
  datatype Body =
    | NoBody
    | Fields(currentPath: Option<string>, channels: Option<seq<string>>,
             startTime: Option<int>, endTime: Option<int>)
    | Malformed

  /** What the overridden `fetch` does with a request. `Forward` hands the
      request to the real `fetch` unchanged, `StaticFile` fetches the given
      path instead; the other replies are made up locally with a status. */
  datatype Reply =
    | Forward
    | StaticFile(path: string)
    | DemoModeReply(enabled: bool, demoPath: string)
    | FFmpegReply(available: bool)
    | DirectoriesReply(listing: Listing)
    | ScanReply(scan: MockScan)
    | ErrorReply(status: nat, error: string)
    | ParseErrorReply(status: nat)

  /** The HTTP status of a locally made reply. */
  function Status(r: Reply): Option<nat> {
    match r
    case Forward => None
    case StaticFile(_) => None
    case ErrorReply(s, _) => Some(s)
    case ParseErrorReply(s) => Some(s)
    case _ => Some(200)
  }

  function BodyFields(b: Body): Body
    requires !b.Malformed?
  {
    if b.NoBody? then Fields(None, None, None, None) else b
  }

  /** The value of the first `key` parameter of a query string, as
      `URLSearchParams.get` returns it: the text after the first `=` of the
      first `&`-separated part named `key`, empty for a bare key; None when
      no part names `key`. */
  function QueryParam(query: string, key: string): (r: Option<string>)
    ensures r.None? <==> NoMention(Split(query, {'&'}), key)
    ensures r.Some? ==> exists k :: FirstMention(Split(query, {'&'}), key, k) && Names(Split(query, {'&'})[k], key, r.value)
  {
    FirstParam(Split(query, {'&'}), key)
  }

  /** The query part `part` gives `key` the value `value`. */
  predicate Names(part: string, key: string, value: string) {
    (part == key && value == "") || part == key + "=" + value
  }

  /** The query part `part` is a `key` parameter, with or without a value. */
  predicate Mentions(part: string, key: string) {
    part == key || StartsWith(part, key + "=")
  }

  /** No part is a `key` parameter. */
  predicate NoMention(parts: seq<string>, key: string) {
    forall k :: 0 <= k < |parts| ==> !Mentions(parts[k], key)
  }

  /** Part k is the first part that is a `key` parameter. */
  predicate FirstMention(parts: seq<string>, key: string, k: int) {
    0 <= k < |parts| && Mentions(parts[k], key) && forall j :: 0 <= j < k ==> !Mentions(parts[j], key)
  }

  /** A part names exactly one value for the key it mentions. */
  lemma NamesUnique(part: string, key: string, v: string, w: string)
    requires Names(part, key, v) && Names(part, key, w)
    ensures v == w
  {
    if part != key {
      assert part[|key| + 1..] == v;
      assert part[|key| + 1..] == w;
    }
  }

  function FirstParam(parts: seq<string>, key: string): (r: Option<string>)
    ensures r.None? <==> NoMention(parts, key)
    ensures r.Some? ==> exists k :: FirstMention(parts, key, k) && Names(parts[k], key, r.value)
  {
    if |parts| == 0 then None
    else if parts[0] == key then
      assert FirstMention(parts, key, 0) && Names(parts[0], key, "");
      Some("")
    else if StartsWith(parts[0], key + "=") then
      var v := parts[0][|key| + 1..];
      assert parts[0] == key + "=" + v by {
        assert parts[0] == parts[0][..|key| + 1] + v;
      }
      assert FirstMention(parts, key, 0) && Names(parts[0], key, v);
      Some(v)
    else
      var r := FirstParam(parts[1..], key);
      assert forall k :: 1 <= k < |parts| ==> parts[k] == parts[1..][k - 1];
      if r.Some? then
        var k :| FirstMention(parts[1..], key, k) && Names(parts[1..][k], key, r.value);
        assert FirstMention(parts, key, k + 1);
        r
      else r
  }

  /** The query of a relative URL ends where its fragment begins. */
  function BeforeFragment(s: string): (r: string)
    ensures r <= s && '#' !in r
    ensures |r| < |s| ==> s[|r|] == '#'
  {
    if |s| == 0 || s[0] == '#' then "" else [s[0]] + BeforeFragment(s[1..])
  }

  const VideoPrefix := "/video?"

  /** The overridden `fetch`. Off GitHub Pages nothing is intercepted; on it
      only string URLs starting with `/` are, and among those only the mock's
      endpoints (the three POST ones need method POST) and `/video?`
      requests. A body that does not parse makes a 500 reply, except for
      combine, whose own handler turns the error into a 400. */
  function Route(hostname: string, url: FetchTarget, verb: Option<string>, body: Body): (r: Reply)
    ensures !IsGitHubPages(hostname) ==> r == Forward
    ensures (url.NotAString? || !StartsWith(url.text, "/")) ==> r == Forward
    ensures r.StaticFile? ==> r.path != "" && url.Url? && StartsWith(url.text, VideoPrefix)
    ensures (r.DirectoriesReply? || r.ScanReply?) ==> verb == Some("POST") && !body.Malformed?
    ensures r.ParseErrorReply? <==> (IsGitHubPages(hostname) && url.Url? && verb == Some("POST")
                                     && url.text in {"/list-directories", "/scan", "/combine"} && body.Malformed?)
    ensures Status(r) == Some(500) ==> body.Malformed?
  {
    if !IsGitHubPages(hostname) || url.NotAString? || !StartsWith(url.text, "/") then Forward
    else
      var u := url.text;
      var post := verb == Some("POST");
      if u == "/demo-mode" then DemoModeReply(true, DemoBasePath)
      else if u == "/check-ffmpeg" then FFmpegReply(false)
      else if u == "/list-directories" && post then
        if body.Malformed? then ParseErrorReply(500)
        else DirectoriesReply(ListDirectories(BodyFields(body).currentPath))
      else if u == "/scan" && post then
        if body.Malformed? then ParseErrorReply(500)
        else
          var f := BodyFields(body);
          ScanReply(Scan(f.channels, f.startTime, f.endTime))
      else if u == "/combine" && post then
        if body.Malformed? then ParseErrorReply(400)
        else ErrorReply(400, CombineDisabled)
      else if StartsWith(u, VideoPrefix) then
        match QueryParam(BeforeFragment(u[|VideoPrefix|..]), "path")
        case Some(p) => if p != "" then StaticFile(p) else ErrorReply(400, MissingVideoPath)
        case None => ErrorReply(400, MissingVideoPath)
      else Forward
  }

  /** Combining never succeeds in the demo: every POST to `/combine` is
      answered with status 400. */
  lemma CombineAlwaysRefused(hostname: string, body: Body)
    requires IsGitHubPages(hostname)
    ensures Status(Route(hostname, Url("/combine"), Some("POST"), body)) == Some(400)
    ensures !body.Malformed? ==> Route(hostname, Url("/combine"), Some("POST"), body) == ErrorReply(400, CombineDisabled)
  {
  }

  /** A scan sent with another method is not the mock's and goes to the
      network. */
  lemma ScanNeedsPost(hostname: string, verb: Option<string>, body: Body)
    requires verb != Some("POST")
    ensures Route(hostname, Url("/scan"), verb, body) == Forward
  {
    assert !StartsWith("/scan", VideoPrefix);
  }

  /** A scan body goes to `DemoAPI.scan` field by field; an empty body scans
      both channels without bounds. */
  lemma ScanRouted(hostname: string, body: Body)
    requires IsGitHubPages(hostname) && !body.Malformed?
    ensures body.Fields? ==> Route(hostname, Url("/scan"), Some("POST"), body)
                             == ScanReply(Scan(body.channels, body.startTime, body.endTime))
    ensures body.NoBody? ==> Route(hostname, Url("/scan"), Some("POST"), body) == ScanReply(Scan(None, None, None))
  {
    ScanPath("/scan");
    var f := BodyFields(body);
    assert Route(hostname, Url("/scan"), Some("POST"), body) == ScanReply(Scan(f.channels, f.startTime, f.endTime));
    assert body.NoBody? ==> f.channels == None && f.startTime == None && f.endTime == None;
  }

  /** `/scan` is none of the routes tested before it. */
  lemma ScanPath(u: string)
    requires u == "/scan"
    ensures StartsWith(u, "/") && !StartsWith(u, VideoPrefix)
    ensures u != "/demo-mode" && u != "/check-ffmpeg" && u != "/list-directories"
  {
    assert u[1] == 's';
  }

  /** A video request is served from the path it names, which is fetched as
      a static file; a fragment after it is not part of the query. */
  lemma VideoPathForwarded(hostname: string, p: string, fragment: string)
    requires IsGitHubPages(hostname) && p != "" && '&' !in p && '#' !in p
    ensures Route(hostname, Url(VideoPrefix + "path=" + p), None, NoBody) == StaticFile(p)
    ensures Route(hostname, Url(VideoPrefix + "path=" + p + "#" + fragment), None, NoBody) == StaticFile(p)
  {
    PathQuery(p);
    VideoRoute(hostname, "path=" + p, "");
    assert VideoPrefix + ("path=" + p) + "" == VideoPrefix + "path=" + p;
    VideoRoute(hostname, "path=" + p, "#" + fragment);
    assert VideoPrefix + ("path=" + p) + ("#" + fragment) == VideoPrefix + "path=" + p + "#" + fragment;
  }

  /** The query the mock reads from `/video?<q><rest>` when q holds no `#`
      and rest is empty or a fragment. */
  lemma VideoQuery(hostname: string, q: string, rest: string)
    requires IsGitHubPages(hostname) && '#' !in q && (rest == "" || rest[0] == '#')
    ensures var u := VideoPrefix + q + rest;
            && StartsWith(u, "/") && StartsWith(u, VideoPrefix)
            && u != "/demo-mode" && u != "/check-ffmpeg" && u != "/list-directories" && u != "/scan" && u != "/combine"
            && BeforeFragment(u[|VideoPrefix|..]) == q
  {
    var u := VideoPrefix + q + rest;
    assert u[|VideoPrefix|..] == q + rest;
    CutAtFragment(q, rest);
    assert u[..|VideoPrefix|] == VideoPrefix;
    assert u[1] == 'v';
    assert u[..1] == "/";
  }

  /** A video request is answered from the first `path` parameter of its
      query, whatever fragment follows. */
  lemma VideoRoute(hostname: string, q: string, rest: string)
    requires IsGitHubPages(hostname) && '#' !in q && (rest == "" || rest[0] == '#')
    ensures Route(hostname, Url(VideoPrefix + q + rest), None, NoBody)
            == (var v := QueryParam(q, "path"); if v.Some? && v.value != "" then StaticFile(v.value) else ErrorReply(400, MissingVideoPath))
  {
    VideoQuery(hostname, q, rest);
  }

  /** Cutting at the first `#` keeps exactly the text before it. */
  lemma {:induction false} CutAtFragment(q: string, rest: string)
    requires '#' !in q && (rest == "" || rest[0] == '#')
    ensures BeforeFragment(q + rest) == q
  {
    if |q| > 0 {
      assert (q + rest)[1..] == q[1..] + rest;
      assert q[0] in q;
      CutAtFragment(q[1..], rest);
      assert [q[0]] + q[1..] == q;
    } else {
      assert q + rest == rest;
    }
  }

  /** `path=<p>` names p when p holds no `&`. */
  lemma PathQuery(p: string)
    requires '&' !in p
    ensures QueryParam("path=" + p, "path") == Some(p)
  {
    var q := "path=" + p;
    assert NoneIn(q, {'&'}) by {
      forall j | 0 <= j < |q| ensures q[j] !in {'&'} {
        if j >= 5 { assert q[j] == p[j - 5]; }
      }
    }
    SplitNoSeparator(q, {'&'});
    assert StartsWith(q, "path" + "=");
    assert q[5..] == p;
  }

  /** A video request without a path value is refused with status 400. */
  lemma VideoWithoutPathRefused(hostname: string)
    requires IsGitHubPages(hostname)
    ensures Route(hostname, Url(VideoPrefix + "path="), None, NoBody) == ErrorReply(400, MissingVideoPath)
  {
    PathQuery("");
    assert "path=" + "" == "path=";
    VideoRoute(hostname, "path=", "");
    assert VideoPrefix + "path=" + "" == VideoPrefix + "path=";
  }

  /** Of two `path` parameters the first one is served. */
  lemma FirstPathServed(hostname: string, p: string, p2: string)
    requires IsGitHubPages(hostname) && p != "" && '&' !in p && '#' !in p && '#' !in p2
    ensures Route(hostname, Url(VideoPrefix + "path=" + p + "&path=" + p2), None, NoBody) == StaticFile(p)
  {
    var q := "path=" + p + "&path=" + p2;
    FirstOfTwo(p, p2);
    VideoRoute(hostname, q, "");
    assert VideoPrefix + q + "" == VideoPrefix + "path=" + p + "&path=" + p2;
  }

  lemma FirstOfTwo(p: string, p2: string)
    requires '&' !in p
    ensures QueryParam("path=" + p + "&path=" + p2, "path") == Some(p)
  {
    var a := "path=" + p;
    var q := a + "&path=" + p2;
    assert NoneIn(a, {'&'}) by {
      forall j | 0 <= j < |a| ensures a[j] !in {'&'} {
        if j >= 5 { assert a[j] == p[j - 5]; }
      }
    }
    assert q == a + ['&'] + ("path=" + p2);
    SplitAtSeparator(a, '&', "path=" + p2, {'&'});
    var parts := Split(q, {'&'});
    assert parts[0] == a;
    assert StartsWith(a, "path" + "=");
    assert a[5..] == p;
  }
}

=== FILE: filename.dfy ===
/** Dashcam file names (index.js `parseFilename`).

    A recording is named `MMDDYY_HHMMSS_MMDDYY_HHMMSS_ddddddC.MP4`: the UTC
    date and time, the local date and time, a six-digit sequence number and a
    channel letter C (A or B). The server recognises a name with the regular
    expression `/(\d{6})_(\d{6})_(\d{6})_(\d{6})_(\d{6}[AB])\.MP4$/i`, which is
    anchored at the end only, so it is the LAST 39 characters of a name that
    must have this shape. */
module Filename {
  import opened Wrappers
  import opened Text

  /** Calendar fields exactly as read from (or written into) a file name. */
  datatype DateTime = DateTime(year: int, month: int, day: int, hour: int, minute: int, second: int)

  /** What `parseFilename` extracts; `sequence` keeps the channel letter. */
  datatype ParsedName = ParsedName(utc: DateTime, local: DateTime, sequence: string)

  /** The order in which the local date field is read. */
  datatype DateOrder = MonthDayYear | YearMonthDay

  /** Length of the text the pattern matches. */
  const PatternLength: nat := 39

  /** Case-insensitive match of one character against an upper-case letter,
      as the `i` flag does for ASCII letters. */
  predicate LetterIs(c: char, upper: char) {
    UpperChar(c) == upper
  }

  /** The 39-character shape `dddddd_dddddd_dddddd_dddddd_ddddddC.MP4`. */
  predicate Shape(t: string) {
    && |t| == PatternLength
    && AllDigits(t[0..6]) && t[6] == '_'
    && AllDigits(t[7..13]) && t[13] == '_'
    && AllDigits(t[14..20]) && t[20] == '_'
    && AllDigits(t[21..27]) && t[27] == '_'
    && AllDigits(t[28..34])
    && (LetterIs(t[34], 'A') || LetterIs(t[34], 'B'))
    && t[35] == '.' && LetterIs(t[36], 'M') && LetterIs(t[37], 'P') && t[38] == '4'
  }

  /** The text the regular expression would match, if any: the name's suffix. */
  function Tail(name: string): (t: string)
    requires |name| >= PatternLength
    ensures |t| == PatternLength && EndsWith(name, t)
  {
    name[|name| - PatternLength..]
  }

  predicate Matches(name: string) {
    |name| >= PatternLength && Shape(Tail(name))
  }

  /** Two digits of `t` starting at position i, as a number. */
  function TwoDigits(t: string, i: nat): (v: nat)
    requires i + 2 <= |t| && AllDigits(t[i..i + 2])
    ensures v < 100
  {
    DigitsValueBound(t[i..i + 2]);
    DigitsValue(t[i..i + 2])
  }

  lemma DigitsInField(t: string, lo: nat, hi: nat, i: nat)
    requires lo <= i && i + 2 <= hi <= |t| && AllDigits(t[lo..hi])
    ensures AllDigits(t[i..i + 2])
  {
    var u, w := t[i..i + 2], t[lo..hi];
    forall j | 0 <= j < 2 ensures IsDigit(u[j]) {
      assert u[j] == w[i - lo + j];
    }
  }

  /** A six-digit date field read in the given order; the year is "20" + YY. */
  function ReadDate(t: string, at: nat, order: DateOrder): (d: DateTime)
    requires at + 6 <= |t| && AllDigits(t[at..at + 6])
    ensures 2000 <= d.year <= 2099
    ensures 0 <= d.month < 100 && 0 <= d.day < 100
  {
    DigitsInField(t, at, at + 6, at);
    DigitsInField(t, at, at + 6, at + 2);
    DigitsInField(t, at, at + 6, at + 4);
    var a, b, c := TwoDigits(t, at), TwoDigits(t, at + 2), TwoDigits(t, at + 4);
    match order
    case MonthDayYear => DateTime(2000 + c, a, b, 0, 0, 0)
    case YearMonthDay => DateTime(2000 + a, b, c, 0, 0, 0)
  }

  /** A six-digit HHMMSS field added to a date. */
  function ReadTime(t: string, at: nat, date: DateTime): (d: DateTime)
    requires at + 6 <= |t| && AllDigits(t[at..at + 6])
    ensures d.year == date.year && d.month == date.month && d.day == date.day
    ensures 0 <= d.hour < 100 && 0 <= d.minute < 100 && 0 <= d.second < 100
  {
    DigitsInField(t, at, at + 6, at);
    DigitsInField(t, at, at + 6, at + 2);
    DigitsInField(t, at, at + 6, at + 4);
    date.(hour := TwoDigits(t, at), minute := TwoDigits(t, at + 2), second := TwoDigits(t, at + 4))
  }

  /** Field extraction with the local date read in `localOrder`. The UTC date
      is always read month, day, year. */
  function ReadName(name: string, localOrder: DateOrder): (r: Option<ParsedName>)
    ensures r.Some? <==> Matches(name)
    ensures r.Some? ==> 2000 <= r.value.utc.year <= 2099 && 2000 <= r.value.local.year <= 2099
    ensures r.Some? ==> |r.value.sequence| == 7 && EndsWith(name, r.value.sequence + Tail(name)[35..])
  {
    if !Matches(name) then None
    else
      var t := Tail(name);
      var utc := ReadTime(t, 7, ReadDate(t, 0, MonthDayYear));
      var local := ReadTime(t, 21, ReadDate(t, 14, localOrder));
      assert t[28..35] + t[35..] == t[28..];
      Some(ParsedName(utc, local, t[28..35]))
  }

  /** `parseFilename`, with the local date read month, day, year as the
      naming convention writes it (see `ParseFilenameAsWritten`). */
  function ParseFilename(name: string): (r: Option<ParsedName>)
    ensures r.Some? <==> Matches(name)
  {
    ReadName(name, MonthDayYear)
  }

  /** `parseFilename` exactly as index.js reads it: the local date as year,
      month, day (index.js:77-79). */
  function ParseFilenameAsWritten(name: string): (r: Option<ParsedName>)
    ensures r.Some? <==> Matches(name)
    ensures r.Some? ==> r.value.utc == ParseFilename(name).value.utc
  {
    ReadName(name, YearMonthDay)
  }

  // -------------------------------------------------------- date validity

  /** The checks the JavaScript engine applies to an ISO date-time string:
      month 1..12, day 1..31 (a day past the month's end rolls over),
      hour 0..23 or exactly 24:00:00, minute and second 0..59. */
  predicate ValidDateTime(d: DateTime) {
    && 1 <= d.month <= 12
    && 1 <= d.day <= 31
    && (d.hour <= 23 || (d.hour == 24 && d.minute == 0 && d.second == 0))
    && 0 <= d.hour && 0 <= d.minute <= 59 && 0 <= d.second <= 59
  }

  /** `parsed.isValid`: both timestamps denote real instants. */
  predicate IsValid(p: ParsedName) {
    ValidDateTime(p.utc) && ValidDateTime(p.local)
  }

  /** Days since 1970-01-01 of the first day of a month, plus d - 1. */
  function DaysFromCivil(y: int, m: int, d: int): int
    requires 1 <= m <= 12
  {
    var y' := if m <= 2 then y - 1 else y;
    var era := y' / 400;
    var yoe := y' - era * 400;
    var mp := if m > 2 then m - 3 else m + 9;
    var doy := (153 * mp + 2) / 5 + d - 1;
    var doe := yoe * 365 + yoe / 4 - yoe / 100 + doy;
    era * 146097 + doe - 719468
  }

  /** `new Date("YYYY-MM-DDTHH:MM:SSZ").getTime()` for a valid date-time. */
  function UtcMillis(d: DateTime): int
    requires ValidDateTime(d)
  {
    DaysFromCivil(d.year, d.month, d.day) * 86400000
      + d.hour * 3600000 + d.minute * 60000 + d.second * 1000
  }

  /** The epoch and the first recording of the test fixture land where the
      JavaScript engine puts them. */
  lemma UtcMillisFixedPoints()
    ensures UtcMillis(DateTime(1970, 1, 1, 0, 0, 0)) == 0
    ensures UtcMillis(DateTime(2025, 1, 1, 10, 0, 0)) == 1735725600000
  {
    EpochMillis();
    FirstRecordingMillis();
  }

  lemma EpochMillis()
    ensures UtcMillis(DateTime(1970, 1, 1, 0, 0, 0)) == 0
  {
    EpochDay();
  }

  lemma FirstRecordingMillis()
    ensures UtcMillis(DateTime(2025, 1, 1, 10, 0, 0)) == 1735725600000
  {
    NewYear2025Day();
  }

  lemma EpochDay()
    ensures DaysFromCivil(1970, 1, 1) == 0
  {
    assert 1969 / 400 == 4 && 369 / 4 == 92 && 369 / 100 == 3 && 1532 / 5 == 306;
  }

  lemma NewYear2025Day()
    ensures DaysFromCivil(2025, 1, 1) == 20089
  {
    assert 2024 / 400 == 5 && 24 / 4 == 6 && 24 / 100 == 0 && 1532 / 5 == 306;
  }

  /** Within a day, a later time of day is a later instant. */
  lemma UtcMillisMonotoneInDay(a: DateTime, b: DateTime)
    requires ValidDateTime(a) && ValidDateTime(b)
    requires a.year == b.year && a.month == b.month && a.day == b.day
    requires a.hour < b.hour || (a.hour == b.hour && (a.minute < b.minute || (a.minute == b.minute && a.second < b.second)))
    ensures UtcMillis(a) < UtcMillis(b)
  {
  }

  /** The UTC instant of a recognised, valid name. */
  function Timestamp(p: ParsedName): int
    requires IsValid(p)
  {
    UtcMillis(p.utc)
  }
}

=== FILE: folderbrowser.dfy ===
/** The "up one level" rule of the folder browser (folder-browser.js
    `getParentPath`), which accepts both Unix (`/`) and Windows (`\`)
    separators. */
module FolderBrowser {
  import opened Wrappers
  import opened Text

  const Separators: set<char> := {'/', '\\'}

  predicate IsAsciiLetter(c: char) {
    'A' <= c <= 'Z' || 'a' <= c <= 'z'
  }

  /** A bare drive such as `C:` (the `i`-flagged `^[A-Z]:$`). */
  predicate IsDrive(p: string) {
    |p| == 2 && IsAsciiLetter(p[0]) && p[1] == ':'
  }

  /** A drive root such as `C:\` (the `i`-flagged `^[A-Z]:\\$`). */
  predicate IsDriveRoot(p: string) {
    |p| == 3 && IsAsciiLetter(p[0]) && p[1] == ':' && p[2] == '\\'
  }

  /** `path.replace(/[\/\\]+$/, '')`: the path without its trailing separators. */
  function StripTrailing(p: string): (r: string)
    ensures |r| <= |p| && p[..|r|] == r
    ensures r == "" || r[|r| - 1] !in Separators
    ensures forall j :: |r| <= j < |p| ==> p[j] in Separators
  {
    if |p| == 0 || p[|p| - 1] !in Separators then p
    else StripTrailing(p[..|p| - 1])
  }

  /** The separator the parent is joined with: `\` when the path holds one. */
  function JoinChar(s: string): char {
    if '\\' in s then '\\' else '/'
  }

  /** The final adjustments: a bare drive gets its root, an empty parent is `/`. */
  function Finish(parent: string): string {
    if IsDrive(parent) then parent + "\\"
    else if parent == "" then "/"
    else parent
  }

  /** `getParentPath`: no parent for an empty path, a drive root, `/`, or a
      path with no separator once trailing separators are removed; otherwise
      the split parts without the last, joined with the path's separator. */
  function GetParentPath(path: string): (r: Option<string>)
    ensures r.None? <==> path == "" || IsDriveRoot(path) || path == "/"
                         || NoneIn(StripTrailing(path), Separators)
    ensures r.Some? ==> 0 < |r.value| < |path|
  {
    if path == "" || IsDriveRoot(path) || path == "/" then None
    else
      var s := StripTrailing(path);
      var parts := Split(s, Separators);
      var kept := parts[..|parts| - 1];
      ParentParts(s);
      if |kept| == 0 then None
      else Some(Finish(Join(kept, [JoinChar(s)])))
  }

  /** What the split-and-pop leaves, described without splitting: the text
      before the last separator, with every separator rewritten to the join
      character; nothing when there is no separator. */
  lemma ParentParts(s: string)
    requires s == "" || s[|s| - 1] !in Separators
    ensures var parts := Split(s, Separators);
            var i := LastIndexIn(s, Separators);
            && (|parts| == 1 <==> i < 0)
            && (i < 0 <==> NoneIn(s, Separators))
            && (i >= 0 ==> Join(parts[..|parts| - 1], [JoinChar(s)])
                             == ReplaceChars(s[..i], Separators, JoinChar(s)))
            && (i >= 0 ==> i + 2 <= |s|)
  {
    var i := LastIndexIn(s, Separators);
    if i < 0 {
      SplitNoSeparator(s, Separators);
    } else {
      var a, b := s[..i], s[i + 1..];
      assert s == a + [s[i]] + b;
      assert NoneIn(b, Separators) by {
        forall j | 0 <= j < |b| ensures b[j] !in Separators {
          assert b[j] == s[i + 1 + j];
        }
      }
      SplitLast(a, s[i], b, Separators);
      var parts := Split(s, Separators);
      assert parts[..|parts| - 1] == Split(a, Separators);
      JoinSplit(a, Separators, JoinChar(s));
    }
  }

  /** An independent statement of the rule, by the position of the last
      separator instead of splitting and joining. */
  function ReferenceParent(path: string): Option<string> {
    if path == "" || IsDriveRoot(path) || path == "/" then None
    else
      var s := StripTrailing(path);
      var i := LastIndexIn(s, Separators);
      if i < 0 then None
      else Some(Finish(ReplaceChars(s[..i], Separators, JoinChar(s))))
  }

  lemma GetParentPathIsReference(path: string)
    ensures GetParentPath(path) == ReferenceParent(path)
  {
    if !(path == "" || IsDriveRoot(path) || path == "/") {
      ParentParts(StripTrailing(path));
    }
  }

  /** For a Unix path (only `/`, no drive letter) the parent is the prefix
      before the last separator, or `/`. */
  lemma UnixParentIsPrefix(path: string)
    requires '\\' !in path && ':' !in path
    requires GetParentPath(path).Some?
    ensures var q := GetParentPath(path).value;
            q == "/" || (|q| < |path| && path[..|q|] == q && path[|q|] == '/')
  {
    GetParentPathIsReference(path);
    var s := StripTrailing(path);
    var i := LastIndexIn(s, Separators);
    assert JoinChar(s) == '/';
    assert s[..i] == path[..i];
    UnixReplaceKeeps(path, i);
    if i == 2 {
      assert path[..i][1] == path[1];
    }
  }

  /** Rewriting separators to `/` leaves a prefix of a Unix path unchanged. */
  lemma UnixReplaceKeeps(path: string, i: nat)
    requires '\\' !in path && i <= |path|
    ensures ReplaceChars(path[..i], Separators, '/') == path[..i]
  {
    var q := ReplaceChars(path[..i], Separators, '/');
    forall j | 0 <= j < i ensures q[j] == path[j] {
      assert path[..i][j] == path[j];
    }
  }

  /** Trailing separators make no difference. */
  lemma TrailingSeparatorIgnored(path: string, c: char)
    requires c in Separators
    ensures GetParentPath(path + [c]) == GetParentPath(path)
  {
    var p := path + [c];
    assert p[..|p| - 1] == path;
    assert StripTrailing(p) == StripTrailing(path);
    if path == "" {
      assert StripTrailing(p) == "";
    } else if IsDriveRoot(path) {
      assert StripTrailing(path) == path[..2];
      assert NoneIn(path[..2], Separators);
    } else if path == "/" {
      assert StripTrailing(path) == "";
    } else if IsDriveRoot(p) {
      assert StripTrailing(path) == path;
      assert NoneIn(path, Separators);
    } else {
      assert p != "" && p != "/";
    }
  }

  /** The ancestors the "up" button walks through, nearest first; the walk
      always ends because every parent is shorter than its child. */
  function Ancestors(path: string): (r: seq<string>)
    ensures |r| <= |path|
    ensures forall k :: 0 <= k < |r| ==> |r[k]| < |path|
    decreases |path|
  {
    match GetParentPath(path)
    case None => []
    case Some(q) => [q] + Ancestors(q)
  }

  /** Walking up from `/home` reaches the root. */
  lemma ParentOfTopLevelDirectory()
    ensures GetParentPath("/home") == Some("/")
  {
    GetParentPathIsReference("/home");
    TopLevelReference("/home");
  }

  /** Walking up from a folder directly on a drive reaches the drive root. */
  lemma ParentOfDriveFolder()
    ensures GetParentPath("D:\\a") == Some("D:\\")
  {
    var p := "D:\\a";
    GetParentPathIsReference(p);
    DriveFolderReference();
  }

  lemma DriveFolderReference()
    ensures ReferenceParent("D:\\a") == Some("D:\\")
  {
    var p := "D:\\a";
    assert StripTrailing(p) == p;
    assert LastIndexIn(p[..3], Separators) == 2;
    assert LastIndexIn(p, Separators) == 2;
    assert p[2] == '\\' && JoinChar(p) == '\\';
    assert ReplaceChars(p[..2], Separators, '\\') == "D:";
    assert IsDrive("D:") && Finish("D:") == "D:\\";
  }

  /** A top-level folder has its only separator in front. */
  lemma TopLevelReference(p: string)
    requires p == "/home"
    ensures ReferenceParent(p) == Some("/")
  {
    assert StripTrailing(p) == p;
    assert LastIndexIn(p[..1], Separators) == 0;
    assert LastIndexIn(p[..2], Separators) == 0;
    assert LastIndexIn(p[..3], Separators) == 0;
    assert LastIndexIn(p[..4], Separators) == 0;
    assert LastIndexIn(p, Separators) == 0;
    assert ReplaceChars(p[..0], Separators, '/') == "";
  }
}

=== FILE: numeric.dfy ===
/** Small numeric helpers shared by the pages: the extremes of a list
    (`Math.min(...xs)`, `Math.max(...xs)`), clamping and absolute value. */
module Numeric {

  function MinOf(s: seq<int>): (m: int)
    requires |s| > 0
    ensures m in s && forall k :: 0 <= k < |s| ==> m <= s[k]
  {
    if |s| == 1 then s[0]
    else var r := MinOf(s[1..]); if s[0] <= r then s[0] else r
  }

  function MaxOf(s: seq<int>): (m: int)
    requires |s| > 0
    ensures m in s && forall k :: 0 <= k < |s| ==> s[k] <= m
  {
    if |s| == 1 then s[0]
    else var r := MaxOf(s[1..]); if s[0] >= r then s[0] else r
  }

  function Clamp(x: real, lo: real, hi: real): (r: real)
    requires lo <= hi
    ensures lo <= r <= hi
    ensures lo <= x <= hi ==> r == x
    ensures x < lo ==> r == lo
    ensures x > hi ==> r == hi
  {
    if x < lo then lo else if x > hi then hi else x
  }

  /** Clamping keeps order. */
  lemma ClampMonotone(x: real, y: real, lo: real, hi: real)
    requires lo <= hi && x <= y
    ensures Clamp(x, lo, hi) <= Clamp(y, lo, hi)
  {
  }

  function Abs(x: real): (r: real)
    ensures r >= 0.0 && (r == x || r == -x)
  {
    if x < 0.0 then -x else x
  }
}

=== FILE: player.dfy ===
/** The playback page (player.js): the ordered playlist with its previous and
    next buttons, the `MM:SS` clock, the timeline the recordings are placed
    on, the click-to-nearest-recording rule and the playhead. The page's DOM
    and the video element are left out; the element's `currentTime` and
    `duration` are parameters. */
module Player {
  import opened Wrappers
  import opened Text
  import opened Sorting
  import opened Numeric

  /** One recording handed to the page; `utc` is `new Date(utcTime).getTime()`. */
  datatype VideoFile = VideoFile(path: string, filename: string, utc: int, fileType: string)

  function Utc(f: VideoFile): int { f.utc }

  // ------------------------------------------------------------- playlist

  /** The page state: the sorted files, the current index and whether the
      previous and next buttons are disabled. */
  datatype Playlist = Playlist(files: seq<VideoFile>, index: nat, prevDisabled: bool, nextDisabled: bool)

  /** After any load, the index points at a file and the buttons are disabled
      exactly at the two ends. */
  predicate Valid(p: Playlist) {
    && 0 <= p.index < |p.files|
    && (p.prevDisabled <==> p.index == 0)
    && (p.nextDisabled <==> p.index == |p.files| - 1)
  }

  /** `loadVideo(index)`: an index outside the list is ignored. */
  function LoadVideo(p: Playlist, i: int): (r: Playlist)
    ensures r.files == p.files
    ensures !(0 <= i < |p.files|) ==> r == p
    ensures 0 <= i < |p.files| ==> Valid(r) && r.index == i
  {
    if i < 0 || i >= |p.files| then p
    else p.(index := i, prevDisabled := i == 0, nextDisabled := i == |p.files| - 1)
  }

  /** `playNextVideo`, also what the end of a recording triggers. */
  function Next(p: Playlist): (r: Playlist)
    requires Valid(p)
    ensures Valid(r) && r.files == p.files
    ensures p.nextDisabled ==> r == p
    ensures !p.nextDisabled ==> r.index == p.index + 1
  {
    if p.index < |p.files| - 1 then LoadVideo(p, p.index + 1) else p
  }

  /** `playPreviousVideo`. */
  function Prev(p: Playlist): (r: Playlist)
    requires Valid(p)
    ensures Valid(r) && r.files == p.files
    ensures p.prevDisabled ==> r == p
    ensures !p.prevDisabled ==> r.index == p.index - 1
  {
    if p.index > 0 then LoadVideo(p, p.index - 1) else p
  }

  /** Previous undoes next whenever next moved. */
  lemma PrevUndoesNext(p: Playlist)
    requires Valid(p) && !p.nextDisabled
    ensures Prev(Next(p)) == p
  {
  }

  /** Next undoes previous whenever previous moved. */
  lemma NextUndoesPrev(p: Playlist)
    requires Valid(p) && !p.prevDisabled
    ensures Next(Prev(p)) == p
  {
  }

  function NextTimes(p: Playlist, k: nat): (r: Playlist)
    requires Valid(p)
    ensures Valid(r)
    decreases k
  {
    if k == 0 then p else NextTimes(Next(p), k - 1)
  }

  /** Letting every recording play to its end walks the list in order and
      stops at the last one. */
  lemma {:induction false} PlaysThrough(p: Playlist, k: nat)
    requires Valid(p)
    ensures NextTimes(p, k).files == p.files
    ensures NextTimes(p, k).index == if p.index + k < |p.files| then p.index + k else |p.files| - 1
    decreases k
  {
    if k > 0 {
      PlaysThrough(Next(p), k - 1);
    }
  }

  /** The page start: no files means no player (the page sends the user back);
      otherwise the files are sorted by time and the first one is loaded. */
  function Start(files: seq<VideoFile>): (r: Option<Playlist>)
    ensures r.None? <==> |files| == 0
    ensures r.Some? ==> Valid(r.value) && r.value.index == 0
    ensures r.Some? ==> SortedBy(r.value.files, Utc) && multiset(r.value.files) == multiset(files)
    ensures r.Some? ==> r.value.prevDisabled && (r.value.nextDisabled <==> |files| == 1)
  {
    if |files| == 0 then None
    else Some(LoadVideo(Playlist(SortByKey(files, Utc), 0, false, false), 0))
  }

  // ---------------------------------------------------------------- clock

  /** A JavaScript number as the video element reports it. */
  datatype Number = NaN | PosInfinity | NegInfinity | Finite(value: real)

  /** `Math.trunc`. */
  function Trunc(x: real): int {
    if x >= 0.0 then x.Floor else -((-x).Floor)
  }

  /** JavaScript's `%` on numbers: the remainder takes the sign of the dividend. */
  function JsRem(x: real, y: real): real
    requires y != 0.0
  {
    x - y * Trunc(x / y) as real
  }

  /** `String(n).padStart(2, '0')`. */
  function Pad2(n: int): string {
    PadStart(IntToString(n), 2, '0')
  }

  /** `formatTime`: whole minutes and seconds as `MM:SS`; `00:00` for NaN.
      An infinite duration yields `Infinity:NaN`. */
  function FormatTime(seconds: Number): (r: string)
    ensures seconds.NaN? ==> r == "00:00"
  {
    match seconds
    case NaN => "00:00"
    case PosInfinity => "Infinity:NaN"
    case NegInfinity => "-Infinity:NaN"
    case Finite(s) => Clock(MinutesOf(s), SecondsOf(s))
  }

  /** `Math.floor(seconds / 60)`. */
  function MinutesOf(s: real): int {
    (s / 60.0).Floor
  }

  /** `Math.floor(seconds % 60)`, with JavaScript's remainder. */
  function SecondsOf(s: real): int {
    JsRem(s, 60.0).Floor
  }

  /** The two padded fields joined by a colon. */
  function Clock(mins: int, secs: int): string {
    Pad2(mins) + ":" + Pad2(secs)
  }

  /** For a non-negative time, the minutes are floor(s / 60) and the seconds
      the remaining whole seconds. */
  lemma MinutesAndSeconds(s: real)
    requires s >= 0.0
    ensures s.Floor >= 0
    ensures (s / 60.0).Floor == s.Floor / 60
    ensures JsRem(s, 60.0).Floor == s.Floor % 60
  {
    var n := s.Floor;
    var q, m := n / 60, n % 60;
    assert n == 60 * q + m;
    assert (60 * q) as real <= s < (60 * q + 60) as real;
    assert (q as real) <= s / 60.0 < (q + 1) as real;
    assert (s / 60.0).Floor == q;
    assert Trunc(s / 60.0) == q;
    assert m as real <= s - 60.0 * q as real < (m + 1) as real;
  }

  /** Reads `M:S` back as a number of seconds. */
  function ParseClock(t: string): Option<int> {
    var parts := Split(t, {':'});
    if |parts| == 2 && |parts[0]| > 0 && |parts[1]| > 0 && AllDigits(parts[0]) && AllDigits(parts[1])
    then Some(DigitsValue(parts[0]) * 60 + DigitsValue(parts[1]))
    else None
  }

  lemma FormatFinite(s: real)
    requires s >= 0.0
    ensures FormatTime(Finite(s)) == Clock(s.Floor / 60, s.Floor % 60)
  {
    MinutesAndSeconds(s);
    FormatFromFields(s, s.Floor / 60, s.Floor % 60);
  }

  lemma FormatFromFields(s: real, mins: int, secs: int)
    requires MinutesOf(s) == mins && SecondsOf(s) == secs
    ensures FormatTime(Finite(s)) == Clock(mins, secs)
  {
  }

  lemma ClockOfNaturals(mins: nat, secs: nat)
    ensures Clock(mins, secs) == ZeroPad(mins, 2) + ":" + ZeroPad(secs, 2)
  {
    assert Pad2(mins) == ZeroPad(mins, 2);
    assert Pad2(secs) == ZeroPad(secs, 2);
  }

  /** A clock built from whole minutes and seconds below 60 reads back as
      their total. */
  lemma ClockRoundTrip(mins: nat, secs: nat)
    requires secs < 60
    ensures var t := ZeroPad(mins, 2) + ":" + ZeroPad(secs, 2);
            && ParseClock(t) == Some(mins * 60 + secs)
            && |t| >= 5 && t[|t| - 3] == ':'
            && AllDigits(t[|t| - 2..]) && DigitsValue(t[|t| - 2..]) == secs
  {
    ClockFields(ZeroPad(mins, 2), ZeroPad(secs, 2));
  }

  /** Two digit fields joined by a colon read back as minutes and seconds. */
  lemma ClockFields(a: string, b: string)
    requires |a| >= 2 && |b| == 2 && AllDigits(a) && AllDigits(b)
    ensures var t := a + ":" + b;
            && ParseClock(t) == Some(DigitsValue(a) * 60 + DigitsValue(b))
            && |t| >= 5 && t[|t| - 3] == ':'
            && AllDigits(t[|t| - 2..]) && DigitsValue(t[|t| - 2..]) == DigitsValue(b)
  {
    var t := a + ":" + b;
    assert Split(t, {':'}) == [a, b] by {
      assert NoneIn(a, {':'}) && NoneIn(b, {':'});
      SplitAtSeparator(a, ':', b, {':'});
      SplitNoSeparator(b, {':'});
      assert t == a + [':'] + b;
    }
    assert t[|t| - 2..] == b;
  }

  /** The clock of n whole seconds reads back as n. */
  lemma ClockOfWholeSeconds(n: nat)
    ensures var t := Clock(n / 60, n % 60);
            && ParseClock(t) == Some(n)
            && |t| >= 5 && t[|t| - 3] == ':'
            && AllDigits(t[|t| - 2..]) && DigitsValue(t[|t| - 2..]) < 60
  {
    var m, r := n / 60, n % 60;
    assert m * 60 + r == n;
    ClockOfNaturals(m, r);
    ClockRoundTrip(m, r);
  }

  /** The clock of a non-negative time shows its whole seconds: reading it
      back gives floor(s), and the seconds field has two digits below 60. */
  lemma FormatTimeRoundTrip(s: real)
    requires s >= 0.0
    ensures var t := FormatTime(Finite(s));
            && ParseClock(t) == Some(s.Floor)
            && |t| >= 5 && t[|t| - 3] == ':'
            && AllDigits(t[|t| - 2..]) && DigitsValue(t[|t| - 2..]) < 60
  {
    MinutesAndSeconds(s);
    FormatFinite(s);
    ClockOfWholeSeconds(s.Floor);
  }

  // ------------------------------------------------------------- timeline

  /** The span the timeline shows; a zero span is widened to one hour. */
  datatype Timeline = Timeline(minTime: int, maxTime: int, range: int)

  const DefaultRange: int := 3600000

  function Times(files: seq<VideoFile>): (r: seq<int>)
    ensures |r| == |files| && forall k :: 0 <= k < |files| ==> r[k] == files[k].utc
  {
    if |files| == 0 then [] else [files[0].utc] + Times(files[1..])
  }

  /** `initializeTimeline`: nothing for no files; otherwise the earliest and
      latest start times and their distance (or one hour when they agree). */
  function MakeTimeline(files: seq<VideoFile>): (r: Option<Timeline>)
    ensures r.None? <==> |files| == 0
    ensures r.Some? ==> r.value.range > 0
    ensures r.Some? ==> forall k :: 0 <= k < |files| ==> r.value.minTime <= files[k].utc <= r.value.maxTime
    ensures r.Some? ==> exists k :: 0 <= k < |files| && files[k].utc == r.value.minTime
    ensures r.Some? ==> exists k :: 0 <= k < |files| && files[k].utc == r.value.maxTime
    ensures r.Some? ==> r.value.range == (if r.value.maxTime == r.value.minTime then DefaultRange
                                          else r.value.maxTime - r.value.minTime)
  {
    if |files| == 0 then None
    else
      var ts := Times(files);
      var lo, hi := MinOf(ts), MaxOf(ts);
      Some(Timeline(lo, hi, if hi - lo == 0 then DefaultRange else hi - lo))
  }

  /** Percent position of an instant on the timeline, clamped to [0, 100]. */
  function Position(tl: Timeline, t: real): (r: real)
    requires tl.range > 0
    ensures 0.0 <= r <= 100.0
  {
    Clamp((t - tl.minTime as real) / tl.range as real * 100.0, 0.0, 100.0)
  }

  /** Where a recording's marker is drawn. */
  function MarkerPosition(tl: Timeline, f: VideoFile): real
    requires tl.range > 0
  {
    Position(tl, f.utc as real)
  }

  /** Scaling an offset within the range to a percentage keeps order and
      stays within [0, 100]. */
  lemma Percentages(x: real, y: real, rg: real)
    requires 0.0 <= x <= y <= rg && rg > 0.0
    ensures 0.0 <= x / rg * 100.0 <= y / rg * 100.0 <= 100.0
    ensures x == 0.0 ==> x / rg * 100.0 == 0.0
    ensures y == rg ==> y / rg * 100.0 == 100.0
  {
    assert x / rg <= y / rg;
    assert y / rg <= rg / rg;
    assert rg / rg == 1.0;
  }

  /** Markers of the timeline's own files need no clamping: the earliest is at
      0, the latest at 100 (unless all start together), and a later start is
      never drawn to the left of an earlier one. */
  lemma MarkerPlacement(files: seq<VideoFile>, i: nat, j: nat)
    requires |files| > 0 && i < |files| && j < |files|
    ensures var tl := MakeTimeline(files).value;
            && (files[i].utc <= files[j].utc ==> MarkerPosition(tl, files[i]) <= MarkerPosition(tl, files[j]))
            && (files[i].utc == tl.minTime ==> MarkerPosition(tl, files[i]) == 0.0)
            && (files[i].utc == tl.maxTime && tl.maxTime != tl.minTime ==> MarkerPosition(tl, files[i]) == 100.0)
            && MarkerPosition(tl, files[i]) == (files[i].utc - tl.minTime) as real / tl.range as real * 100.0
  {
    var tl := MakeTimeline(files).value;
    var x := (files[i].utc - tl.minTime) as real;
    var y := (files[j].utc - tl.minTime) as real;
    var rg := tl.range as real;
    Percentages(x, x, rg);
    if files[i].utc <= files[j].utc {
      Percentages(x, y, rg);
    }
    assert (files[i].utc as real - tl.minTime as real) == x;
    if files[i].utc == tl.maxTime && tl.maxTime != tl.minTime {
      assert x == rg;
      Percentages(x, x, rg);
    }
  }

  /** A later instant is never to the left of an earlier one. */
  lemma PositionMonotone(tl: Timeline, t: real, u: real)
    requires tl.range > 0 && t <= u
    ensures Position(tl, t) <= Position(tl, u)
  {
    var rg := tl.range as real;
    assert (t - tl.minTime as real) / rg <= (u - tl.minTime as real) / rg;
  }

  /** `updatePlaybackPosition`: the playhead sits at the current file's start
      plus the element's playback time; nothing moves when there is no current
      file. */
  function Playhead(tl: Timeline, p: Playlist, currentTime: real): (r: Option<real>)
    requires tl.range > 0
    ensures r.None? <==> p.index >= |p.files|
    ensures r.Some? ==> 0.0 <= r.value <= 100.0
    ensures r.Some? ==> var t := p.files[p.index].utc as real + currentTime * 1000.0;
            && (tl.minTime as real <= t <= (tl.minTime + tl.range) as real ==> ClickTime(tl, r.value) == t)
            && (t <= tl.minTime as real ==> r.value == 0.0)
            && (t >= (tl.minTime + tl.range) as real ==> r.value == 100.0)
  {
    if p.index >= |p.files| then None
    else
      var t := p.files[p.index].utc as real + currentTime * 1000.0;
      PositionExact(tl, t);
      Some(Position(tl, t))
  }

  /** Inside the span, the position is the inverse of the click rule: the
      instant a click at an instant's position stands for is that instant.
      Outside it, the position is pinned to the nearer end. */
  lemma PositionExact(tl: Timeline, t: real)
    requires tl.range > 0
    ensures tl.minTime as real <= t <= (tl.minTime + tl.range) as real ==> ClickTime(tl, Position(tl, t)) == t
    ensures t <= tl.minTime as real ==> Position(tl, t) == 0.0
    ensures t >= (tl.minTime + tl.range) as real ==> Position(tl, t) == 100.0
  {
    var rg := tl.range as real;
    var x := t - tl.minTime as real;
    var q := x / rg * 100.0;
    assert q / 100.0 * rg == x;
    if x <= 0.0 {
      assert x / rg <= 0.0;
    }
    if x >= rg {
      assert x / rg >= rg / rg;
      assert rg / rg == 1.0;
    }
  }

  /** While one recording plays, the playhead only moves right. */
  lemma PlayheadAdvances(tl: Timeline, p: Playlist, t: real, u: real)
    requires tl.range > 0 && Valid(p) && t <= u
    ensures Playhead(tl, p, t).value <= Playhead(tl, p, u).value
  {
    var base := p.files[p.index].utc as real;
    PositionMonotone(tl, base + t * 1000.0, base + u * 1000.0);
  }

  // --------------------------------------------------------- click to seek

  /** The instant a click at `percent` of the track stands for. */
  function ClickTime(tl: Timeline, percent: real): real {
    tl.minTime as real + percent / 100.0 * tl.range as real
  }

  /** The recording a click on the track loads: the one starting closest to
      the clicked instant, the earliest in the list on ties. */
  method NearestIndex(files: seq<VideoFile>, clickTime: real) returns (best: nat)
    requires |files| > 0
    ensures best < |files|
    ensures forall k :: 0 <= k < |files| ==> Abs(files[best].utc as real - clickTime) <= Abs(files[k].utc as real - clickTime)
    ensures forall k :: 0 <= k < best ==> Abs(files[k].utc as real - clickTime) > Abs(files[best].utc as real - clickTime)
  {
    best := 0;
    var minDiff := Abs(files[0].utc as real - clickTime);
    var i := 1;
    while i < |files|
      invariant 1 <= i <= |files| && best < i
      invariant minDiff == Abs(files[best].utc as real - clickTime)
      invariant forall k :: 0 <= k < i ==> minDiff <= Abs(files[k].utc as real - clickTime)
      invariant forall k :: 0 <= k < best ==> Abs(files[k].utc as real - clickTime) > minDiff
    {
      var diff := Abs(files[i].utc as real - clickTime);
      if diff < minDiff {
        minDiff := diff;
        best := i;
      }
      i := i + 1;
    }
  }

  /** Clicking the track loads the nearest recording. */
  method ClickTrack(p: Playlist, tl: Timeline, percent: real) returns (r: Playlist)
    requires Valid(p)
    ensures Valid(r) && r.files == p.files
    ensures forall k :: 0 <= k < |p.files| ==>
              Abs(p.files[r.index].utc as real - ClickTime(tl, percent)) <= Abs(p.files[k].utc as real - ClickTime(tl, percent))
    ensures forall k :: 0 <= k < r.index ==>
              Abs(p.files[k].utc as real - ClickTime(tl, percent)) > Abs(p.files[r.index].utc as real - ClickTime(tl, percent))
  {
    var i := NearestIndex(p.files, ClickTime(tl, percent));
    r := LoadVideo(p, i);
  }
}

=== FILE: rangetimeline.dfy ===
/** The date-range timeline of the main page (app.js): the span it shows, the
    two draggable handles with their magnetic snapping, setting the range from
    two instants (manual input, a click on a file marker), and converting
    between handle positions (percent of the track) and instants. Positions
    and instants are reals, as JavaScript numbers are; pixel geometry is
    folded into the pointer's percentage. */
module RangeTimeline {
  import opened Wrappers
  import opened Numeric

  /** The instants at the two ends of the track. */
  datatype Span = Span(minTime: int, maxTime: int)

  predicate ValidSpan(sp: Span) { sp.minTime < sp.maxTime }

  function Width(sp: Span): int { sp.maxTime - sp.minTime }

  /** Half of the hour a single instant is widened to. */
  const HalfHour: int := 1800000

  /** `createTimeline`: the earliest and latest start; when they coincide the
      span is widened by half an hour on each side. No span for no files. */
  function CreateSpan(times: seq<int>): (r: Option<Span>)
    ensures r.None? <==> |times| == 0
    ensures r.Some? ==> ValidSpan(r.value)
    ensures r.Some? ==> forall k :: 0 <= k < |times| ==> r.value.minTime <= times[k] <= r.value.maxTime
    ensures r.Some? && (forall k :: 0 <= k < |times| ==> times[k] == times[0]) ==>
              r.value == Span(times[0] - HalfHour, times[0] + HalfHour)
    ensures r.Some? && (exists k :: 0 <= k < |times| && times[k] != times[0]) ==>
              r.value.minTime in times && r.value.maxTime in times
  {
    if |times| == 0 then None
    else
      var lo, hi := MinOf(times), MaxOf(times);
      if hi - lo == 0 then Some(Span(lo - HalfHour, hi + HalfHour))
      else Some(Span(lo, hi))
  }

  /** Where an instant sits on the track, in percent (not clamped). */
  function PercentOf(sp: Span, t: real): real
    requires ValidSpan(sp)
  {
    (t - sp.minTime as real) / Width(sp) as real * 100.0
  }

  /** The instant a handle at p percent stands for (`updateRangeDisplay`). */
  function TimeOf(sp: Span, p: real): real {
    sp.minTime as real + p / 100.0 * Width(sp) as real
  }

  /** Positions and instants convert into each other without loss. */
  lemma PercentTimeRoundTrip(sp: Span, t: real, p: real)
    requires ValidSpan(sp)
    ensures TimeOf(sp, PercentOf(sp, t)) == t
    ensures PercentOf(sp, TimeOf(sp, p)) == p
  {
    var w := Width(sp) as real;
    var x := t - sp.minTime as real;
    assert PercentOf(sp, t) / 100.0 == x / w;
    assert x / w * w == x;
    assert (p / 100.0 * w) / w * 100.0 == p;
  }

  /** Moving an instant later never moves its position left. */
  lemma PercentMonotone(sp: Span, t: real, u: real)
    requires ValidSpan(sp) && t <= u
    ensures PercentOf(sp, t) <= PercentOf(sp, u)
  {
    var w := Width(sp) as real;
    assert (t - sp.minTime as real) / w <= (u - sp.minTime as real) / w;
  }

  /** The ends of the span sit at the ends of the track. */
  lemma SpanEnds(sp: Span)
    requires ValidSpan(sp)
    ensures PercentOf(sp, sp.minTime as real) == 0.0
    ensures PercentOf(sp, sp.maxTime as real) == 100.0
    ensures TimeOf(sp, 0.0) == sp.minTime as real
    ensures TimeOf(sp, 100.0) == sp.maxTime as real
  {
    var w := Width(sp) as real;
    assert (sp.maxTime as real - sp.minTime as real) == w;
    assert w / w == 1.0;
  }

  /** Recordings that all start together are drawn in the middle of the track. */
  lemma SimultaneousCentered(times: seq<int>)
    requires |times| > 0 && forall k :: 0 <= k < |times| ==> times[k] == times[0]
    ensures PercentOf(CreateSpan(times).value, times[0] as real) == 50.0
  {
    var sp := CreateSpan(times).value;
    assert Width(sp) == 2 * HalfHour;
  }

  // ---------------------------------------------------------- the handles

  /** Handle positions in percent of the track. */
  datatype Range = Range(startPercent: real, endPercent: real)

  /** The range on creation and after "Reset Range". */
  const FullRange: Range := Range(0.0, 100.0)

  /** The reset range covers the whole span. */
  lemma FullRangeCoversSpan(sp: Span)
    requires ValidSpan(sp)
    ensures TimeOf(sp, FullRange.startPercent) == sp.minTime as real
    ensures TimeOf(sp, FullRange.endPercent) == sp.maxTime as real
  {
    SpanEnds(sp);
  }

  /** `setRangeFromTimes`: each instant's position, clamped to the track. */
  function SetRangeFromTimes(sp: Span, s: real, e: real): (r: Range)
    requires ValidSpan(sp)
    ensures 0.0 <= r.startPercent <= 100.0 && 0.0 <= r.endPercent <= 100.0
    ensures s <= sp.minTime as real ==> r.startPercent == 0.0
    ensures s >= sp.maxTime as real ==> r.startPercent == 100.0
    ensures e <= sp.minTime as real ==> r.endPercent == 0.0
    ensures e >= sp.maxTime as real ==> r.endPercent == 100.0
  {
    PercentOutside(sp, s);
    PercentOutside(sp, e);
    Range(Clamp(PercentOf(sp, s), 0.0, 100.0), Clamp(PercentOf(sp, e), 0.0, 100.0))
  }

  /** An instant before the span sits left of the track, one after it right. */
  lemma PercentOutside(sp: Span, t: real)
    requires ValidSpan(sp)
    ensures t <= sp.minTime as real ==> PercentOf(sp, t) <= 0.0
    ensures t >= sp.maxTime as real ==> PercentOf(sp, t) >= 100.0
  {
    SpanEnds(sp);
    if t <= sp.minTime as real {
      PercentMonotone(sp, t, sp.minTime as real);
    }
    if t >= sp.maxTime as real {
      PercentMonotone(sp, sp.maxTime as real, t);
    }
  }

  /** Inside the span, the handles land exactly on the given instants; an
      ordered pair of instants gives ordered handles. */
  lemma SetRangeFromTimesExact(sp: Span, s: real, e: real)
    requires ValidSpan(sp)
    ensures var r := SetRangeFromTimes(sp, s, e);
            && (sp.minTime as real <= s <= sp.maxTime as real ==> TimeOf(sp, r.startPercent) == s)
            && (sp.minTime as real <= e <= sp.maxTime as real ==> TimeOf(sp, r.endPercent) == e)
            && (s <= e ==> r.startPercent <= r.endPercent)
  {
    SpanEnds(sp);
    PercentTimeRoundTrip(sp, s, 0.0);
    PercentTimeRoundTrip(sp, e, 0.0);
    if sp.minTime as real <= s {
      PercentMonotone(sp, sp.minTime as real, s);
    }
    if s <= sp.maxTime as real {
      PercentMonotone(sp, s, sp.maxTime as real);
    }
    if sp.minTime as real <= e {
      PercentMonotone(sp, sp.minTime as real, e);
    }
    if e <= sp.maxTime as real {
      PercentMonotone(sp, e, sp.maxTime as real);
    }
    if s <= e {
      PercentMonotone(sp, s, e);
      ClampMonotone(PercentOf(sp, s), PercentOf(sp, e), 0.0, 100.0);
    }
  }

  /** Half the window a click on a file marker selects: three minutes. */
  const MiniRange: int := 3 * 60 * 1000

  /** A click on a file marker selects three minutes either side of the
      recording's start. */
  function FileMarkerRange(sp: Span, t: int): Range
    requires ValidSpan(sp)
  {
    SetRangeFromTimes(sp, (t - MiniRange) as real, (t + MiniRange) as real)
  }

  /** The clicked recording lies inside the range it selects, and the range
      spans at most six minutes. */
  lemma FileMarkerRangeKeepsFile(sp: Span, t: int)
    requires ValidSpan(sp) && sp.minTime <= t <= sp.maxTime
    ensures var r := FileMarkerRange(sp, t);
            && TimeOf(sp, r.startPercent) <= t as real <= TimeOf(sp, r.endPercent)
            && TimeOf(sp, r.endPercent) - TimeOf(sp, r.startPercent) <= (2 * MiniRange) as real
  {
    var s, e := (t - MiniRange) as real, (t + MiniRange) as real;
    var r := FileMarkerRange(sp, t);
    var w := Width(sp) as real;
    SetRangeFromTimesExact(sp, s, e);
    SpanEnds(sp);
    var lo, hi := TimeOf(sp, r.startPercent), TimeOf(sp, r.endPercent);
    assert lo == (if s <= sp.minTime as real then sp.minTime as real else s);
    assert hi == (if e >= sp.maxTime as real then sp.maxTime as real else e);
  }

  // ------------------------------------------------------------- snapping

  /** How close, in percent, a handle must come to a marker to snap to it. */
  const SnapThreshold: real := 1.5

  /** Marker k is the one a handle at p snaps to: strictly closer than the
      threshold, no farther than any other marker, and strictly closer than
      every marker before it in the list. */
  predicate NearestSnap(points: seq<real>, p: real, k: int) {
    && 0 <= k < |points| && Abs(points[k] - p) < SnapThreshold
    && (forall j :: 0 <= j < |points| ==> Abs(points[k] - p) <= Abs(points[j] - p))
    && (forall j :: 0 <= j < k ==> Abs(points[j] - p) > Abs(points[k] - p))
  }

  /** At most one marker is the nearest one. */
  lemma NearestSnapUnique(points: seq<real>, p: real, a: int, b: int)
    requires NearestSnap(points, p, a) && NearestSnap(points, p, b)
    ensures a == b
  {
  }

  /** `findNearestSnapPoint`: the nearest marker within reach; none when no
      marker is that close. */
  method FindNearestSnapPoint(points: seq<real>, p: real) returns (r: Option<nat>)
    ensures r.None? <==> forall k :: 0 <= k < |points| ==> Abs(points[k] - p) >= SnapThreshold
    ensures r.Some? ==> NearestSnap(points, p, r.value)
  {
    r := None;
    var minDistance := SnapThreshold;
    var i := 0;
    while i < |points|
      invariant 0 <= i <= |points|
      invariant r.None? ==> minDistance == SnapThreshold
      invariant r.Some? ==> r.value < i && minDistance == Abs(points[r.value] - p) < SnapThreshold
      invariant forall k :: 0 <= k < i ==> minDistance <= Abs(points[k] - p)
      invariant r.Some? ==> forall k :: 0 <= k < r.value ==> Abs(points[k] - p) > minDistance
    {
      var distance := Abs(points[i] - p);
      if distance < minDistance {
        minDistance := distance;
        r := Some(i);
      }
      i := i + 1;
    }
  }

  datatype Handle = StartHandle | EndHandle

  /** The handle update of `handleMouseMove`: the start handle stops one
      percent before the end handle and the end handle one percent after the
      start handle; the other handle does not move. */
  function MoveHandle(r: Range, h: Handle, target: real): (r': Range)
    ensures h.StartHandle? ==> r'.endPercent == r.endPercent && r'.startPercent + 1.0 <= r'.endPercent
    ensures h.EndHandle? ==> r'.startPercent == r.startPercent && r'.startPercent + 1.0 <= r'.endPercent
    ensures h.StartHandle? && target + 1.0 <= r.endPercent ==> r'.startPercent == target
    ensures h.EndHandle? && r.startPercent + 1.0 <= target ==> r'.endPercent == target
    ensures h.StartHandle? ==> r'.startPercent <= target && (r'.startPercent == target || r'.startPercent == r.endPercent - 1.0)
    ensures h.EndHandle? ==> r'.endPercent >= target && (r'.endPercent == target || r'.endPercent == r.startPercent + 1.0)
  {
    match h
    case StartHandle => r.(startPercent := if target < r.endPercent - 1.0 then target else r.endPercent - 1.0)
    case EndHandle => r.(endPercent := if target > r.startPercent + 1.0 then target else r.startPercent + 1.0)
  }

  /** Moving a handle twice to the same target is moving it once. */
  lemma MoveHandleIdempotent(r: Range, h: Handle, target: real)
    ensures MoveHandle(MoveHandle(r, h, target), h, target) == MoveHandle(r, h, target)
  {
  }

  /** A handle moved to where it already is leaves a range with the
      one-percent gap unchanged. */
  lemma MoveHandleInPlace(r: Range)
    requires r.startPercent + 1.0 <= r.endPercent
    ensures MoveHandle(r, StartHandle, r.startPercent) == r
    ensures MoveHandle(r, EndHandle, r.endPercent) == r
  {
  }

  /** A farther target never leaves the handle nearer. */
  lemma MoveHandleMonotone(r: Range, h: Handle, t: real, u: real)
    requires t <= u
    ensures MoveHandle(r, h, t).startPercent <= MoveHandle(r, h, u).startPercent
    ensures MoveHandle(r, h, t).endPercent <= MoveHandle(r, h, u).endPercent
  {
  }

  /** One pointer move while dragging: the pointer position clamped to the
      track, pulled onto the nearest marker in reach, then applied to the
      dragged handle. */
  method Drag(r: Range, h: Handle, pointer: real, points: seq<real>) returns (r': Range)
    ensures h.StartHandle? ==> r'.endPercent == r.endPercent
    ensures h.EndHandle? ==> r'.startPercent == r.startPercent
    ensures r'.startPercent + 1.0 <= r'.endPercent
    ensures (forall k :: 0 <= k < |points| ==> Abs(points[k] - Clamp(pointer, 0.0, 100.0)) >= SnapThreshold)
              ==> r' == MoveHandle(r, h, Clamp(pointer, 0.0, 100.0))
    ensures (exists k :: 0 <= k < |points| && Abs(points[k] - Clamp(pointer, 0.0, 100.0)) < SnapThreshold)
              ==> exists k :: NearestSnap(points, Clamp(pointer, 0.0, 100.0), k) && r' == MoveHandle(r, h, points[k])
  {
    var p := Clamp(pointer, 0.0, 100.0);
    var snap := FindNearestSnapPoint(points, p);
    if snap.Some? {
      p := points[snap.value];
    }
    r' := MoveHandle(r, h, p);
  }

  // --------------------------------------------------------- manual input

  datatype ManualOutcome = Ignored | Rejected(message: string) | Applied(range: Range)

  /** `updateFromManualInput`; an instant that did not parse is None. */
  function ManualInput(sp: Span, s: Option<int>, e: Option<int>): (r: ManualOutcome)
    requires ValidSpan(sp)
    ensures s.None? || e.None? ==> r == Ignored
    ensures s.Some? && e.Some? && s.value >= e.value ==> r == Rejected("Start time must be before end time")
    ensures r.Applied? <==> s.Some? && e.Some? && s.value < e.value
    ensures r.Applied? ==> r.range == SetRangeFromTimes(sp, s.value as real, e.value as real)
    ensures r.Applied? ==> r.range.startPercent <= r.range.endPercent
  {
    if s.None? || e.None? then Ignored
    else if s.value >= e.value then Rejected("Start time must be before end time")
    else
      SetRangeFromTimesExact(sp, s.value as real, e.value as real);
      Applied(SetRangeFromTimes(sp, s.value as real, e.value as real))
  }

  /** Typed instants inside the span put the handles exactly on them; ones
      outside it pin the handle to the end of the track. */
  lemma ManualInputExact(sp: Span, s: int, e: int)
    requires ValidSpan(sp) && s < e
    ensures ManualInput(sp, Some(s), Some(e)).Applied?
    ensures var g := ManualInput(sp, Some(s), Some(e)).range;
            && (sp.minTime <= s <= sp.maxTime ==> TimeOf(sp, g.startPercent) == s as real)
            && (sp.minTime <= e <= sp.maxTime ==> TimeOf(sp, g.endPercent) == e as real)
            && (s <= sp.minTime ==> g.startPercent == 0.0)
            && (e >= sp.maxTime ==> g.endPercent == 100.0)
  {
    SetRangeFromTimesExact(sp, s as real, e as real);
  }
}

=== FILE: ratelimit.dfy ===
/** The server's in-memory fixed-window rate limiter (index.js
    `checkRateLimit`), which guards the folder-listing endpoint. The clock
    reading `Date.now()` is a parameter. */
module RateLimit {

  /** Length of one window, in milliseconds. */
  const Window: int := 60000

  /** Requests a client may make in one window. */
  const MaxRequests: nat := 100

  /** Requests counted in the client's current window, and when it ends. */
  datatype ClientData = ClientData(count: nat, resetTime: int)

  type Table = map<string, ClientData>

  datatype Decision = Decision(allowed: bool, table: Table)

  /** Counts one request of `client` at time `now` and says whether it is
      admitted. A client seen for the first time, or whose window has ended
      (`now > resetTime`), starts a fresh window ending at `now + Window`. */
  function CheckRateLimit(table: Table, client: string, now: int): (d: Decision)
    ensures d.table.Keys == table.Keys + {client}
    ensures forall c :: c in table && c != client ==> d.table[c] == table[c]
    ensures d.allowed <==> d.table[client].count <= MaxRequests
    ensures client in table && now <= table[client].resetTime ==>
              d.table[client] == table[client].(count := table[client].count + 1)
    ensures client !in table || now > table[client].resetTime ==>
              d.table[client] == ClientData(1, now + Window)
  {
    var data := if client in table then table[client] else ClientData(0, now + Window);
    var current := if now > data.resetTime then ClientData(0, now + Window) else data;
    var next := current.(count := current.count + 1);
    Decision(next.count <= MaxRequests, table[client := next])
  }

  /** The answers to a series of requests from one client at the given times. */
  function RunCalls(table: Table, client: string, times: seq<int>): (r: (seq<bool>, Table))
    ensures |r.0| == |times|
    decreases |times|
  {
    if |times| == 0 then ([], table)
    else
      var d := CheckRateLimit(table, client, times[0]);
      var rest := RunCalls(d.table, client, times[1..]);
      ([d.allowed] + rest.0, rest.1)
  }

  /** Inside one window the count only grows: the i-th further request is
      admitted exactly when the count it brings does not exceed the limit. */
  lemma {:induction false} WithinWindow(table: Table, client: string, times: seq<int>)
    requires client in table
    requires forall i :: 0 <= i < |times| ==> times[i] <= table[client].resetTime
    ensures var r := RunCalls(table, client, times);
            && client in r.1
            && r.1[client] == table[client].(count := table[client].count + |times|)
            && forall i :: 0 <= i < |times| ==> (r.0[i] <==> table[client].count + i + 1 <= MaxRequests)
    decreases |times|
  {
    if |times| > 0 {
      var d := CheckRateLimit(table, client, times[0]);
      WithinWindow(d.table, client, times[1..]);
      var rest := RunCalls(d.table, client, times[1..]);
      var r := RunCalls(table, client, times);
      assert r.0 == [d.allowed] + rest.0;
      forall i | 1 <= i < |times|
        ensures r.0[i] <==> table[client].count + i + 1 <= MaxRequests
      {
        assert r.0[i] == rest.0[i - 1];
      }
    }
  }

  /** A new client's first 100 requests within one window are admitted and
      every later one in that window is refused. */
  lemma FreshClientBurst(table: Table, client: string, times: seq<int>)
    requires client !in table && |times| > 0
    requires forall i :: 0 <= i < |times| ==> times[i] <= times[0] + Window
    ensures forall i :: 0 <= i < |times| ==> (RunCalls(table, client, times).0[i] <==> i < MaxRequests)
  {
    var d := CheckRateLimit(table, client, times[0]);
    assert d.table[client] == ClientData(1, times[0] + Window);
    WithinWindow(d.table, client, times[1..]);
    var rest := RunCalls(d.table, client, times[1..]);
    var r := RunCalls(table, client, times);
    assert r.0 == [d.allowed] + rest.0;
    forall i | 1 <= i < |times| ensures r.0[i] <==> i < MaxRequests {
      assert r.0[i] == rest.0[i - 1];
    }
  }

  /** Once its window has ended, a client is admitted again whatever its count. */
  lemma AdmittedAfterWindow(table: Table, client: string, now: int)
    requires client in table && now > table[client].resetTime
    ensures CheckRateLimit(table, client, now).allowed
  {
  }
}

=== FILE: scanform.dfy ===
/** The scan form of the main page (app.js): the optional pre-scan date
    filter, the `YYYY-MM-DDTHH:MM:SS` text the date inputs hold, and the
    checks `scanFolder` makes before it sends a scan request. Converting the
    inputs' local date-times to instants depends on the time zone and is left
    out: the form's instants arrive already converted, None for an empty
    input. */
module ScanForm {
  import opened Wrappers
  import opened Text
  import Catalog
  import Filename

  // ------------------------------------------------- date-time input text

  /** `a + c + rest` for a field a and a one-character separator c. */
  function Field(a: string, c: char, rest: string): string {
    a + [c] + rest
  }

  /** `formatDateTimeLocal`: the year as `String(year)`, every other field
      padded to two digits. The fields are the local calendar fields. */
  function FormatDateTimeLocal(d: Filename.DateTime): string
    requires d.year >= 0 && d.month >= 0 && d.day >= 0 && d.hour >= 0 && d.minute >= 0 && d.second >= 0
  {
    Field(NatToString(d.year), '-',
      Field(ZeroPad(d.month, 2), '-',
        Field(ZeroPad(d.day, 2), 'T',
          Field(ZeroPad(d.hour, 2), ':',
            Field(ZeroPad(d.minute, 2), ':', ZeroPad(d.second, 2))))))
  }

  const DateTimeSeparators: set<char> := {'-', 'T', ':'}

  predicate NumericField(x: string) {
    |x| > 0 && AllDigits(x)
  }

  /** Reads the six numeric fields of a `YYYY-MM-DDTHH:MM:SS` text. */
  function ParseDateTimeLocal(s: string): Option<Filename.DateTime> {
    ReadFields(Split(s, DateTimeSeparators))
  }

  /** Six numeric fields as a date-time; anything else is not one. */
  function ReadFields(parts: seq<string>): Option<Filename.DateTime> {
    if |parts| == 6 && NumericField(parts[0]) && NumericField(parts[1]) && NumericField(parts[2])
       && NumericField(parts[3]) && NumericField(parts[4]) && NumericField(parts[5])
    then Some(Filename.DateTime(DigitsValue(parts[0]), DigitsValue(parts[1]), DigitsValue(parts[2]),
                                DigitsValue(parts[3]), DigitsValue(parts[4]), DigitsValue(parts[5])))
    else None
  }

  lemma DigitsHaveNoSeparator(a: string)
    requires AllDigits(a)
    ensures NoneIn(a, DateTimeSeparators)
  {
    forall j | 0 <= j < |a| ensures a[j] !in DateTimeSeparators {
      assert IsDigit(a[j]);
    }
  }

  /** Splitting off one leading digit field. */
  lemma SplitField(a: string, c: char, rest: string)
    requires AllDigits(a) && c in DateTimeSeparators
    ensures Split(Field(a, c, rest), DateTimeSeparators) == [a] + Split(rest, DateTimeSeparators)
  {
    DigitsHaveNoSeparator(a);
    SplitAtSeparator(a, c, rest, DateTimeSeparators);
  }

  /** The six digit fields come back apart. */
  lemma SplitFields(y: string, mo: string, da: string, h: string, mi: string, se: string)
    requires AllDigits(y) && AllDigits(mo) && AllDigits(da) && AllDigits(h) && AllDigits(mi) && AllDigits(se)
    ensures Split(Field(y, '-', Field(mo, '-', Field(da, 'T', Field(h, ':', Field(mi, ':', se))))), DateTimeSeparators)
            == [y, mo, da, h, mi, se]
  {
    var t4 := Field(mi, ':', se);
    var t3 := Field(h, ':', t4);
    var t2 := Field(da, 'T', t3);
    var t1 := Field(mo, '-', t2);
    DigitsHaveNoSeparator(se);
    SplitNoSeparator(se, DateTimeSeparators);
    SplitField(mi, ':', se);
    SplitField(h, ':', t4);
    SplitField(da, 'T', t3);
    SplitField(mo, '-', t2);
    SplitField(y, '-', t1);
  }

  /** The input text reads back as the date-time it was made from. */
  lemma DateTimeLocalRoundTrip(d: Filename.DateTime)
    requires d.year >= 0 && d.month >= 0 && d.day >= 0 && d.hour >= 0 && d.minute >= 0 && d.second >= 0
    ensures ParseDateTimeLocal(FormatDateTimeLocal(d)) == Some(d)
  {
    var y, mo, da := NatToString(d.year), ZeroPad(d.month, 2), ZeroPad(d.day, 2);
    var h, mi, se := ZeroPad(d.hour, 2), ZeroPad(d.minute, 2), ZeroPad(d.second, 2);
    SplitFields(y, mo, da, h, mi, se);
    ReadParts(y, mo, da, h, mi, se);
  }

  /** Six non-empty digit fields read as the six numbers they spell. */
  lemma ReadParts(y: string, mo: string, da: string, h: string, mi: string, se: string)
    requires NumericField(y) && NumericField(mo) && NumericField(da)
    requires NumericField(h) && NumericField(mi) && NumericField(se)
    ensures ReadFields([y, mo, da, h, mi, se])
            == Some(Filename.DateTime(DigitsValue(y), DigitsValue(mo), DigitsValue(da),
                                      DigitsValue(h), DigitsValue(mi), DigitsValue(se)))
  {
  }

  /** The fields are padded to two digits, so the text of a date-time with
      a four-digit year is 19 characters long. */
  lemma DateTimeLocalLength(d: Filename.DateTime)
    requires 1000 <= d.year <= 9999
    requires 0 <= d.month < 100 && 0 <= d.day < 100 && 0 <= d.hour < 100 && 0 <= d.minute < 100 && 0 <= d.second < 100
    ensures |FormatDateTimeLocal(d)| == 19
  {
    NatToStringLength(d.year, 4);
    NatToStringLength(d.year, 3);
  }

  // ----------------------------------------------------- pre-scan filter

  /** The instants sent with a scan; None means the bound is not set. */
  datatype FilterDates = FilterDates(startTime: Option<int>, endTime: Option<int>)

  /** `getPreScanFilterDates`: no bounds when the filter is off; None (after
      an alert) when both bounds are set and the start is not before the end. */
  function PreScanFilterDates(enabled: bool, start: Option<int>, end: Option<int>): (r: Option<FilterDates>)
    ensures !enabled ==> r == Some(FilterDates(None, None))
    ensures enabled ==> (r.None? <==> start.Some? && end.Some? && start.value >= end.value)
    ensures enabled && r.Some? ==> r.value == FilterDates(start, end)
  {
    if !enabled then Some(FilterDates(None, None))
    else if start.Some? && end.Some? && start.value >= end.value then None
    else Some(FilterDates(start, end))
  }

  /** The server's window for an accepted filter is never empty: an
      instant at the start bound (or, failing that, at the end bound) passes
      it; with the filter off every instant passes. */
  lemma AcceptedFilterAdmitsSomeInstant(enabled: bool, start: Option<int>, end: Option<int>)
    requires PreScanFilterDates(enabled, start, end).Some?
    ensures var f := PreScanFilterDates(enabled, start, end).value;
            exists t :: Catalog.InWindow(t, f.startTime, f.endTime)
    ensures !enabled ==> forall t :: Catalog.InWindow(t, PreScanFilterDates(enabled, start, end).value.startTime,
                                                     PreScanFilterDates(enabled, start, end).value.endTime)
  {
    var f := PreScanFilterDates(enabled, start, end).value;
    var t := if Catalog.Limits(f.startTime) then f.startTime.value
             else if Catalog.Limits(f.endTime) then f.endTime.value else 0;
    assert Catalog.InWindow(t, f.startTime, f.endTime);
  }

  // ------------------------------------------------------------ scan form

  /** `selectedChannels`: A before B, each when its box is checked. */
  function SelectedChannels(a: bool, b: bool): (r: seq<string>)
    ensures "A" in r <==> a
    ensures "B" in r <==> b
    ensures |r| == (if a then 1 else 0) + (if b then 1 else 0)
  {
    (if a then ["A"] else []) + (if b then ["B"] else [])
  }

  /** `scanFolder` up to the request: a blank folder, no channel, or a
      rejected date filter stop it; otherwise it sends the trimmed folder, the
      bounds and the channels. */
  function ScanFolder(folderInput: string, channelA: bool, channelB: bool,
                      filterOn: bool, start: Option<int>, end: Option<int>): (r: Result<Catalog.ScanRequest>)
    ensures Trim(folderInput) == "" ==> r == Err("Please select a folder")
    ensures (Trim(folderInput) != "" && !channelA && !channelB) ==> r == Err("Select at least one channel (A/B)")
    ensures r.Ok? <==> Trim(folderInput) != "" && (channelA || channelB)
                       && PreScanFilterDates(filterOn, start, end).Some?
    ensures r.Ok? ==> r.value.folderPath == Some(Trim(folderInput))
    ensures r.Ok? ==> r.value.channels == Some(SelectedChannels(channelA, channelB))
    ensures r.Ok? && r.value.start.Some? && r.value.end.Some? ==> r.value.start.value < r.value.end.value
  {
    var folder := Trim(folderInput);
    var channels := SelectedChannels(channelA, channelB);
    if folder == "" then Err("Please select a folder")
    else if |channels| == 0 then Err("Select at least one channel (A/B)")
    else match PreScanFilterDates(filterOn, start, end)
      case None => Err("Start time must be before end time")
      case Some(f) => Ok(Catalog.ScanRequest(Some(folder), f.startTime, f.endTime, Some(channels)))
  }

  /** A request the form sends always gets past the server's folder check,
      and when the server can read the folder it answers with recordings of
      the checked channels only. */
  lemma FormRequestsAccepted(folderInput: string, channelA: bool, channelB: bool,
                             filterOn: bool, start: Option<int>, end: Option<int>,
                             root: Option<seq<Catalog.Entry>>, order: Filename.DateOrder)
    requires ScanFolder(folderInput, channelA, channelB, filterOn, start, end).Ok?
    ensures var req := ScanFolder(folderInput, channelA, channelB, filterOn, start, end).value;
            && Catalog.ScanEndpoint(req, root, order) != Err("Folder path is required")
            && (root.Some? ==> Catalog.ScanEndpoint(req, root, order).Ok?)
            && (root.Some? ==> forall x :: x in Catalog.ScanEndpoint(req, root, order).value.files ==>
                  (channelA && EndsWith(Upper(x.filename), "A.MP4")) || (channelB && EndsWith(Upper(x.filename), "B.MP4")))
  {
  }

  /** A start bound at the very epoch is sent but ignored by the server,
      which tests the bound for truthiness. */
  lemma EpochStartIgnored(folderInput: string, channelA: bool, channelB: bool, end: Option<int>)
    requires ScanFolder(folderInput, channelA, channelB, true, Some(0), end).Ok?
    ensures var req := ScanFolder(folderInput, channelA, channelB, true, Some(0), end).value;
            req.start == Some(0) && !Catalog.Limits(req.start)
  {
  }

  /** Example: a folder field holding only a no-break space counts as blank. */
  lemma NoBreakSpaceFolderRefused(channelA: bool, channelB: bool, filterOn: bool, start: Option<int>, end: Option<int>)
    ensures ScanFolder("\U{00A0}", channelA, channelB, filterOn, start, end) == Err("Please select a folder")
  {
    TrimEmpty("\U{00A0}");
  }
}

=== FILE: selection.dfy ===
/** The scanned-file list of the main page (app.js): the per-file checkboxes,
    the tri-state "select all" box, hiding the files outside the selected time
    range, and which files the combine button sends. A row stands for one
    file item: its checkbox and whether the item is displayed. */
module Selection {
  import opened Wrappers
  import opened Text
  import Combine

  datatype Row = Row(path: string, utc: int, checked: bool, visible: bool)

  function CountChecked(rows: seq<Row>): (n: nat)
    ensures n <= |rows|
  {
    if |rows| == 0 then 0 else (if rows[0].checked then 1 else 0) + CountChecked(rows[1..])
  }

  lemma {:induction false} CountCheckedExtremes(rows: seq<Row>)
    ensures CountChecked(rows) == 0 <==> forall i :: 0 <= i < |rows| ==> !rows[i].checked
    ensures CountChecked(rows) == |rows| <==> forall i :: 0 <= i < |rows| ==> rows[i].checked
    decreases |rows|
  {
    if |rows| > 0 {
      CountCheckedExtremes(rows[1..]);
      assert forall i :: 1 <= i < |rows| ==> rows[i] == rows[1..][i - 1];
    }
  }

  // ---------------------------------------------------------- select all

  datatype SelectAllBox = SelectAllBox(checked: bool, indeterminate: bool)

  /** `updateSelectAllState`: unchecked when nothing is checked, checked when
      everything is, indeterminate in between. An empty list counts as
      nothing checked. */
  function SelectAllState(rows: seq<Row>): (r: SelectAllBox)
    ensures r.checked <==> |rows| > 0 && forall i :: 0 <= i < |rows| ==> rows[i].checked
    ensures r.indeterminate <==> (exists i :: 0 <= i < |rows| && rows[i].checked)
                                 && (exists j :: 0 <= j < |rows| && !rows[j].checked)
    ensures !(r.checked && r.indeterminate)
  {
    CountCheckedExtremes(rows);
    var n := CountChecked(rows);
    if n == 0 then SelectAllBox(false, false)
    else if n == |rows| then SelectAllBox(true, false)
    else SelectAllBox(false, true)
  }

  /** `toggleSelectAll`: every checkbox, shown or hidden, takes the box's value. */
  function ToggleSelectAll(rows: seq<Row>, on: bool): (r: seq<Row>)
    ensures |r| == |rows|
    ensures forall i :: 0 <= i < |rows| ==> r[i] == rows[i].(checked := on)
  {
    if |rows| == 0 then [] else [rows[0].(checked := on)] + ToggleSelectAll(rows[1..], on)
  }

  /** After toggling, the box shows the value it was toggled to. */
  lemma ToggleThenState(rows: seq<Row>, on: bool)
    requires |rows| > 0
    ensures SelectAllState(ToggleSelectAll(rows, on)) == SelectAllBox(on, false)
  {
    var r := ToggleSelectAll(rows, on);
    if on {
      assert r[0].checked;
    } else {
      assert !r[0].checked;
    }
  }

  // -------------------------------------------------------- range filter

  predicate InRange(t: int, start: real, end: real) {
    start <= t as real <= end
  }

  /** `filterFilesByTimeRange`: a file inside the range is shown and keeps
      its checkbox; a file outside is hidden and unchecked. */
  function FilterByTimeRange(rows: seq<Row>, start: real, end: real): (r: seq<Row>)
    ensures |r| == |rows|
    ensures forall i :: 0 <= i < |rows| ==>
              && r[i].path == rows[i].path && r[i].utc == rows[i].utc
              && (r[i].visible <==> InRange(rows[i].utc, start, end))
              && (r[i].checked <==> rows[i].checked && InRange(rows[i].utc, start, end))
  {
    if |rows| == 0 then []
    else
      var x := rows[0];
      var inRange := InRange(x.utc, start, end);
      [x.(visible := inRange, checked := x.checked && inRange)] + FilterByTimeRange(rows[1..], start, end)
  }

  /** Applying the same range twice is the same as applying it once. */
  lemma FilterIdempotent(rows: seq<Row>, start: real, end: real)
    ensures FilterByTimeRange(FilterByTimeRange(rows, start, end), start, end) == FilterByTimeRange(rows, start, end)
  {
    var once := FilterByTimeRange(rows, start, end);
    var twice := FilterByTimeRange(once, start, end);
    assert forall i :: 0 <= i < |rows| ==> twice[i] == once[i];
  }

  /** The shown rows. */
  function CountVisible(rows: seq<Row>): (n: nat)
    ensures n <= |rows|
  {
    if |rows| == 0 then 0 else (if rows[0].visible then 1 else 0) + CountVisible(rows[1..])
  }

  /** The rows whose start lies in the range, counted as the filter walks
      the list. */
  function CountInRange(rows: seq<Row>, start: real, end: real): (n: nat)
    ensures n <= |rows|
  {
    if |rows| == 0 then 0 else (if InRange(rows[0].utc, start, end) then 1 else 0) + CountInRange(rows[1..], start, end)
  }

  /** The count the filter reports is the number of rows it leaves shown. */
  lemma {:induction false} VisibleAfterFilter(rows: seq<Row>, start: real, end: real)
    ensures CountVisible(FilterByTimeRange(rows, start, end)) == CountInRange(rows, start, end)
    decreases |rows|
  {
    if |rows| > 0 {
      var f := FilterByTimeRange(rows, start, end);
      assert f[1..] == FilterByTimeRange(rows[1..], start, end);
      VisibleAfterFilter(rows[1..], start, end);
    }
  }

  /** The count line `filterFilesByTimeRange` writes: all scanned files, and
      how many of them the range leaves shown. */
  function RangeCountText(rows: seq<Row>, start: real, end: real): (r: string)
    ensures r == "Found " + NatToString(|rows|) + " file(s) total, "
                 + NatToString(CountVisible(FilterByTimeRange(rows, start, end))) + " in selected range"
  {
    VisibleAfterFilter(rows, start, end);
    "Found " + NatToString(|rows|) + " file(s) total, " + NatToString(CountInRange(rows, start, end)) + " in selected range"
  }

  // ------------------------------------------------------------- combine

  /** The paths of the rows that are checked and shown, in list order. */
  function SelectedPaths(rows: seq<Row>): (r: seq<string>)
    ensures |r| <= |rows|
    ensures forall p :: p in r ==> exists i :: 0 <= i < |rows| && rows[i].checked && rows[i].visible && rows[i].path == p
    ensures forall i :: 0 <= i < |rows| && rows[i].checked && rows[i].visible ==> rows[i].path in r
  {
    if |rows| == 0 then []
    else
      var rest := SelectedPaths(rows[1..]);
      assert forall i :: 1 <= i < |rows| ==> rows[i] == rows[1..][i - 1];
      if rows[0].checked && rows[0].visible then [rows[0].path] + rest else rest
  }

  /** The selection is taken row by row: a list's selection is its parts'
      selections in order. */
  lemma {:induction false} SelectedPathsAppend(a: seq<Row>, b: seq<Row>)
    ensures SelectedPaths(a + b) == SelectedPaths(a) + SelectedPaths(b)
    decreases |a|
  {
    if |a| == 0 {
      assert a + b == b;
    } else {
      var ab := a + b;
      assert ab[0] == a[0] && ab[1..] == a[1..] + b;
      SelectedPathsAppend(a[1..], b);
      if a[0].checked && a[0].visible {
        assert SelectedPaths(ab) == [a[0].path] + SelectedPaths(a[1..] + b);
        assert SelectedPaths(a) == [a[0].path] + SelectedPaths(a[1..]);
      } else {
        assert SelectedPaths(ab) == SelectedPaths(a[1..] + b);
        assert SelectedPaths(a) == SelectedPaths(a[1..]);
      }
    }
  }

  /** One row contributes its path exactly when it is checked and shown. */
  lemma SelectedPathsOfRow(x: Row)
    ensures SelectedPaths([x]) == (if x.checked && x.visible then [x.path] else [])
  {
    assert [x][1..] == [];
  }

  /** `combineVideos` up to the request: a blank output path or an empty
      selection is reported; otherwise the request carries the trimmed output
      path and the selected files. */
  function CombineSelection(rows: seq<Row>, outputInput: string): (r: Result<Combine.CombineRequest>)
    ensures Trim(outputInput) == "" ==> r == Err("Please enter an output path")
    ensures (Trim(outputInput) != "" && forall i :: 0 <= i < |rows| ==> !(rows[i].checked && rows[i].visible))
              ==> r == Err("No files selected for combining")
    ensures r.Ok? ==> r.value.files == Some(SelectedPaths(rows)) && r.value.outputPath == Some(Trim(outputInput))
    ensures r.Ok? ==> |r.value.files.value| > 0 && r.value.outputPath.value != ""
  {
    var out := Trim(outputInput);
    var selected := SelectedPaths(rows);
    assert |selected| > 0 ==> selected[0] in selected;
    if out == "" then Err("Please enter an output path")
    else if |selected| == 0 then Err("No files selected for combining")
    else Ok(Combine.CombineRequest(Some(selected), Some(out)))
  }

  /** After a range is applied, everything the combine button sends lies in
      that range. */
  lemma SentFilesInRange(rows: seq<Row>, start: real, end: real, outputInput: string)
    requires CombineSelection(FilterByTimeRange(rows, start, end), outputInput).Ok?
    ensures forall p :: p in CombineSelection(FilterByTimeRange(rows, start, end), outputInput).value.files.value ==>
              exists i :: 0 <= i < |rows| && rows[i].path == p && rows[i].checked && InRange(rows[i].utc, start, end)
  {
    SelectedInRange(rows, start, end);
  }

  /** The checked and shown rows after a range is applied lie in the range. */
  lemma SelectedInRange(rows: seq<Row>, start: real, end: real)
    ensures forall p :: p in SelectedPaths(FilterByTimeRange(rows, start, end)) ==>
              exists i :: 0 <= i < |rows| && rows[i].path == p && rows[i].checked && InRange(rows[i].utc, start, end)
  {
    var f := FilterByTimeRange(rows, start, end);
    forall p | p in SelectedPaths(f)
      ensures exists i :: 0 <= i < |rows| && rows[i].path == p && rows[i].checked && InRange(rows[i].utc, start, end)
    {
      var i :| 0 <= i < |f| && f[i].checked && f[i].visible && f[i].path == p;
      assert rows[i].path == p;
    }
  }

  /** Example: an output field holding only a no-break space counts as blank. */
  lemma NoBreakSpaceOutputRefused(rows: seq<Row>)
    ensures CombineSelection(rows, "\U{00A0}") == Err("Please enter an output path")
  {
    TrimEmpty("\U{00A0}");
  }
}

=== FILE: sorting.dfy ===
/** The stable ascending sort by an integer key that both the server
    (`results.sort((a, b) => a.timestamp - b.timestamp)`) and the player
    (`videoFiles.sort(... utcTime ...)`) rely on. JavaScript's
    `Array.prototype.sort` is stable, so elements with equal keys keep their
    original relative order; the model is an insertion sort with the same
    observable result. */
module Sorting {

  predicate SortedBy<T>(s: seq<T>, key: T -> int) {
    forall i, j :: 0 <= i < j < |s| ==> key(s[i]) <= key(s[j])
  }

  /** The elements of s whose key is k, in their order in s. */
  function WithKey<T>(s: seq<T>, key: T -> int, k: int): (r: seq<T>)
    ensures |r| <= |s|
    ensures forall i :: 0 <= i < |r| ==> key(r[i]) == k
  {
    if |s| == 0 then []
    else (if key(s[0]) == k then [s[0]] else []) + WithKey(s[1..], key, k)
  }

  /** Places x before the first element whose key is not smaller than x's. */
  function Insert<T>(x: T, s: seq<T>, key: T -> int): (r: seq<T>)
    ensures SortedBy(s, key) ==> SortedBy(r, key)
    ensures |r| == |s| + 1
    ensures forall i :: 0 <= i < |r| ==> r[i] == x || r[i] in s
  {
    if |s| == 0 then [x]
    else if key(x) <= key(s[0]) then [x] + s
    else
      var t := Insert(x, s[1..], key);
      assert SortedBy(s, key) ==> SortedBy([s[0]] + t, key) by {
        if SortedBy(s, key) {
          assert forall i :: 0 <= i < |t| ==> key(s[0]) <= key(t[i]);
          PrependSorted(s[0], t, key);
        }
      }
      assert s == [s[0]] + s[1..];
      [s[0]] + t
  }

  /** Inserting adds exactly x to the elements. */
  lemma {:induction false} InsertPermutes<T>(x: T, s: seq<T>, key: T -> int)
    ensures multiset(Insert(x, s, key)) == multiset(s) + multiset{x}
    decreases |s|
  {
    if |s| > 0 && key(x) > key(s[0]) {
      InsertPermutes(x, s[1..], key);
      assert s == [s[0]] + s[1..];
    }
  }

  /** An element no larger than any of a sorted sequence can lead it. */
  lemma PrependSorted<T>(a: T, t: seq<T>, key: T -> int)
    requires SortedBy(t, key) && forall i :: 0 <= i < |t| ==> key(a) <= key(t[i])
    ensures SortedBy([a] + t, key)
  {
    var r := [a] + t;
    assert forall i :: 1 <= i < |r| ==> r[i] == t[i - 1];
  }

  /** The stable sort: a sorted permutation of s (see `SortStable` for stability). */
  function SortByKey<T>(s: seq<T>, key: T -> int): (r: seq<T>)
    ensures SortedBy(r, key)
    ensures multiset(r) == multiset(s)
    ensures |r| == |s|
  {
    if |s| == 0 then []
    else
      assert s == [s[0]] + s[1..];
      InsertPermutes(s[0], SortByKey(s[1..], key), key);
      Insert(s[0], SortByKey(s[1..], key), key)
  }

  lemma {:induction false} InsertWithKey<T>(x: T, s: seq<T>, key: T -> int, k: int)
    ensures WithKey(Insert(x, s, key), key, k)
         == (if key(x) == k then [x] else []) + WithKey(s, key, k)
    decreases |s|
  {
    if |s| == 0 {
    } else if key(x) <= key(s[0]) {
      assert ([x] + s)[1..] == s;
    } else {
      var t := Insert(x, s[1..], key);
      assert Insert(x, s, key) == [s[0]] + t;
      assert ([s[0]] + t)[1..] == t;
      InsertWithKey(x, s[1..], key, k);
      var w := WithKey(s[1..], key, k);
      if key(x) == k {
        assert WithKey(t, key, k) == [x] + w;
        assert WithKey([s[0]] + t, key, k) == [x] + w;
        assert WithKey(s, key, k) == w;
      } else if key(s[0]) == k {
        assert WithKey(t, key, k) == w;
        assert WithKey([s[0]] + t, key, k) == [s[0]] + w;
        assert WithKey(s, key, k) == [s[0]] + w;
      } else {
        assert WithKey(t, key, k) == w;
        assert WithKey([s[0]] + t, key, k) == w;
        assert WithKey(s, key, k) == w;
      }
    }
  }

  /** Stability: for every key, the elements carrying it appear in the sorted
      result in the same order as in the input. */
  lemma {:induction false} SortStable<T>(s: seq<T>, key: T -> int, k: int)
    ensures WithKey(SortByKey(s, key), key, k) == WithKey(s, key, k)
    decreases |s|
  {
    if |s| > 0 {
      SortStable(s[1..], key, k);
      InsertWithKey(s[0], SortByKey(s[1..], key), key, k);
    }
  }

  /** Sorting what is already sorted changes nothing. */
  lemma {:induction false} SortSortedIdentity<T>(s: seq<T>, key: T -> int)
    requires SortedBy(s, key)
    ensures SortByKey(s, key) == s
    decreases |s|
  {
    if |s| > 0 {
      SortSortedIdentity(s[1..], key);
      assert [s[0]] + s[1..] == s;
    }
  }
}

=== FILE: testvideos.dfy ===
/** The names of the generated test recordings (generate-test-videos.js).
    Recording n (from 1) is stamped n - 1 minutes after a base instant, and
    its name joins the UTC stamp, the local stamp and a six-digit sequence
    number in the dashcam's convention. Producing the video itself is left
    out. */
module TestVideos {
  import opened Wrappers
  import opened Text
  import Filename
  import Catalog

  type DateTime = Filename.DateTime

  const VideoCount := 10
  const MinuteMs := 60000
  const HourMs := 3600000
  const DayMs := 86400000

  /** `2025-01-01T10:00:00Z` in milliseconds. */
  const BaseUtc := 1735725600000

  /** `2025-01-01T05:00:00` read in the local zone, as a wall-clock count of
      milliseconds: the local fields of an instant are the UTC fields of its
      wall-clock count. */
  const BaseLocal := 1735707600000

  // ------------------------------------------------------- calendar fields

  /** The proleptic Gregorian date of a day count since 1970-01-01. */
  function CivilFromDays(days: int): DateTime {
    var z := days + 719468;
    var era := z / 146097;
    var doe := z - era * 146097;
    var yoe := (doe - doe / 1460 + doe / 36524 - doe / 146096) / 365;
    var doy := doe - (365 * yoe + yoe / 4 - yoe / 100);
    var mp := (5 * doy + 2) / 153;
    var d := doy - (153 * mp + 2) / 5 + 1;
    var m := if mp < 10 then mp + 3 else mp - 9;
    var y := yoe + era * 400;
    Filename.DateTime(if m <= 2 then y + 1 else y, m, d, 0, 0, 0)
  }

  /** The calendar fields `getUTCFullYear` .. `getUTCSeconds` read from a
      millisecond count (the day count rounds down, as JavaScript's does). */
  function Fields(ms: int): DateTime {
    var r := ms % DayMs;
    CivilFromDays(ms / DayMs).(hour := r / HourMs, minute := r % HourMs / MinuteMs, second := r % MinuteMs / 1000)
  }

  /** Splitting a count into whole days and the time of day. */
  lemma FieldsAt(ms: int, days: int, r: int)
    requires ms == days * DayMs + r && 0 <= r < DayMs
    ensures Fields(ms) == CivilFromDays(days).(hour := r / HourMs, minute := r % HourMs / MinuteMs, second := r % MinuteMs / 1000)
  {
    assert ms / DayMs == days && ms % DayMs == r;
  }

  /** The time-of-day fields of h hours and k minutes. */
  lemma TimeOfDay(h: nat, k: nat)
    requires h < 24 && k < 60
    ensures var r := h * HourMs + k * MinuteMs;
            r / HourMs == h && r % HourMs / MinuteMs == k && r % MinuteMs / 1000 == 0
  {
    var r := h * HourMs + k * MinuteMs;
    assert r / HourMs == h && r % HourMs == k * MinuteMs;
    assert (k * MinuteMs) / MinuteMs == k;
    assert r == (h * 60 + k) * MinuteMs;
    assert r % MinuteMs == 0;
  }

  /** Fields of the generator's base instants, k minutes on. */
  lemma BaseFields(k: nat)
    requires k < 60
    ensures Fields(BaseUtc + k * MinuteMs) == Filename.DateTime(2025, 1, 1, 10, k, 0)
    ensures Fields(BaseLocal + k * MinuteMs) == Filename.DateTime(2025, 1, 1, 5, k, 0)
  {
    NewYear2025();
    FieldsAt(BaseUtc + k * MinuteMs, 20089, 10 * HourMs + k * MinuteMs);
    FieldsAt(BaseLocal + k * MinuteMs, 20089, 5 * HourMs + k * MinuteMs);
    TimeOfDay(10, k);
    TimeOfDay(5, k);
  }

  /** Day 20089 after the epoch is 1 January 2025. */
  lemma NewYear2025()
    ensures CivilFromDays(20089) == Filename.DateTime(2025, 1, 1, 0, 0, 0)
  {
    assert 739557 / 146097 == 5 && 739557 - 5 * 146097 == 9072;
    assert 9072 / 1460 == 6 && 9072 / 36524 == 0 && 9072 / 146096 == 0 && 9066 / 365 == 24;
    assert 24 / 4 == 6 && 24 / 100 == 0 && 1532 / 153 == 10 && 1532 / 5 == 306;
  }

  /** The fields read back to the same instant: reading the base instant's
      fields as a UTC date-time gives the base instant again. */
  lemma BaseFieldsRoundTrip(k: nat)
    requires k < 60
    ensures Filename.ValidDateTime(Fields(BaseUtc + k * MinuteMs))
    ensures Filename.UtcMillis(Fields(BaseUtc + k * MinuteMs)) == BaseUtc + k * MinuteMs
  {
    BaseFields(k);
    StampInstant(k);
  }

  lemma StampInstant(k: nat)
    requires k < 60
    ensures Filename.ValidDateTime(Filename.DateTime(2025, 1, 1, 10, k, 0))
    ensures Filename.UtcMillis(Filename.DateTime(2025, 1, 1, 10, k, 0)) == BaseUtc + k * MinuteMs
  {
    Filename.NewYear2025Day();
  }

  // ---------------------------------------------------------------- stamps

  /** `String(year).slice(-2)`: the last two characters of the year's text,
      or all of it when it is shorter. */
  function YearSuffix(year: nat): (r: string)
    ensures AllDigits(r)
    ensures year >= 10 ==> |r| == 2 && DigitsValue(r) == year % 100
  {
    var s := NatToString(year);
    assert year >= 10 ==> |s| >= 2 && DigitsValue(s[|s| - 2..]) == year % 100 by {
      if year >= 10 {
        NatToStringLength(year, 1);
        LastTwoDigits(s);
      }
    }
    assert |s| >= 2 ==> AllDigits(s[|s| - 2..]) by {
      if |s| >= 2 { LastTwoDigits(s); }
    }
    if |s| >= 2 then s[|s| - 2..] else s
  }

  predicate NonNegative(d: DateTime) {
    d.year >= 0 && d.month >= 0 && d.day >= 0 && d.hour >= 0 && d.minute >= 0 && d.second >= 0
  }

  /** `formatDateForFilename` and `formatLocalDateForFilename`, which differ
      only in which fields they read: `MMDDYY_HHMMSS`. */
  function FormatDateForFilename(d: DateTime): string
    requires NonNegative(d)
  {
    ZeroPad(d.month, 2) + ZeroPad(d.day, 2) + YearSuffix(d.year) + "_"
      + ZeroPad(d.hour, 2) + ZeroPad(d.minute, 2) + ZeroPad(d.second, 2)
  }

  /** Calendar fields the stamp can carry: a real date and time of day and
      a year of at least two digits. */
  predicate Stampable(d: DateTime) {
    && 10 <= d.year && 1 <= d.month <= 12 && 1 <= d.day <= 31
    && 0 <= d.hour <= 23 && 0 <= d.minute <= 59 && 0 <= d.second <= 59
  }

  /** A recording name: both stamps, the padded sequence number, channel A. */
  function NameOf(utc: DateTime, local: DateTime, number: nat): string
    requires NonNegative(utc) && NonNegative(local)
  {
    FormatDateForFilename(utc) + "_" + FormatDateForFilename(local) + "_" + ZeroPad(number, 6) + "A.MP4"
  }

  /** The instant of recording `number`: one minute apart from 1 on. */
  function UtcTime(number: nat): int
    requires number >= 1
  {
    BaseUtc + (number - 1) * MinuteMs
  }

  function LocalTime(number: nat): int
    requires number >= 1
  {
    BaseLocal + (number - 1) * MinuteMs
  }

  /** The name `generateVideo` gives recording `number`. */
  function VideoFilename(number: nat): string
    requires 1 <= number <= 60
  {
    BaseFields(number - 1);
    NameOf(Fields(UtcTime(number)), Fields(LocalTime(number)), number)
  }

  /** Later recordings are stamped later, exactly a minute per number. */
  lemma StampsOneMinuteApart(a: nat, b: nat)
    requires 1 <= a < b
    ensures UtcTime(a) < UtcTime(b) && LocalTime(a) < LocalTime(b)
    ensures UtcTime(b) - UtcTime(a) == (b - a) * MinuteMs
  {
  }

  // ------------------------------------------------------------ round trip

  /** The year the parser reconstructs from the two-digit year: 20YY. */
  function InCentury(d: DateTime): DateTime {
    d.(year := 2000 + d.year % 100)
  }

  /** The six two-digit fields of a stamp, at their places. */
  lemma {:induction false} StampSlices(d: DateTime)
    requires Stampable(d)
    ensures var s := FormatDateForFilename(d);
            && |s| == 13 && s[6] == '_'
            && s[0..2] == ZeroPad(d.month, 2) && s[2..4] == ZeroPad(d.day, 2) && s[4..6] == YearSuffix(d.year)
            && s[7..9] == ZeroPad(d.hour, 2) && s[9..11] == ZeroPad(d.minute, 2) && s[11..13] == ZeroPad(d.second, 2)
            && AllDigits(s[0..6]) && AllDigits(s[7..13])
  {
    Pow10Two();
    StampPieces(ZeroPad(d.month, 2), ZeroPad(d.day, 2), YearSuffix(d.year),
                ZeroPad(d.hour, 2), ZeroPad(d.minute, 2), ZeroPad(d.second, 2));
  }

  /** Six two-digit pieces joined as `MMDDYY_HHMMSS` sit at their places. */
  lemma StampPieces(mo: string, da: string, ye: string, ho: string, mi: string, se: string)
    requires |mo| == 2 && |da| == 2 && |ye| == 2 && |ho| == 2 && |mi| == 2 && |se| == 2
    requires AllDigits(mo) && AllDigits(da) && AllDigits(ye) && AllDigits(ho) && AllDigits(mi) && AllDigits(se)
    ensures var s := mo + da + ye + "_" + ho + mi + se;
            && |s| == 13 && s[6] == '_'
            && s[0..2] == mo && s[2..4] == da && s[4..6] == ye && s[7..9] == ho && s[9..11] == mi && s[11..13] == se
            && AllDigits(s[0..6]) && AllDigits(s[7..13])
  {
    var s := mo + da + ye + "_" + ho + mi + se;
    assert s[0..6] == mo + da + ye;
    assert s[7..13] == ho + mi + se;
    SixDigits(mo, da, ye);
    SixDigits(ho, mi, se);
    SliceOfSlice(s, 0, 6, 0, 2);
    SliceOfSlice(s, 0, 6, 2, 4);
    SliceOfSlice(s, 0, 6, 4, 6);
    SliceOfSlice(s, 7, 6, 0, 2);
    SliceOfSlice(s, 7, 6, 2, 4);
    SliceOfSlice(s, 7, 6, 4, 6);
  }

  lemma Pow10Two()
    ensures Pow10(2) == 100
  {
  }

  lemma SixDigits(a: string, b: string, c: string)
    requires |a| == 2 && |b| == 2 && |c| == 2 && AllDigits(a) && AllDigits(b) && AllDigits(c)
    ensures AllDigits(a + b + c)
    ensures (a + b + c)[0..2] == a && (a + b + c)[2..4] == b && (a + b + c)[4..6] == c
  {
    var t := a + b + c;
    forall j | 0 <= j < 6 ensures IsDigit(t[j]) {
      if j < 2 { assert t[j] == a[j]; }
      else if j < 4 { assert t[j] == b[j - 2]; }
      else { assert t[j] == c[j - 4]; }
    }
  }

  /** Positions i and i + 1 of s hold the two-digit numeral of v. */
  predicate PairAt(s: string, i: nat, v: int) {
    i + 2 <= |s| && AllDigits(s[i..i + 2]) && DigitsValue(s[i..i + 2]) == v
  }

  /** What a reader finds in a 13-character `MMDDYY_HHMMSS` stamp of d. */
  predicate StampOf(s: string, d: DateTime) {
    && |s| == 13 && AllDigits(s[0..6]) && AllDigits(s[7..13])
    && PairAt(s, 0, d.month) && PairAt(s, 2, d.day) && PairAt(s, 4, d.year % 100)
    && PairAt(s, 7, d.hour) && PairAt(s, 9, d.minute) && PairAt(s, 11, d.second)
  }

  /** A formatted stamp carries the fields it was made from. */
  lemma FormatIsStamp(d: DateTime)
    requires Stampable(d)
    ensures StampOf(FormatDateForFilename(d), d) && FormatDateForFilename(d)[6] == '_'
  {
    StampSlices(d);
  }

  /** Reading a stamp found at offset `at`: the date in the given order,
      then the time. */
  lemma ReadStampAt(t: string, at: nat, d: DateTime)
    requires at + 13 <= |t| && StampOf(t[at..at + 13], d)
    ensures AllDigits(t[at..at + 6]) && AllDigits(t[at + 7..at + 13])
    ensures Filename.ReadTime(t, at + 7, Filename.ReadDate(t, at, Filename.MonthDayYear)) == InCentury(d)
    ensures Filename.ReadTime(t, at + 7, Filename.ReadDate(t, at, Filename.YearMonthDay))
            == Filename.DateTime(2000 + d.month, d.day, d.year % 100, d.hour, d.minute, d.second)
  {
    SliceOfSlice(t, at, 13, 0, 6);
    SliceOfSlice(t, at, 13, 7, 13);
    SliceOfSlice(t, at, 13, 0, 2);
    SliceOfSlice(t, at, 13, 2, 4);
    SliceOfSlice(t, at, 13, 4, 6);
    SliceOfSlice(t, at, 13, 7, 9);
    SliceOfSlice(t, at, 13, 9, 11);
    SliceOfSlice(t, at, 13, 11, 13);
  }

  lemma SliceOfSlice(t: string, at: nat, len: nat, i: nat, j: nat)
    requires at + len <= |t| && i <= j <= len
    ensures t[at..at + len][i..j] == t[at + i..at + j]
  {
    var a, b := t[at..at + len][i..j], t[at + i..at + j];
    assert forall x :: 0 <= x < |a| ==> a[x] == b[x];
  }

  /** The parser reads a generated name back: the UTC and local fields (the
      year within its century) and the sequence with its channel letter; the
      result is a valid pair of date-times. */
  lemma {:induction false} NameRoundTrip(utc: DateTime, local: DateTime, number: nat)
    requires Stampable(utc) && Stampable(local) && number < 1000000
    ensures var p := Filename.ParseFilename(NameOf(utc, local, number));
            && p == Some(Filename.ParsedName(InCentury(utc), InCentury(local), ZeroPad(number, 6) + "A"))
            && Filename.IsValid(p.value)
  {
    var t := NameOf(utc, local, number);
    NameShape(utc, local, number);
    ReadBack(t, utc, local, ZeroPad(number, 6) + "A");
    CenturyValid(utc);
    CenturyValid(local);
  }

  /** A name of the right shape with two stamps and a sequence in their
      places reads back as those stamps, in either order of the local date. */
  lemma ReadBack(t: string, utc: DateTime, local: DateTime, q: string)
    requires Filename.Shape(t) && StampOf(t[0..13], utc) && StampOf(t[14..27], local) && t[28..35] == q
    ensures Filename.ReadName(t, Filename.MonthDayYear) == Some(Filename.ParsedName(InCentury(utc), InCentury(local), q))
    ensures Filename.ReadName(t, Filename.YearMonthDay)
            == Some(Filename.ParsedName(InCentury(utc), Filename.DateTime(2000 + local.month, local.day, local.year % 100,
                                                                          local.hour, local.minute, local.second), q))
  {
    ReadStampAt(t, 0, utc);
    ReadStampAt(t, 14, local);
    ReadWholeName(t, Filename.MonthDayYear);
    ReadWholeName(t, Filename.YearMonthDay);
  }

  lemma CenturyValid(d: DateTime)
    requires Stampable(d)
    ensures Filename.ValidDateTime(InCentury(d))
  {
  }

  /** When the whole name is the matched text, the parser reads its fields
      from the name itself. */
  lemma ReadWholeName(t: string, order: Filename.DateOrder)
    requires Filename.Shape(t)
    ensures Filename.ReadName(t, order)
            == Some(Filename.ParsedName(Filename.ReadTime(t, 7, Filename.ReadDate(t, 0, Filename.MonthDayYear)),
                                        Filename.ReadTime(t, 21, Filename.ReadDate(t, 14, order)), t[28..35]))
  {
    assert Filename.Tail(t) == t;
  }

  /** The parts of a generated name sit where the recognising pattern
      expects them, so the whole name is what the pattern matches. */
  lemma NameShape(utc: DateTime, local: DateTime, number: nat)
    requires Stampable(utc) && Stampable(local) && number < 1000000
    ensures var t := NameOf(utc, local, number);
            && |t| == Filename.PatternLength && Filename.Shape(t)
            && StampOf(t[0..13], utc) && StampOf(t[14..27], local) && t[28..35] == ZeroPad(number, 6) + "A"
  {
    var a, b, q := FormatDateForFilename(utc), FormatDateForFilename(local), ZeroPad(number, 6);
    FormatIsStamp(utc);
    FormatIsStamp(local);
    assert Pow10(6) == 1000000;
    var t := NameOf(utc, local, number);
    assert t == a + "_" + b + "_" + q + "A.MP4";
    Layout(a, b, q);
    ShapeOfParts(t, a, b, q);
  }

  /** Where the parts of `a_b_qA.MP4` sit. */
  lemma Layout(a: string, b: string, q: string)
    requires |a| == 13 && |b| == 13 && |q| == 6
    ensures var t := a + "_" + b + "_" + q + "A.MP4";
            && |t| == 39 && t[0..13] == a && t[13] == '_' && t[14..27] == b && t[27] == '_'
            && t[28..34] == q && t[28..35] == q + "A"
            && t[34] == 'A' && t[35] == '.' && t[36] == 'M' && t[37] == 'P' && t[38] == '4'
  {
    var t := a + "_" + b + "_" + q + "A.MP4";
    assert t[0..13] == a;
    assert t[14..27] == b;
    assert t[28..34] == q;
    assert t[28..35] == q + "A";
  }

  /** Two stamps and a six-digit number in their places make the shape. */
  lemma ShapeOfParts(t: string, a: string, b: string, q: string)
    requires |t| == 39 && t[0..13] == a && t[13] == '_' && t[14..27] == b && t[27] == '_'
    requires t[28..34] == q && t[34] == 'A' && t[35] == '.' && t[36] == 'M' && t[37] == 'P' && t[38] == '4'
    requires |a| == 13 && a[6] == '_' && AllDigits(a[0..6]) && AllDigits(a[7..13])
    requires |b| == 13 && b[6] == '_' && AllDigits(b[0..6]) && AllDigits(b[7..13])
    requires AllDigits(q)
    ensures Filename.Shape(t)
  {
    SliceOfSlice(t, 0, 13, 0, 6);
    SliceOfSlice(t, 0, 13, 7, 13);
    SliceOfSlice(t, 14, 13, 0, 6);
    SliceOfSlice(t, 14, 13, 7, 13);
    assert t[6] == a[6] && t[20] == b[6];
  }

  /** The calendar fields of recording `number`'s two stamps. */
  lemma VideoFields(number: nat)
    requires 1 <= number <= 60
    ensures Fields(UtcTime(number)) == Filename.DateTime(2025, 1, 1, 10, number - 1, 0)
    ensures Fields(LocalTime(number)) == Filename.DateTime(2025, 1, 1, 5, number - 1, 0)
  {
    BaseFields(number - 1);
  }

  lemma VideoFilenameUnfolds(number: nat)
    requires 1 <= number <= 60
    ensures VideoFilename(number) == NameOf(Fields(UtcTime(number)), Fields(LocalTime(number)), number)
  {
  }

  /** The name of recording `number` from its calendar fields. */
  lemma VideoFilenameFields(number: nat)
    requires 1 <= number <= 60
    ensures VideoFilename(number) == NameOf(Filename.DateTime(2025, 1, 1, 10, number - 1, 0),
                                            Filename.DateTime(2025, 1, 1, 5, number - 1, 0), number)
  {
    VideoFields(number);
    VideoFilenameUnfolds(number);
  }

  /** The stamps of recording k + 1 parse back to its instant. */
  lemma StampedNameParses(utc: DateTime, local: DateTime, k: nat)
    requires k < 60
    requires utc == Filename.DateTime(2025, 1, 1, 10, k, 0) && local == Filename.DateTime(2025, 1, 1, 5, k, 0)
    ensures var p := Filename.ParseFilename(NameOf(utc, local, k + 1));
            && p.Some? && Filename.IsValid(p.value)
            && Filename.Timestamp(p.value) == BaseUtc + k * MinuteMs
            && p.value.sequence == ZeroPad(k + 1, 6) + "A"
  {
    StampInstant(k);
    InCenturyFixed(utc);
    InCenturyFixed(local);
    NameRoundTrip(utc, local, k + 1);
  }

  lemma InCenturyFixed(d: DateTime)
    requires 2000 <= d.year < 2100
    ensures InCentury(d) == d
  {
  }

  /** Every generated recording is accepted by the scanner and keeps its
      instant: its parsed UTC time is the instant it was stamped with. */
  lemma GeneratedNamesParse(number: nat)
    requires 1 <= number <= VideoCount
    ensures var p := Filename.ParseFilename(VideoFilename(number));
            && p.Some? && Filename.IsValid(p.value)
            && Filename.Timestamp(p.value) == UtcTime(number)
            && p.value.sequence == ZeroPad(number, 6) + "A"
  {
    VideoFilenameFields(number);
    StampedNameParses(Filename.DateTime(2025, 1, 1, 10, number - 1, 0), Filename.DateTime(2025, 1, 1, 5, number - 1, 0), number - 1);
  }

  // --------------------------------------------------------- local dates

  /** What index.js makes of a generated name: it reads the local date
      field as year, month, day, so the day lands in the month, the year's
      last two digits in the day, and the month in the year. */
  lemma {:induction false} AsWrittenMisreadsLocalDate(utc: DateTime, local: DateTime, number: nat)
    requires Stampable(utc) && Stampable(local) && number < 1000000
    ensures var p := Filename.ParseFilenameAsWritten(NameOf(utc, local, number));
            && p.Some? && p.value.utc == InCentury(utc)
            && p.value.local == Filename.DateTime(2000 + local.month, local.day, local.year % 100,
                                                  local.hour, local.minute, local.second)
            && (local.day > 12 ==> !Filename.IsValid(p.value))
            && (local.year % 100 == 0 ==> !Filename.IsValid(p.value))
  {
    var t := NameOf(utc, local, number);
    NameShape(utc, local, number);
    ReadBack(t, utc, local, ZeroPad(number, 6) + "A");
  }

  /** A concrete case: a recording made on 15 January 2025 is dropped by
      the scan as written, because its local date reads as month 15, while
      the corrected parser accepts it. */
  lemma MidMonthRecordingDropped(utc: DateTime, local: DateTime)
    requires utc == Filename.DateTime(2025, 1, 15, 10, 0, 0) && local == Filename.DateTime(2025, 1, 15, 5, 0, 0)
    ensures var name := NameOf(utc, local, 1);
            && name == MidMonthText
            && Filename.ParseFilenameAsWritten(name).Some?
            && Filename.ParseFilenameAsWritten(name).value.local.month == 15
            && !Filename.IsValid(Filename.ParseFilenameAsWritten(name).value)
            && Filename.IsValid(Filename.ParseFilename(name).value)
  {
    AsWrittenMisreadsLocalDate(utc, local, 1);
    NameRoundTrip(utc, local, 1);
    MidMonthName(utc, local);
  }

  /** `011525_100000_011525_050000_000001A.MP4`, written field by field. */
  const MidMonthText: string :=
    ("01" + "15" + "25" + "_" + "10" + "00" + "00") + "_" + ("01" + "15" + "25" + "_" + "05" + "00" + "00")
    + "_" + "000001" + "A.MP4"

  /** The name of that recording, written out. */
  lemma MidMonthName(utc: DateTime, local: DateTime)
    requires utc == Filename.DateTime(2025, 1, 15, 10, 0, 0) && local == Filename.DateTime(2025, 1, 15, 5, 0, 0)
    ensures NameOf(utc, local, 1) == MidMonthText
  {
    MidMonthStamps(utc, local);
    FirstSequence();
    NameText(utc, local, 1, "01" + "15" + "25" + "_" + "10" + "00" + "00", "01" + "15" + "25" + "_" + "05" + "00" + "00", "000001");
  }

  lemma FirstSequence()
    ensures ZeroPad(1, 6) == "000001"
  {
    assert NatToString(1) == "1";
    assert Repeat('0', 5) == "00000";
  }

  lemma NameText(utc: DateTime, local: DateTime, number: nat, a: string, b: string, q: string)
    requires NonNegative(utc) && NonNegative(local)
    requires FormatDateForFilename(utc) == a && FormatDateForFilename(local) == b && ZeroPad(number, 6) == q
    ensures NameOf(utc, local, number) == a + "_" + b + "_" + q + "A.MP4"
  {
  }

  lemma MidMonthStamps(utc: DateTime, local: DateTime)
    requires utc == Filename.DateTime(2025, 1, 15, 10, 0, 0) && local == Filename.DateTime(2025, 1, 15, 5, 0, 0)
    ensures FormatDateForFilename(utc) == "01" + "15" + "25" + "_" + "10" + "00" + "00"
    ensures FormatDateForFilename(local) == "01" + "15" + "25" + "_" + "05" + "00" + "00"
  {
    Suffix2025();
    TwoDigitPads();
    StampText(utc, "01", "15", "25", "10", "00", "00");
    StampText(local, "01", "15", "25", "05", "00", "00");
  }

  lemma StampText(d: DateTime, mo: string, da: string, ye: string, ho: string, mi: string, se: string)
    requires NonNegative(d)
    requires ZeroPad(d.month, 2) == mo && ZeroPad(d.day, 2) == da && YearSuffix(d.year) == ye
    requires ZeroPad(d.hour, 2) == ho && ZeroPad(d.minute, 2) == mi && ZeroPad(d.second, 2) == se
    ensures FormatDateForFilename(d) == mo + da + ye + "_" + ho + mi + se
  {
  }

  lemma Suffix2025()
    ensures YearSuffix(2025) == "25"
  {
    assert NatToString(2) == "2";
    assert NatToString(20) == "20";
    assert NatToString(202) == "202";
    assert NatToString(2025) == "2025";
  }

  lemma TwoDigitPads()
    ensures ZeroPad(0, 2) == "00" && ZeroPad(1, 2) == "01" && ZeroPad(5, 2) == "05"
    ensures ZeroPad(10, 2) == "10" && ZeroPad(15, 2) == "15"
  {
    assert NatToString(0) == "0" && NatToString(1) == "1" && NatToString(5) == "5";
    assert NatToString(10) == "10" && NatToString(15) == "15";
  }

  // ---------------------------------------------------------------- scan

  /** A generated name is neither hidden nor off-channel: it starts with a
      digit and ends in `A.MP4`. */
  lemma GeneratedNamePassesNameFilters(utc: DateTime, local: DateTime, number: nat)
    requires Stampable(utc) && Stampable(local) && number < 1000000
    ensures var t := NameOf(utc, local, number);
            !Catalog.Hidden(t) && Catalog.ChannelSuffix(t)
  {
    var a, b, q := FormatDateForFilename(utc), FormatDateForFilename(local), ZeroPad(number, 6);
    NameShape(utc, local, number);
    FormatIsStamp(utc);
    FormatIsStamp(local);
    assert Pow10(6) == 1000000;
    Layout(a, b, q);
    var t := NameOf(utc, local, number);
    assert t == a + "_" + b + "_" + q + "A.MP4";
    assert IsDigit(t[0..6][0]);
    NameFilters(t);
  }

  /** A 39-character name starting with a digit and ending in `A.MP4`. */
  lemma NameFilters(t: string)
    requires |t| == 39 && IsDigit(t[0])
    requires t[34] == 'A' && t[35] == '.' && t[36] == 'M' && t[37] == 'P' && t[38] == '4'
    ensures !Catalog.Hidden(t) && Catalog.ChannelSuffix(t)
  {
    assert t[..1] != ".";
    var u := Upper(t);
    assert u[34..39] == "A.MP4";
  }

  /** With the local date read month first, the scan lists a generated
      recording exactly when its UTC instant lies in the window, and lists it
      at that instant. */
  lemma GeneratedNameScanned(dir: string, utc: DateTime, local: DateTime, number: nat, start: Catalog.Bound, end: Catalog.Bound)
    requires Stampable(utc) && Stampable(local) && number < 1000000
    ensures Filename.ValidDateTime(InCentury(utc))
    ensures var r := Catalog.ScanFile(dir, NameOf(utc, local, number), start, end, Filename.MonthDayYear);
            && (r.Some? <==> Catalog.InWindow(Filename.UtcMillis(InCentury(utc)), start, end))
            && (r.Some? ==> r.value.timestamp == Filename.UtcMillis(InCentury(utc)))
  {
    CenturyValid(utc);
    NameRoundTrip(utc, local, number);
    GeneratedNamePassesNameFilters(utc, local, number);
    var t := NameOf(utc, local, number);
    Catalog.ScanFileOf(dir, t, start, end, Filename.MonthDayYear, Filename.ParseFilename(t).value);
  }

  /** As index.js is written, the scan drops every generated recording whose
      local day is after the 12th, whatever the window. */
  lemma LateDayDroppedAsWritten(dir: string, utc: DateTime, local: DateTime, number: nat, start: Catalog.Bound, end: Catalog.Bound)
    requires Stampable(utc) && Stampable(local) && number < 1000000 && local.day > 12
    ensures Catalog.ScanFile(dir, NameOf(utc, local, number), start, end, Filename.YearMonthDay).None?
  {
    AsWrittenMisreadsLocalDate(utc, local, number);
  }

  /** Example: the recording of 15 January 2025 is missing from an
      unbounded scan as written and present with the corrected reading. */
  lemma MidMonthScan(dir: string)
    ensures Catalog.ScanFile(dir, MidMonthText, None, None, Filename.YearMonthDay).None?
    ensures Catalog.ScanFile(dir, MidMonthText, None, None, Filename.MonthDayYear).Some?
  {
    var utc, local := Filename.DateTime(2025, 1, 15, 10, 0, 0), Filename.DateTime(2025, 1, 15, 5, 0, 0);
    MidMonthName(utc, local);
    LateDayDroppedAsWritten(dir, utc, local, 1, None, None);
    GeneratedNameScanned(dir, utc, local, 1, None, None);
  }
}

=== FILE: text.dfy ===
/** Character and string helpers: the subset of JavaScript's String API the
    model needs (ASCII case mapping, prefix/suffix tests, decimal rendering,
    zero padding, splitting and joining on separator characters). */
module Text {

  // ---------------------------------------------------------------- digits

  predicate IsDigit(c: char) { '0' <= c <= '9' }

  predicate AllDigits(s: string) {
    forall i :: 0 <= i < |s| ==> IsDigit(s[i])
  }

  function DigitValue(c: char): nat
    requires IsDigit(c)
  {
    c as int - '0' as int
  }

  function DigitChar(d: nat): (c: char)
    requires d < 10
    ensures IsDigit(c) && DigitValue(c) == d
  {
    ('0' as int + d) as char
  }

  /** The number a string of decimal digits denotes (leading zeros allowed). */
  function DigitsValue(s: string): nat
    requires AllDigits(s)
    decreases |s|
  {
    if |s| == 0 then 0 else 10 * DigitsValue(s[..|s| - 1]) + DigitValue(s[|s| - 1])
  }

  function Pow10(k: nat): (r: nat)
    ensures r >= 1
  {
    if k == 0 then 1 else 10 * Pow10(k - 1)
  }

  /** A string of k digits denotes a number below 10^k. */
  lemma {:induction false} DigitsValueBound(s: string)
    requires AllDigits(s)
    ensures DigitsValue(s) < Pow10(|s|)
    decreases |s|
  {
    if |s| > 0 { DigitsValueBound(s[..|s| - 1]); }
  }

  /** `String(n)` for a non-negative integer: decimal, no leading zeros. */
  function NatToString(n: nat): (r: string)
    ensures |r| >= 1 && AllDigits(r)
    ensures DigitsValue(r) == n
    ensures |r| > 1 ==> r[0] != '0'
    decreases n
  {
    if n < 10 then [DigitChar(n)]
    else
      var front := NatToString(n / 10);
      var r := front + [DigitChar(n % 10)];
      assert r[..|r| - 1] == front;
      r
  }

  /** `String(i)` for any integer: a minus sign before the magnitude. */
  function IntToString(i: int): (r: string)
    ensures i >= 0 ==> r == NatToString(i)
    ensures i < 0 ==> |r| >= 2 && r[0] == '-' && r[1..] == NatToString(-i)
  {
    if i >= 0 then NatToString(i) else "-" + NatToString(-i)
  }

  /** The decimal rendering of n has at most k digits exactly when n < 10^k. */
  lemma {:induction false} NatToStringLength(n: nat, k: nat)
    requires k >= 1
    ensures |NatToString(n)| <= k <==> n < Pow10(k)
    decreases n
  {
    PowAtLeastTen(k);
    if n >= 10 && k > 1 {
      NatToStringLength(n / 10, k - 1);
    }
  }

  lemma {:induction false} PowAtLeastTen(k: nat)
    requires k >= 1
    ensures Pow10(k) >= 10
  {
    if k > 1 { PowAtLeastTen(k - 1); }
  }

  function Repeat(c: char, k: nat): (r: string)
    ensures |r| == k
    ensures forall i :: 0 <= i < k ==> r[i] == c
  {
    if k == 0 then "" else [c] + Repeat(c, k - 1)
  }

  /** `s.padStart(w, c)`: pads on the left up to width w; never truncates. */
  function PadStart(s: string, w: nat, c: char): (r: string)
    ensures |r| == if |s| >= w then |s| else w
    ensures r[|r| - |s|..] == s
    ensures forall i :: 0 <= i < |r| - |s| ==> r[i] == c
  {
    if |s| >= w then s else Repeat(c, w - |s|) + s
  }

  /** Leading zeros do not change the value of a digit string. */
  lemma {:induction false} ZerosPrefixValue(k: nat, s: string)
    requires AllDigits(s)
    ensures AllDigits(Repeat('0', k) + s)
    ensures DigitsValue(Repeat('0', k) + s) == DigitsValue(s)
    decreases |s|
  {
    var z := Repeat('0', k);
    if |s| == 0 {
      assert z + s == z;
      ZerosValue(k);
    } else {
      var t := z + s;
      assert t[..|t| - 1] == z + s[..|s| - 1];
      ZerosPrefixValue(k, s[..|s| - 1]);
    }
  }

  lemma {:induction false} ZerosValue(k: nat)
    ensures AllDigits(Repeat('0', k)) && DigitsValue(Repeat('0', k)) == 0
  {
    if k > 0 {
      var z := Repeat('0', k);
      assert z[..k - 1] == Repeat('0', k - 1);
      ZerosValue(k - 1);
    }
  }

  /** `String(n).padStart(w, '0')`: a digit string of value n and width at least w. */
  function ZeroPad(n: nat, w: nat): (r: string)
    ensures AllDigits(r) && DigitsValue(r) == n
    ensures w >= 1 && n < Pow10(w) ==> |r| == w
    ensures |r| >= w
  {
    var s := NatToString(n);
    assert w >= 1 && n < Pow10(w) ==> |s| <= w by {
      if w >= 1 { NatToStringLength(n, w); }
    }
    if |s| >= w then s
    else
      ZerosPrefixValue(w - |s|, s);
      Repeat('0', w - |s|) + s
  }

  /** The last two digits of a digit string carry its value modulo 100. */
  lemma LastTwoDigits(s: string)
    requires AllDigits(s) && |s| >= 2
    ensures AllDigits(s[|s| - 2..])
    ensures DigitsValue(s[|s| - 2..]) == DigitsValue(s) % 100
  {
    var n := |s|;
    SplitHundreds(s);
    HundredsRemainder(DigitsValue(s[..n - 2]), DigitsValue(s[n - 2..]));
  }

  /** A numeral is its front times a hundred plus the two-digit numeral at its end. */
  lemma SplitHundreds(s: string)
    requires AllDigits(s) && |s| >= 2
    ensures AllDigits(s[..|s| - 2]) && AllDigits(s[|s| - 2..])
    ensures DigitsValue(s[|s| - 2..]) < 100
    ensures DigitsValue(s) == 100 * DigitsValue(s[..|s| - 2]) + DigitsValue(s[|s| - 2..])
  {
    var n := |s|;
    var t := s[n - 2..];
    assert AllDigits(t) && |t| == 2 && t[0] == s[n - 2] && t[1] == s[n - 1];
    TwoLastDigits(s);
    PairValue(t);
  }

  /** A numeral is its front times a hundred plus its last two digits. */
  lemma TwoLastDigits(s: string)
    requires AllDigits(s) && |s| >= 2
    ensures AllDigits(s[..|s| - 2])
    ensures DigitsValue(s) == 100 * DigitsValue(s[..|s| - 2]) + 10 * DigitValue(s[|s| - 2]) + DigitValue(s[|s| - 1])
  {
    var n := |s|;
    var front := s[..n - 1];
    assert AllDigits(front);
    assert front[..n - 2] == s[..n - 2];
    assert DigitsValue(front) == 10 * DigitsValue(s[..n - 2]) + DigitValue(front[n - 2]);
  }

  /** The value of a two-digit numeral. */
  lemma PairValue(t: string)
    requires AllDigits(t) && |t| == 2
    ensures DigitsValue(t) == 10 * DigitValue(t[0]) + DigitValue(t[1])
    ensures DigitsValue(t) < 100
  {
    var u := t[..1];
    assert AllDigits(u) && u[0] == t[0] && u[..0] == [];
    assert DigitsValue(u) == DigitValue(t[0]);
    assert DigitsValue(t) == 10 * DigitsValue(u) + DigitValue(t[1]);
  }

  lemma HundredsRemainder(hi: nat, lo: nat)
    requires lo < 100
    ensures (100 * hi + lo) % 100 == lo
  {
  }

  // ------------------------------------------------------- case and affixes

  /** `toUpperCase` restricted to ASCII: a-z become A-Z, every other character is kept. */
  function UpperChar(c: char): char {
    if 'a' <= c <= 'z' then (c as int - 32) as char else c
  }

  function Upper(s: string): (r: string)
    ensures |r| == |s|
    ensures forall i :: 0 <= i < |s| ==> r[i] == UpperChar(s[i])
  {
    if |s| == 0 then "" else [UpperChar(s[0])] + Upper(s[1..])
  }

  lemma UpperIdempotent(s: string)
    ensures Upper(Upper(s)) == Upper(s)
  {
  }

  predicate StartsWith(s: string, p: string) {
    |p| <= |s| && s[..|p|] == p
  }

  predicate EndsWith(s: string, p: string) {
    |p| <= |s| && s[|s| - |p|..] == p
  }

  /** `s.includes(p)`. */
  predicate Contains(s: string, p: string) {
    exists i :: 0 <= i <= |s| - |p| && OccursAt(s, p, i)
  }

  predicate OccursAt(s: string, p: string, i: int) {
    0 <= i <= |s| - |p| && s[i..i + |p|] == p
  }

  /** Text around an occurrence does not hide it. */
  lemma ContainsWithin(a: string, s: string, c: string, w: string)
    requires Contains(s, w)
    ensures Contains(a + s + c, w)
  {
    var i :| 0 <= i <= |s| - |w| && OccursAt(s, w, i);
    var e := a + s + c;
    assert e[|a| + i..|a| + i + |w|] == s[i..i + |w|];
    assert OccursAt(e, w, |a| + i);
  }

  /** The characters `String.prototype.trim` removes: ECMAScript's
      WhiteSpace (tab, vertical tab, form feed, the byte order mark and every
      space separator) and LineTerminator (line feed, carriage return, and
      the line and paragraph separators). */
  predicate IsSpace(c: char) {
    || c == '\t' || c == '\U{000B}' || c == '\U{000C}' || c == ' '
    || c == '\U{00A0}' || c == '\U{FEFF}' || c == '\U{1680}'
    || ('\U{2000}' <= c <= '\U{200A}')
    || c == '\U{202F}' || c == '\U{205F}' || c == '\U{3000}'
    || c == '\n' || c == '\r' || c == '\U{2028}' || c == '\U{2029}'
  }

  function TrimStart(s: string): (r: string)
    ensures |r| <= |s| && s[|s| - |r|..] == r
    ensures |r| > 0 ==> !IsSpace(r[0])
    ensures forall i :: 0 <= i < |s| - |r| ==> IsSpace(s[i])
  {
    if |s| > 0 && IsSpace(s[0]) then TrimStart(s[1..]) else s
  }

  function TrimEnd(s: string): (r: string)
    ensures |r| <= |s| && s[..|r|] == r
    ensures |r| > 0 ==> !IsSpace(r[|r| - 1])
    ensures forall i :: |r| <= i < |s| ==> IsSpace(s[i])
  {
    if |s| > 0 && IsSpace(s[|s| - 1]) then TrimEnd(s[..|s| - 1]) else s
  }

  /** `s.trim()`. */
  function Trim(s: string): string {
    TrimEnd(TrimStart(s))
  }

  /** Trimming leaves nothing exactly when every character is whitespace. */
  lemma TrimEmpty(s: string)
    ensures Trim(s) == "" <==> forall i :: 0 <= i < |s| ==> IsSpace(s[i])
  {
    var a := TrimStart(s);
    if Trim(s) == "" {
      assert |a| == 0;
    } else {
      var r := Trim(s);
      assert a[0] == r[0];
      assert s[|s| - |a|] == a[0];
    }
  }

  // ----------------------------------------------------- splitting, joining

  /** `s.split(re)` for a regular expression matching exactly one character of
      `seps`: always at least one part, and no part holds a separator. */
  function Split(s: string, seps: set<char>): (r: seq<string>)
    ensures |r| >= 1
    ensures forall k, j :: 0 <= k < |r| && 0 <= j < |r[k]| ==> r[k][j] !in seps
    decreases |s|
  {
    if |s| == 0 then [""]
    else if s[0] in seps then [""] + Split(s[1..], seps)
    else
      var t := Split(s[1..], seps);
      [[s[0]] + t[0]] + t[1..]
  }

  /** `parts.join(sep)`. */
  function Join(parts: seq<string>, sep: string): string {
    if |parts| == 0 then ""
    else if |parts| == 1 then parts[0]
    else parts[0] + sep + Join(parts[1..], sep)
  }

  predicate NoneIn(s: string, seps: set<char>) {
    forall j :: 0 <= j < |s| ==> s[j] !in seps
  }

  /** Splitting a string with no separator in it gives that string back. */
  lemma {:induction false} SplitNoSeparator(s: string, seps: set<char>)
    requires NoneIn(s, seps)
    ensures Split(s, seps) == [s]
    decreases |s|
  {
    if |s| > 0 {
      SplitNoSeparator(s[1..], seps);
      assert [s[0]] + s[1..] == s;
    }
  }

  /** Splitting at the first separator. */
  lemma {:induction false} SplitAtSeparator(a: string, c: char, b: string, seps: set<char>)
    requires NoneIn(a, seps) && c in seps
    ensures Split(a + [c] + b, seps) == [a] + Split(b, seps)
    decreases |a|
  {
    if |a| == 0 {
      assert a + [c] + b == [c] + b;
      assert ([c] + b)[1..] == b;
    } else {
      var s := a + [c] + b;
      assert s[0] == a[0] && s[1..] == a[1..] + [c] + b;
      SplitAtSeparator(a[1..], c, b, seps);
      assert [a[0]] + a[1..] == a;
    }
  }

  /** Split undoes Join when the separator is a single character that no part contains. */
  lemma {:induction false} SplitJoin(parts: seq<string>, c: char)
    requires |parts| >= 1
    requires forall k :: 0 <= k < |parts| ==> NoneIn(parts[k], {c})
    ensures Split(Join(parts, [c]), {c}) == parts
    decreases |parts|
  {
    if |parts| == 1 {
      SplitNoSeparator(parts[0], {c});
    } else {
      SplitJoin(parts[1..], c);
      assert parts[0] + [c] + Join(parts[1..], [c]) == Join(parts, [c]);
      SplitAtSeparator(parts[0], c, Join(parts[1..], [c]), {c});
      assert [parts[0]] + parts[1..] == parts;
    }
  }
  /** Index of the last character of s that is in cs, or -1. */
  function LastIndexIn(s: string, cs: set<char>): (i: int)
    ensures -1 <= i < |s|
    ensures i >= 0 ==> s[i] in cs
    ensures forall j :: i < j < |s| ==> s[j] !in cs
  {
    if |s| == 0 then -1
    else if s[|s| - 1] in cs then |s| - 1
    else LastIndexIn(s[..|s| - 1], cs)
  }

  /** s with every character of seps replaced by x. */
  function ReplaceChars(s: string, seps: set<char>, x: char): (r: string)
    ensures |r| == |s|
    ensures forall j :: 0 <= j < |s| ==> r[j] == (if s[j] in seps then x else s[j])
  {
    if |s| == 0 then "" else [if s[0] in seps then x else s[0]] + ReplaceChars(s[1..], seps, x)
  }

  /** Splitting at the last separator: the final part is what follows it. */
  lemma {:induction false} SplitLast(a: string, c: char, b: string, seps: set<char>)
    requires c in seps && NoneIn(b, seps)
    ensures Split(a + [c] + b, seps) == Split(a, seps) + [b]
    decreases |a|
  {
    if |a| == 0 {
      assert a + [c] + b == [c] + b;
      assert ([c] + b)[1..] == b;
      SplitNoSeparator(b, seps);
    } else {
      var s := a + [c] + b;
      assert s[0] == a[0] && s[1..] == a[1..] + [c] + b;
      SplitLast(a[1..], c, b, seps);
      if a[0] !in seps {
        var u := Split(a[1..], seps);
        var t := Split(s[1..], seps);
        assert t == u + [b];
        assert t[0] == u[0];
        assert t[1..] == u[1..] + [b];
      }
    }
  }

  /** Joining the parts of a split with x puts x where each separator was. */
  lemma {:induction false} JoinSplit(a: string, seps: set<char>, x: char)
    ensures Join(Split(a, seps), [x]) == ReplaceChars(a, seps, x)
    decreases |a|
  {
    if |a| > 0 {
      JoinSplit(a[1..], seps, x);
      var u := Split(a[1..], seps);
      if a[0] in seps {
        assert Split(a, seps) == [""] + u;
        assert ([""] + u)[1..] == u;
      } else {
        var parts := Split(a, seps);
        assert parts == [[a[0]] + u[0]] + u[1..];
        if |u| > 1 {
          assert parts[1..] == u[1..];
          assert Join(u, [x]) == u[0] + [x] + Join(u[1..], [x]);
        }
      }
    }
  }

  /** A line of non-ASCII blanks (no-break, ideographic and narrow spaces,
      a byte order mark, a line separator) trims to nothing. */
  lemma UnicodeBlanksTrimmed()
    ensures Trim("\U{00A0}\U{3000}\U{202F}\U{FEFF}\U{2028}") == ""
  {
    TrimEmpty("\U{00A0}\U{3000}\U{202F}\U{FEFF}\U{2028}");
  }
}

=== FILE: wrappers.dfy ===
/** Failure-carrying result types shared by every module of the model. */
module Wrappers {

  /** A value that may be missing: JavaScript's `null` / `undefined`. */
  datatype Option<+T> = None | Some(value: T)

  /** The outcome of an operation that may be refused with an error message. */
  datatype Result<+T> = Ok(value: T) | Err(message: string)
}
